=== FILE: README.md ===
# InsomBot core, modelled in Dafny

InsomBot is a Discord bot built around a registry of command modules. The
bot (`bot.js`) loads each module from its file and registers it under its
name. Each enabled module claims its trigger words in a trigger table, where
the first module to claim a word keeps it. A chat message is dispatched by
its first word: the module that owns the word is asked whether the sender
may use it, its `Message` handler answers, and the answer is routed by its
kind (text, file, direct message, embed, plain object). Modules share a base
class (`lib/CommandModule.js`) that holds the configuration with its
defaults, the trigger list, the parsing of a message into trigger and
parameters, and the permission rule (owner, owner-only, unrestricted, or a
shared role).

The model covers that registry and its dispatch, and the command modules
built on it:

- the administration module (`Manage`): enable, disable, reload, listings, configuration;
- `Help`;
- the attendance and kill bookkeeping over combat reports (`Attendance`, `RaidStats`, the boss name matcher, the player record);
- the per-channel raffles and dice rolls (`Roll` and both `Raffle` classes);
- the per-channel break timers (`Break` and both `BreakTimer` classes);
- the small widgets: the affix rotation, the progress spinner, the progress bar, the rekt list, the embed builder and the table flip;
- the integer helpers shared by all of them (`getIntegerBetween`, `relativeTime`, `objectIterator`).

Parts of the source that change state in place are Dafny classes with
`modifies` frames, and their loops are `while` loops with invariants. Each
such method is proved against a specification function, and the properties
are proved about those functions as lemmas. Examples of such parts are the
bot's module and trigger tables, a module's triggers and configuration, the
raffle rolls, the timers, the embed fields, the spinner index and the
counters in the report loops. Pure parts are functions with contracts.

Two modules hold JavaScript's own behaviour where the source relies on it:

- `Js`: `parseInt`, `split`, `trim`, lower-casing, truthiness, thrown values;
- `OrderedDict`: objects used as insertion-ordered dictionaries.

Clock readings, random draws, the outcome of loading a module's file and
whatever the chat service hands back are parameters.

The code is followed where it differs from the documentation of the bot. A
module that answers with nothing does not stay silent: `sendReply` throws
"the command/query surprisingly had no response.", and the `catch` of
`processMessage` sends that text to the author. Where the code is evidently
wrong, both the code as written and the corrected behaviour are modelled;
see "## Findings".

## Model

| member | source | states |
|---|---|---|
| Common.ObjectValues | lib/common.js:10-16 | one value per own key, each the value stored under that key, in key order |
| Common.ObjectValuesCover | lib/common.js:10-16 | every value stored under a key is among those yielded |
| Common.Given | lib/common.js:42-45 | the number is present exactly when the text is non-empty, parses and is non-zero, and then it is the parsed value |
| Common.GetIntegerBetween | lib/common.js:41-57 | a falsy value gives the default; otherwise below `min` gives `min`, above `max` gives `max`, and a value in between is returned as parsed |
| Common.GetIntegerBetweenRange | lib/common.js:41-57 | with `min <= max` the result is the default or lies within the range |
| Common.GetIntegerBetweenOfString | common.js:21-37 | the decimal text of a non-zero number in range comes back as that number |
| Common.Rest | lib/common.js:70-73 | what is left after taking out whole units is below the unit size, and no more than a non-negative amount |
| Common.Parts | lib/common.js:69-76 | only non-zero components are kept |
| Common.PartsSum | lib/common.js:69-76 | the components times their unit sizes, plus what is left over, add back up to the amount |
| Common.RemainderUnit | lib/common.js:60-76 | a unit table ending with a unit of size one leaves nothing over |
| Common.MsPartsSum | lib/common.js:59-76 | over d, h, m, s, ms the components add up to the input milliseconds exactly |
| Common.SecondPartsSum | common.js:39-57 | over d, h, m, s the components add up to the whole seconds |
| Common.PartsBelow | lib/common.js:69-76 | when every unit of the table is below a bound, so is every component's unit |
| Common.PartsOrdered | lib/common.js:60-76 | components come in the table's order, largest unit first |
| Common.PartsBounded | lib/common.js:69-76 | from a non-negative amount every component is positive and stands for no more than the amount |
| Common.PartsBelowFirst | common.js:40-57 | every component other than the first unit is worth less than one first unit: only days can exceed their natural limit |
| Common.ZeroIsEmpty | lib/common.js:59-79 | a zero duration has no components and is shown as the empty string |
| Common.ZeroHasNoParts | common.js:48-57 | a zero duration has no components |
| Common.ShownAtMostTwo | lib/common.js:78 | the text, split on spaces, is the first rendered component and, when there are two or more, the second, and nothing else |
| Common.Decompose | lib/common.js:67-76 | the loop builds exactly the components of the decomposition |
| Common.RelativeTimeMs | lib/common.js:59-79 | the text shows the first two components of the millisecond decomposition |
| Common.RelativeTimeSeconds | common.js:39-60 | the text shows the first two components of the whole-second decomposition of `ms / 1000`, fractions dropped |
| BossNames.Lowered | modules/lib/BossNameMatcher.js:6 | the kept names are the given names lower-cased, one for one, in order |
| BossNames.Hits | modules/lib/BossNameMatcher.js:13-15 | the number of hits is at most the number of names |
| BossNames.HitsPositive | modules/lib/BossNameMatcher.js:13-15 | the sum is positive exactly when some name occurs in the lower-cased fight name |
| BossNames.NoNamesNoMatch | modules/lib/BossNameMatcher.js:13-15 | an empty name list matches no fight |
| BossNames.LowerIdempotent | modules/lib/BossNameMatcher.js:6-10 | lower-casing twice is lower-casing once |
| BossNames.MatchIgnoresCase | modules/lib/BossNameMatcher.js:6-15 | the answer does not depend on the case of the fight name or of the boss names |
| BossNames.BossNameMatcher.constructor | modules/lib/BossNameMatcher.js:4-7 | an empty cache and the lower-cased names |
| BossNames.BossNameMatcher.Match | modules/lib/BossNameMatcher.js:9-19 | the answer is the test's; a cached answer is returned unchanged; afterwards the cache holds the answer under the fight name and nothing else changed |
| PlayerRecords.NewPlayer | modules/util/PlayerAttendance.js:1-23 | every supplied field replaces its default whole; a missing one keeps the empty name, zero dates or empty tallies |
| PlayerRecords.EmptyPlayer | modules/util/PlayerAttendance.js:1-23 | with no data every field has its default |
| PlayerRecords.OverrideIsShallow | modules/util/PlayerAttendance.js:20-22 | supplying only some top-level fields leaves both tallies at their defaults |
| AltMapping.PutAlts | modules/Attendance.js:150-152 | after indexing the alts of one main, each of them points at that main and every other entry is unchanged |
| AltMapping.Invert | modules/Attendance.js:147-157 | the index has a value for exactly its listed keys |
| AltMapping.InvertKeys | modules/Attendance.js:147-157 | an alt is indexed exactly when some main lists it |
| AltMapping.InvertUnique | modules/Attendance.js:147-157 | an alt listed under exactly one main is indexed to that main |
| AltMapping.AltIndex | modules/Attendance.js:147-157 | the alt-to-main index has a value for exactly its listed keys |
| AltMapping.Group | modules/Attendance.js:159-171 | the regrouped mapping has a value for exactly its listed keys |
| AltMapping.Grouped | modules/Attendance.js:159-171 | the main-to-alts mapping has a value for exactly its listed keys |
| AltMapping.GroupHasAlt | modules/Attendance.js:162-167 | every alt is listed under its own main |
| AltMapping.GroupOnly | modules/Attendance.js:162-167 | a main lists only alts that point at it |
| AltMapping.GroupNonEmpty | modules/Attendance.js:162-167 | no main ends up with an empty list |
| AltMapping.IndexOfGrouped | modules/Attendance.js:503-504 | regrouping an index and indexing the result again gives back the same index (the unmapping path of `_manageAlts`) |
| AltMapping.IndexedUnder | modules/Attendance.js:147-157 | without shared alts, an alt is indexed to the main that lists it |
| AltMapping.IndexedFrom | modules/Attendance.js:147-157 | without shared alts, an indexed alt is listed under the main it points at |
| AltMapping.GroupedOfIndex | modules/Attendance.js:510-520 | without shared alts, indexing and regrouping keeps every main with at least one alt, with the same alts, and no other main |
| AltMapping.MakeMainsToAltMapping | modules/Attendance.js:147-157 | the two nested loops build exactly the alt-to-main index |
| AltMapping.MakeAltToMainsMapping | modules/Attendance.js:159-171 | the loop builds exactly the regrouped mapping, creating a main's list on first sight |
| AttendanceArgs.LeadingNames | modules/Attendance.js:559-561 | the names are a prefix of the parameters, each one name-like, and the next parameter, if any, is not |
| AttendanceArgs.Flags | modules/Attendance.js:563-586 | the option loop never changes the character list or the `rm`/`reset` flags |
| AttendanceArgs.ArgumentsOf | modules/Attendance.js:537-593 | `rm` sets excludeName, `reset` sets clearExcludeName, and the character list is the leading names after them, or null when there are none |
| AttendanceArgs.FlagsRaidsPositive | modules/Attendance.js:584 | with a default of at least one, the option loop leaves a raid count of at least one |
| AttendanceArgs.ArgumentsRaidsPositive | modules/Attendance.js:537-593 | parsed arguments always ask for at least one raid |
| AttendanceArgs.LeadingNamesStop | modules/Attendance.js:559-561 | name-like parameters followed by one that is not are taken as the character list exactly |
| AttendanceArgs.DiffNeedsValue | modules/Attendance.js:567-570 | a trailing `-diff` with nothing after it is refused with the difficulty message |
| AttendanceArgs.GetArguments | modules/Attendance.js:537-593 | the method returns or throws exactly what the specification says |
| AttendanceArgs.TakeNames | modules/Attendance.js:559-561 | the first loop takes exactly the leading names |
| AttendanceArgs.TakeFlags | modules/Attendance.js:563-586 | the second loop computes exactly the option loop's result |
| Attendance.Excluding | modules/Attendance.js:896-903 | the new list is the old list followed by the names reported as added |
| Attendance.ExcludingAdds | modules/Attendance.js:896-903 | the list afterwards holds exactly the old names and the given ones; only names that were missing are reported; a list without repeats stays without repeats |
| Attendance.SpliceOut | modules/Attendance.js:918 | splicing out one element shortens the list by one |
| Attendance.SpliceOutDistinct | modules/Attendance.js:915-919 | on a list without repeats, splicing out a name removes that name and nothing else |
| Attendance.Clear | modules/Attendance.js:916-923 | every name reported as cleared was taken off the list, one for one |
| Attendance.ClearRemoves | modules/Attendance.js:916-923 | clearing only removes names and reports only names that were on the list; on a list without repeats it removes exactly the given names |
| Attendance.PushMissing | modules/Attendance.js:896-903 | the loop of `_excludeName` computes exactly the exclusion |
| Attendance.SpliceFound | modules/Attendance.js:916-923 | the loop of `_clearExcludedName` computes exactly the clearing |
| Attendance.BossFightIds | modules/Attendance.js:187-188 | a report has no more boss fights than fights |
| Attendance.Resolve | modules/Attendance.js:293-295 | an indexed alt resolves to its main; any other name to itself |
| Attendance.PossibleReports | modules/Attendance.js:277-291 | the possible raids are exactly the raids that started no earlier than the player's first attendance |
| Attendance.VisitOk | modules/Attendance.js:221-233 | recording a player in the latest raid keeps that player's record consistent |
| Attendance.AttendConsistent | modules/Attendance.js:206-233 | recording one attendee keeps the whole attendance consistent and leaves the raids unchanged |
| Attendance.AttendAllConsistent | modules/Attendance.js:203-234 | recording every attendee of a report keeps the attendance consistent |
| Attendance.GrowRaids | modules/Attendance.js:196-200 | adding a raid entry keeps every player's raids accounted for |
| Attendance.CollectConsistent | modules/Attendance.js:186-235 | with an exclude list, the report loop never fails and keeps the attendance consistent |
| Attendance.AttendedArePossible | modules/Attendance.js:183-238 | first attendance is never after the last, no raid is counted twice for a player, every attended raid is among the player's possible raids, and no excluded name is recorded |
| Attendance.Select | modules/Attendance.js:245-252 | exactly the players whose lower-cased name starts with one of the lower-cased names are kept |
| Attendance.FilterSpecificCharacter | modules/Attendance.js:241-261 | the matching players in table order, or the "no players found" error exactly when none matches |
| Attendance.WithAlt | modules/Attendance.js:513-517 | pushing an alt under a main keeps every listed main keyed |
| Attendance.AttendanceModule.constructor | modules/Attendance.js:27-77 | the module keeps the configured mapping and exclusion list, and its alt index is the inverse of the mapping, so the class invariant holds |
| Attendance.AttendanceModule.ManageAlts | modules/Attendance.js:485-523 | the argument-count, main-as-alt, already-unmapped and already-mapped refusals, each leaving the tables unchanged; unmapping removes the alt from the index and regroups the mapping; mapping pushes the alt under its main and rebuilds the index, after which the alt resolves to that main |
| Attendance.AttendanceModule.ExcludeName | modules/Attendance.js:890-909 | the list is created when missing; each missing name is pushed and reported; a null name list throws a TypeError after the list is created |
| Attendance.AttendanceModule.ClearExcludedName | modules/Attendance.js:911-932 | without a list nothing changes; otherwise each name found is spliced out and reported; a null name list throws a TypeError |
| Attendance.AttendanceModule.CollectAttendance | modules/Attendance.js:183-238 | the loop computes exactly the fold over the reports |
| Attendance.AttendanceModule.AttendReport | modules/Attendance.js:186-234 | one report is processed exactly as the fold's step |
| Attendance.MappedAltResolves | modules/Attendance.js:510-520 | after mapping, an alt that was unmapped is indexed to its new main |
| Attendance.MessageAction | modules/Attendance.js:1017-1079 | the arguments are parsed first for every trigger, so a bad `-diff` fails any command; `kills`/`knw` without parameters ask which boss; `missed` without a name is refused; `att rm` excludes |
| Attendance.BareRmHasNoNames | modules/Attendance.js:1064-1066 | `!att rm` with no name reaches the exclusion with a null list |
| RaidStats.DifficultyName | modules/RaidStats.js:48-52 | codes 3, 4 and 5 name Normal, Heroic and Mythic, each exactly; any other code gives the key "undefined" |
| RaidStats.RelevantFights | modules/RaidStats.js:55-58 | the counted fights of one boss and difficulty are no more than the report's fights |
| RaidStats.Update | modules/RaidStats.js:75-83 | a kill adds one to the kill count and nothing else does |
| RaidStats.StepStats | modules/RaidStats.js:55-83 | one fight changes only the tally of its own boss and difficulty, and that one as a single update |
| RaidStats.FoldStats | modules/RaidStats.js:45-91 | over a report, each tally sees exactly the counted fights of its boss and difficulty, in order |
| RaidStats.FirstKill | modules/RaidStats.js:76-78 | the first kill, when there is one, is a killing fight of the list, and there is none exactly when the list has no kill |
| RaidStats.KillsCounted | modules/RaidStats.js:80 | every kill is counted |
| RaidStats.KilledStaysPut | modules/RaidStats.js:76-82 | once there is a kill, neither the wipes nor the first-kill time move again |
| RaidStats.FirstKillStamped | modules/RaidStats.js:75-83 | from no kill, the wipes added are those before the first kill, and the first-kill time is the report start plus that fight's start |
| RaidStats.GetKillCountEx | modules/RaidStats.js:45-91 | throws the no-match message exactly when no fight is a matching boss fight; otherwise the tallies are the fold over the report |
| RaidStats.Append | modules/RaidStats.js:130-139 | recording an event adds at most one run, and the last run is of that event |
| RaidStats.Repeat | modules/RaidStats.js:134 | a run of `n` is `n` copies of its event |
| RaidStats.AppendRunLength | modules/RaidStats.js:130-139 | recording an event keeps the timeline in run-length form: no two neighbouring runs of the same event, no empty run |
| RaidStats.AppendExpand | modules/RaidStats.js:130-139 | recording an event appends exactly that event to the events the timeline stands for |
| RaidStats.FoldTimeline | modules/RaidStats.js:103-140 | over a report, each timeline sees exactly the counted fights of its boss and difficulty |
| RaidStats.AppendAllRunLength | modules/RaidStats.js:119-139 | appending a run of fights keeps the run-length form |
| RaidStats.AppendAllExpand | modules/RaidStats.js:119-139 | appending a run of fights adds exactly their kill and wipe events, in order; other fights add nothing |
| RaidStats.TimelineGrows | modules/RaidStats.js:93-147 | each timeline stays in run-length form and grows by the events of exactly the counted fights of its boss and difficulty |
| RaidStats.GetWipeCount | modules/RaidStats.js:93-147 | throws the no-match message exactly when no fight is a matching boss fight; otherwise the timelines are the fold over the report |
| RaidStats.MessageQuery | modules/RaidStats.js:246-265 | no boss text is refused before anything is fetched; `kills` and `knw` pick their report, other triggers answer nothing |
| CommandModule.Defaults | lib/CommandModule.js:9-13 | a module starts disabled, not owner-only, with an empty role list |
| CommandModule.ModuleName | lib/CommandModule.js:18-20 | a trailing `Module` is dropped, and only that; any other class name is kept whole |
| CommandModule.ModuleNameOfSuffixed | lib/CommandModule.js:18-20 | a class called `<name>Module` is known by `<name>` |
| CommandModule.WordRun | lib/CommandModule.js:47 | the longest prefix of word characters: a prefix, all word characters, and followed by a non-word character or nothing |
| CommandModule.GetTrigger | lib/CommandModule.js:46-48 | a trigger exists exactly when the text starts with `!` and a word character; it is then the whole word after the `!` |
| CommandModule.StripTrigger | lib/CommandModule.js:52 | removing the trigger leaves exactly what follows `!trigger`, and a text without one is left alone |
| CommandModule.CollapseFirstRun | lib/CommandModule.js:53 | a text without spaces is left alone |
| CommandModule.SkipSpaces | lib/CommandModule.js:54 | the result is a suffix of the text and does not start with a space |
| CommandModule.GetParams | lib/CommandModule.js:50-57 | no parameters exactly when the cleaned-up text is empty; no parameter contains a space |
| CommandModule.GetParamsJoin | lib/CommandModule.js:50-57 | the parameters joined with single spaces give back the cleaned-up text |
| CommandModule.ReadCommand | lib/CommandModule.js:46-57 | a message `!trigger word1 word2 ...` yields `trigger` and exactly those words |
| CommandModule.StripKnownTrigger | lib/CommandModule.js:46-52 | a word followed by a non-word character is read as the trigger and stripped off exactly |
| CommandModule.CollapseLeadingSpace | lib/CommandModule.js:53 | a single leading space is kept as it is |
| CommandModule.TrimLeadingSpace | lib/CommandModule.js:54 | trimming removes exactly the one leading space from text without outer white space |
| CommandModule.WordRunStops | lib/CommandModule.js:47 | the word run stops at the first non-word character |
| CommandModule.JoinTokens | lib/CommandModule.js:54-56 | words joined with spaces neither start nor end with white space, so trimming leaves them alone |
| CommandModule.FirstCommon | lib/CommandModule.js:81-85 | the first of the member's roles, in the member's order, that the module lists; none exactly when they share no role |
| CommandModule.CommandModule.constructor | lib/CommandModule.js:4-14 | the defaults overridden by the given configuration, no triggers, and whether the module is built on `lib/CommandModule.js` rather than the root base class |
| CommandModule.CommandModule.SetEnabled | lib/CommandModule.js:26-27 | writing `enabled` changes only that setting, and reading it back gives the value written |
| CommandModule.CommandModule.AddTrigger | lib/CommandModule.js:40-44 | registers or replaces the one trigger, leaves the configuration alone and returns the module itself |
| CommandModule.CommandModule.MergeConfig | lib/CommandModule.js:9-13 | the module's own settings override the current configuration key by key |
| CommandModule.CommandModule.ClearTriggers | lib/CommandModule.js:34-38 | no triggers are left, the configuration is untouched, and the module itself is returned |
| CommandModule.CommandModule.Allowed | lib/CommandModule.js:59-88 | the guild owner always passes as Owner; an owner-only module refuses everyone else as Owner; a module without roles lets everyone in as Unrestricted; otherwise the member passes exactly when sharing a role, and the reason names the member's first shared role |
| Bot.BindValid | bot.js:232-247 | binding keeps the trigger table well formed |
| Bot.UnbindValid | bot.js:210-219 | releasing keeps the trigger table well formed |
| Bot.BindVals | bot.js:232-247 | the first module to claim a word keeps it: binding never changes an existing binding, binds every unbound word of the module to it, and binds nothing else |
| Bot.UnbindVals | bot.js:210-219 | releasing deletes exactly the module's words bound to it and leaves every other binding as it was |
| Bot.EnableDisableEnable | bot.js:118-155 | enabling, disabling and enabling again gives back the same bindings |
| Bot.BindOwnsFreeWords | bot.js:232-247 | a module's word not taken by another module is bound to it after binding |
| Bot.TriggerTable | lib/CommandModule.js:40-44 | the table left by a series of `addTrigger` calls has exactly the words added |
| Bot.Instantiate | bot.js:88 | a factory that throws gives its error and builds nothing; otherwise a fresh module of the file's class, with the defaults, the handed configuration and the module's own settings merged in that order, and its triggers |
| Bot.Construct | bot.js:88 | the constructor's part: a fresh module of the file's class with the merged configuration and the class's triggers |
| Bot.EnabledSetting | bot.js:73 | a module with no `enabled` setting is enabled; otherwise the setting is used |
| Bot.Granted | bot.js:85-87 | the handed configuration is enabled exactly when `enabled` is missing or truthy, and every other setting is kept |
| Bot.GrantedTwice | bot.js:85-87 | writing `enabled` back a second time changes nothing, and never changes whether the module is blacklisted |
| Bot.ThrownReply | bot.js:399-403 | a thrown value is falsy exactly when it is `undefined` or the empty string |
| Bot.SendReply | bot.js:279-339 | a falsy reply throws the no-response text; a string replies to the author; a file embed posts its file and caption (empty when absent); a direct message goes to the author; an embed is posted; another object posts its `content`; a truthy number leaves no promise and throws a TypeError |
| Bot.Catch | bot.js:399-403 | a falsy error is dropped; any other is sent like a reply |
| Bot.Answer | bot.js:394-403 | a resolved non-falsy reply is sent; a rejection goes to the `catch` |
| Bot.EmptyAnswerIsReported | bot.js:282-284 | a module answering with nothing makes `sendReply` throw, and the `catch` of `processMessage` tells the author so |
| Bot.EmptyRejectionIsSilent | bot.js:399-403 | a module rejecting with nothing stays silent |
| Bot.RejectedTextAnswers | bot.js:394-403 | a rejection with a text answers the author exactly like a resolved text |
| Bot.FirstWord | bot.js:365 | the first word holds no space, is a prefix of the message, and is followed by a space or nothing |
| Bot.ConfigsOfAll | bot.js:195-197 | the collected settings have exactly the walked keys, each with its module's configuration |
| Bot.ConfigsOfStep | bot.js:195-197 | one step of the loop adds one module's configuration |
| Bot.ConfigsOfKeys | bot.js:192-198 | walking all keys collects every module's configuration |
| Bot.DiscordBot.constructor | bot.js:19-26 | no modules and no triggers, and the persisted settings are the environment's |
| Bot.DiscordBot.ModuleByName | bot.js:353-357 | the module exactly when the name is registered, else `undefined` |
| Bot.DiscordBot.ModuleByTrigger | bot.js:345-351 | an unbound word gives nothing; a bound word gives the module its name is registered under, and nothing when that name is not registered |
| Bot.DiscordBot.LoadModuleTriggers | bot.js:227-248 | the table becomes the binding of the module's words to its name; modules and settings are unchanged |
| Bot.DiscordBot.UnloadModuleTriggers | bot.js:205-220 | the table becomes the release of the module's words; modules and settings are unchanged |
| Bot.DiscordBot.UpdateConfig | bot.js:192-198 | every module's configuration is copied into the persisted settings and nothing else changes |
| Bot.DiscordBot.LoadModule | bot.js:70-104 | fails exactly when the module is not blacklisted and its factory throws; a blacklisted module changes nothing; otherwise `enabled` is written back into its settings, and then a throwing factory registers nothing and binds nothing, while any other registers a fresh module with that configuration and binds its triggers exactly when it is enabled |
| Bot.DiscordBot.Install | bot.js:91-95 | registers the built module under its name and binds its triggers exactly when it is enabled; the persisted settings are untouched |
| Bot.DiscordBot.Persist | bot.js:85-87 | writes one module's settings back when it has any, and changes nothing else |
| Bot.DiscordBot.Register | bot.js:91 | adds the module under its name and changes nothing else |
| Bot.DiscordBot.LoadModules | bot.js:58-68 | stops at the first module whose factory throws and returns its position and error, every earlier module loaded; without a throw every listed module that is not blacklisted is registered; no module outside the loaded part of the list appears |
| Bot.DiscordBot.DisableModule | bot.js:118-136 | an unknown or already disabled module throws an Error and nothing changes; otherwise the module is switched off, its triggers released and the settings refreshed |
| Bot.DiscordBot.EnableModule | bot.js:138-155 | an unknown or already enabled module throws a string and nothing changes; otherwise the module is switched on, its free triggers bound and the settings refreshed |
| Bot.DiscordBot.ReloadModule | bot.js:157-169 | an unknown module throws and changes nothing; an unknown file or a failed purge throws its error after the triggers are released, keeping the registration and the settings; otherwise the module is dropped, and then removed for good when blacklisted or when its factory throws (with that error), or replaced by a fresh module with the persisted configuration whose triggers are bound exactly when it is enabled; other modules are untouched |
| Bot.DiscordBot.ProcessMessage | bot.js:364-408 | an unbound first word is ignored; a module on `lib/CommandModule.js`, or a throwing `allowed`, fails the dispatch with that error; a falsy result fails it with `Access denied.` and nothing is sent; a permission object lets the module's answer be sent whatever its `check` says |
| Bot.DiscordBot.ProcessMessageChecked | bot.js:372-385 | the sender is checked: an allowed caller gets the module's answer; for a refused one the dispatch fails with `Access denied.` and nothing is sent to the caller |
| Bot.GateNeverDenies | bot.js:372-385 | as written, for a module on the root base class whose `allowed` returns a permission object, the module's answer is sent whatever the permission says, and the dispatch never fails with `Access denied.` |
| Bot.LibModulesNeverAnswer | bot.js:372-385 | a module on `lib/CommandModule.js` is handed the member where its `allowed` expects a message, so its dispatch always fails with the same TypeError, whatever it would answer |
| Bot.CheckedGateAdmitsOnlyAllowed | bot.js:372-385 | with the gate as intended, a module answers only a caller it allows; for a refused caller the dispatch fails with `Access denied.`, nothing is sent and the module does not run |
| Manage.RejectWithMessage | modules/Manage.js:88-90 | as written: an Error or TypeError rejects with its message, a thrown string rejects with `undefined` |
| Manage.EnableRefusalIsSilent | modules/Manage.js:102-107 | as written, a refusal thrown as a string by the bot reaches the chat as nothing at all |
| Manage.RejectWithReason | modules/Manage.js:105-107 | as intended, whatever was thrown, its text is what the caller is told |
| Manage.RefusalIsReported | modules/Manage.js:105-107 | with the intended rejection every refusal with a text reaches the author as that text |
| Manage.DisableCommand | modules/Manage.js:76-91 | no name, the Manage module itself, an unknown and an already disabled module are refused with their texts and the bindings unchanged; otherwise the module is disabled, its triggers released, the settings refreshed, and no other module's configuration changes |
| Manage.EnableCommand | modules/Manage.js:93-108 | no name and the Manage module itself are refused with their texts; as written an unknown or an already enabled module is refused with nothing, the bindings and its configuration unchanged; otherwise the module is enabled, its free triggers bound and the settings refreshed |
| Manage.EnableCommandReported | modules/Manage.js:93-108 | as intended: the same, except that an unknown module and an already enabled one are refused with the bot's texts |
| Manage.ReloadCommand | modules/Manage.js:110-117 | the disable refusals are the reload's; for an enabled module the answer is the reload outcome for its settings with `enabled` off: a module removed by the reload is no longer registered, and one built again is fresh and enabled |
| Manage.ReloadSucceedsOnlyWhenBuilt | modules/Manage.js:110-117 | the reload answers "has been reloaded." exactly when a fresh module was built and its class does not enable itself |
| Manage.ReloadDisabled | modules/Manage.js:111-116 | reloading and re-enabling a disabled module settles as the reload outcome; a blacklisted module or a throwing factory leaves it unregistered; a built one is fresh and enabled |
| Manage.ReloadStep | bot.js:157-169 | the reload step of `_reloadModule` fails exactly on an unknown file, a failed purge or a throwing factory, with the error the reload answers; a blacklisted module or a throwing factory leaves it unregistered; a built one is fresh, and enabled exactly when its class switches it on |
| Manage.ReloadedEnabled | bot.js:85-88 | a module rebuilt from settings with `enabled` off is enabled exactly when its class writes a truthy `enabled` |
| Manage.EnableReloaded | modules/Manage.js:113-116 | the closing enable of a reload: an unregistered module is refused with nothing; a registered one ends up enabled, and the reload answers only when it was not already enabled |
| Manage.ModuleLine | modules/Manage.js:131-135 | an enabled module's line starts with a checked box and a bold name, a disabled one's with an empty box |
| Manage.ModuleLines | modules/Manage.js:123-136 | one line per registered module, in registration order, each marking whether it is enabled |
| Manage.DisplayModules | modules/Manage.js:119-141 | the listing is the heading followed by the module lines |
| Manage.TriggerLines | modules/Manage.js:147-153 | one line per bound word, naming the module it is bound to |
| Manage.DisplayTriggers | modules/Manage.js:143-158 | the listing is the trigger lines between newlines |
| Manage.ShownValue | modules/Manage.js:269-271 | a key mentioning `pass` in any case shows `<Password Hidden>`; any other shows its value |
| Manage.CvarLines | modules/Manage.js:266-274 | one line per flattened setting, in order |
| Manage.CvarLinesHidePasswords | modules/Manage.js:266-274 | no line of the listing shows the value of a key that mentions a password |
| Manage.ListSettings | modules/Manage.js:264-274 | the loop builds exactly the concatenated lines |
| Manage.CvarCommand | modules/Manage.js:175-277 | `set` needs a path and a value and `del` a path, else "Insufficient arguments given."; with them, the configuration is edited at that path; anything else lists the whole configuration or the named subsection |
| Manage.Route | modules/Manage.js:315-330 | each of the nine trigger words picks exactly its own command, and any other word none |
| Manage.RoutesOnlyRegistered | modules/Manage.js:17-55 | a message reaches a command exactly when its trigger is one of the nine words the module registers |
| Manage.RegisteredWordRouted | modules/Manage.js:315-330 | every registered trigger, followed by a space or other non-word character, reaches a command |
| Help.Definition | modules/Help.js:5-19 | the help module's class name, on the root base class, no extra settings, a factory that never throws, and the single trigger `!help` with a description |
| Help.AllowedModules | modules/Help.js:21-24 | as written: fails exactly when `allowed` throws for some enabled module (always so for a module on `lib/CommandModule.js`); otherwise lists exactly the enabled modules whose `allowed` returns a permission object, whatever that permission says, and drops those whose result is falsy |
| Help.HelpListsRefusedModules | modules/Help.js:21-24 | as written, when every `allowed` returns a permission object, `!help` lists an enabled module even to a member its roles refuse |
| Help.HelpFailsOnLibModule | modules/Help.js:21-24 | an enabled module on `lib/CommandModule.js` makes the filter throw once the modules before it have passed |
| Help.AllowedModulesChecked | modules/Help.js:21-24 | as intended: exactly the enabled modules whose `allowed` lets the caller in |
| Help.Matching | modules/Help.js:48 | exactly the allowed names equal to the asked name once lower-cased |
| Help.ParamPieces | modules/Help.js:70-74 | one escaped, underlined piece per trigger parameter, in order |
| Help.TriggerEntries | modules/Help.js:67-81 | one entry per trigger of the module, in registration order |
| Help.View | modules/Help.js:52-60 | what the help text reads of a module: its roles, triggers and help text |
| Help.Views | modules/Help.js:22-28 | a view for exactly the registered modules |
| Help.ViewsRegistered | modules/Help.js:51-54 | every listed name has a registered view |
| Help.Sections | modules/Help.js:51-84 | one block per listed module, in order |
| Help.ModuleAnswer | modules/Help.js:90-100 | the answer about one module is `regarding`, its header, the fixed lead-in, its block of trigger entries and its help text, in that order |
| Help.HelpMe | modules/Help.js:36-40 | `!help me` answers with the links, whatever the case of `me` |
| Help.HelpUnknownModule | modules/Help.js:42-46 | a name is refused exactly when no allowed module has it, ignoring case |
| Help.HelpListsEveryAllowedModule | modules/Help.js:51-102 | the full listing holds, in order, one block per allowed module, each opened by its header |
| Help.RenderSection | modules/Help.js:57-83 | the trigger loop builds exactly the module's block |
| Help.RenderTrigger | modules/Help.js:68-80 | one pass of the trigger loop appends exactly the trigger's entry |
| Help.RenderParams | modules/Help.js:70-74 | the parameter loop builds exactly the concatenated pieces |
| Help.RenderSections | modules/Help.js:51-84 | the module loop builds exactly the concatenated blocks |
| Help.GetHelpText | modules/Help.js:26-103 | the method returns exactly the help reply for the parameters and allowed modules |
| Help.HelpCommand | modules/Help.js:105-107 | as written: the command settles with what `_getHelpText` gives for the modules the filter lets through, a rejection when the filter or the missing escaping throws |
| Help.SectionsEscapeFree | modules/Help.js:67-81 | blocks that call no escaping are the same whichever escaping is used |
| Help.HelpOutcomeAgrees | modules/Help.js:26-103 | whenever the help text as written does not throw, it is the help reply, with any escaping at all |
| Help.HelpListingThrows | modules/Help.js:67-81 | as written, any full listing that includes the help module throws the TypeError of the missing `_escapeMarkDown` |
| Help.GetHelpTextAsWritten | modules/Help.js:26-103 | the help text as written: the early answers, the TypeError when a rendered trigger needs escaping, otherwise the reply |
| Help.Settle | modules/Help.js:105-107 | a text resolves with that text and a throw rejects with what was thrown |
| Help.HelpListing | modules/Help.js:26-107 | the as-written help text for the allowed modules, settled |
| Help.HelpCommandChecked | modules/Help.js:21-107 | as intended: resolves with the help text for exactly the modules the caller may use, escaped with the given escaping |
| MessageEmbed.Embed.constructor | modules/util/MessageEmbed.js:4-13 | the default colour and no fields; the title and the description are kept exactly when truthy |
| MessageEmbed.Embed.AddField | modules/util/MessageEmbed.js:15-21 | one field at the end, `inline` false unless given true; the footer is untouched |
| MessageEmbed.Embed.SetFooter | modules/util/MessageEmbed.js:23-28 | the footer is replaced and the fields stay as they are |
| Flip.FlipMessage | modules/Flip.js:17-25 | always resolves with a text: the flipped table exactly when there are no parameters, the table put back exactly when there are some |
| Flip.FlipIgnoresParams | modules/Flip.js:20-22 | only whether there are parameters matters, not what they say |
| Rekt.RequestedCount | modules/Rekt.js:110-118 | 3 by default; otherwise `NaN` exactly when the first parameter does not parse, else the parsed value less one, capped at 10 |
| Rekt.SliceEnd | modules/Rekt.js:122-123 | the end index `slice` uses: `NaN` is 0, a large end stops at the length, a negative end counts from the back |
| Rekt.Ticked | modules/Rekt.js:124 | one ticked line per entry, in order |
| Rekt.PickRektsAsWritten | modules/Rekt.js:109-128 | the answer always opens with the `Not REKT` header |
| Rekt.ZeroListsAllButOne | modules/Rekt.js:114-123 | as written, `!rekt 0` lists 87 of the 88 entries instead of none |
| Rekt.ListedCount | modules/Rekt.js:110-118 | as intended: 3 by default, nothing for a non-number or a count below one, else the count less one, capped at 10 |
| Rekt.Listed | modules/Rekt.js:122-123 | the listed entries are the front of the shuffled copy, as many as counted when there are enough |
| Rekt.PickRekts | modules/Rekt.js:109-128 | the corrected answer also opens with the `Not REKT` header |
| Rekt.ListsCount | modules/Rekt.js:17-128 | the fixed list is longer than any count, so exactly the counted entries are listed |
| Rekt.CorrectedAgreesInRange | modules/Rekt.js:109-128 | for a count of at least one, the corrected answer and the written one agree |
| Rekt.LinesOfPick | modules/Rekt.js:120-125 | splitting the list part at newlines gives back one ticked line per listed entry |
| Rekt.ListedFromFixedList | modules/Rekt.js:122-123 | every listed entry comes from the fixed list, and none more often than it occurs there |
| TestModule.Repeat | modules/Test.js:24-25 | nothing for a count of zero or less; otherwise exactly that many copies of the glyph |
| TestModule.CeilDiv | modules/Test.js:21 | the least quotient whose multiple reaches the dividend |
| TestModule.FillLength | modules/Test.js:21 | the filled length is `ceil(35p/100)` |
| TestModule.FillInRange | modules/Test.js:10-22 | a percentage in range fills between nothing and the whole bar, growing with the percentage, and any positive one fills something |
| TestModule.ProgressBar | modules/Test.js:20-27 | the bar ends with a space, the percentage and `%` |
| TestModule.BarShape | modules/Test.js:20-27 | for 0 to 100 the bar is 35 glyphs, the filled ones first, then the blank ones, then the label |
| TestModule.NaNBar | modules/Test.js:21-26 | a `NaN` percentage draws an all-blank bar labelled `NaN%` |
| TestModule.Bump | modules/Test.js:30-34 | the step adds the increment and caps at 99; `NaN` stays `NaN` |
| TestModule.Shown | modules/Test.js:29-47 | no more bars than increments |
| TestModule.Bars | modules/Test.js:37 | one bar per percentage shown |
| TestModule.ShownCapped | modules/Test.js:32-41 | no percentage shown is above 99, and every one but the last reschedules |
| TestModule.ShownBounded | modules/Test.js:30-41 | with increments of at least 4, a run from below 99 edits the message at most `(102 - p) / 4` times |
| TestModule.NaNRunStops | modules/Test.js:32-41 | a `NaN` start shows one `NaN` bar and stops |
| TestModule.InitialPercentage | modules/Test.js:51 | 0 without a parameter; `NaN` exactly when it does not parse; otherwise at least 1 and at least the parsed value, and the parsed value when that is at least 1 |
| TestModule.TestMessage | modules/Test.js:49-62 | resolves with `false`; the loading text is sent first, then the bars of the run |
| MythicAffix.Advance | modules/MythicAffix.js:35-38 | one step from a valid index moves one place on, wrapping to 0 |
| MythicAffix.AdvanceByInRange | modules/MythicAffix.js:34-39 | from a valid index, any number of steps stays on the rotation |
| MythicAffix.AdvanceByStraight | modules/MythicAffix.js:34-39 | before the end of the list, `n` steps move `n` places on |
| MythicAffix.AdvanceByAdd | modules/MythicAffix.js:34-39 | `a + b` steps are `a` steps followed by `b` more |
| MythicAffix.FullCircle | modules/MythicAffix.js:34-39 | after as many steps as there are pairs, the rotation is back where it started |
| MythicAffix.Steps | modules/MythicAffix.js:34-39 | the do-while body runs the least `k >= 1` times such that `k` weeks after the start is not before now |
| MythicAffix.FindCurrentAffixIndex | modules/MythicAffix.js:30-42 | the loop advances the start pair exactly that many steps |
| MythicAffix.StepsUnique | modules/MythicAffix.js:34-39 | the step count is the only number with those two properties |
| MythicAffix.CurrentIndexInRange | modules/MythicAffix.js:30-42 | with a start pair on the rotation, the current index is always a valid pair |
| MythicAffix.NextWeekAdvances | modules/MythicAffix.js:34-39 | a week later the rotation is one pair further on |
| MythicAffix.GetAffix | modules/MythicAffix.js:44-46 | the pair at a valid index, and `undefined` exactly outside the list |
| MythicAffix.FindNextAffix | modules/MythicAffix.js:21-28 | the pair one step after the current one, wrapping to the first |
| MythicAffix.Block | modules/MythicAffix.js:52 | an affix's block is its name in bold, then its description in italics |
| MythicAffix.Blocks | modules/MythicAffix.js:51-53 | one block per affix, in order |
| MythicAffix.RenderAffix | modules/MythicAffix.js:48-56 | the loop builds exactly the concatenated blocks |
| MythicAffix.RenderInOrder | modules/MythicAffix.js:51-53 | the text for a list is the text for its front followed by the block of the last affix |
| MagicEightBall.Advance | modules/MagicEightBall.js:18-26 | one step moves one glyph on and wraps to 0 after the last |
| MagicEightBall.AdvanceByWraps | modules/MagicEightBall.js:18-26 | from any index, `n` steps land on `(i + n) % 4` |
| MagicEightBall.FourStepsRoundTrip | modules/MagicEightBall.js:8-26 | four steps come back to the same glyph |
| MagicEightBall.ProgressSpinner.constructor | modules/MagicEightBall.js:7-12 | a new spinner starts on the first glyph |
| MagicEightBall.ProgressSpinner.Get | modules/MagicEightBall.js:14-16 | the glyph at the current index, always one of the four |
| MagicEightBall.ProgressSpinner.Next | modules/MagicEightBall.js:18-26 | the index advances and wraps, and the spinner itself is returned |
| RaffleRolls.GetRoll | modules/lib/Raffle.js:51-61 | a missing user gets the whole table; a given user gets that user's roll exactly when the id has rolled, else `false` |
| RaffleRolls.AddRoll | modules/lib/Raffle.js:37-49 | a second roll under the same id throws, and only then |
| RaffleRolls.AddRollAddsOne | modules/lib/Raffle.js:42-46 | an accepted roll adds exactly one entry, at the end: that user's roll is found with its dice and time, and every other user's lookup is as before |
| RaffleRolls.SecondRollRefused | modules/lib/Raffle.js:38-40 | after a user has rolled, any further roll under the same id is refused |
| LibRaffle.Overlay | modules/lib/Raffle.js:17 | fields missing from the restored data keep their values |
| LibRaffle.RestoreRoundTrip | modules/lib/Raffle.js:16-70 | restoring a serialized raffle over any raffle gives back the serialized state |
| LibRaffle.RestoreNothing | modules/lib/Raffle.js:16-22 | restoring nothing changes nothing |
| LibRaffle.GraceEnd | modules/lib/Raffle.js:30-34 | a truthy grace period ends that many minutes from now; otherwise the end is 0 |
| LibRaffle.Raffle.constructor | modules/lib/Raffle.js:7-14 | a timer ending a day from now with the author and a copy of the channel; not ending, no announcement, no rolls |
| LibRaffle.Raffle.Serialize | modules/lib/Raffle.js:63-70 | the timer's fields followed by the raffle's own |
| LibRaffle.Raffle.Restore | modules/lib/Raffle.js:16-22 | the state is the data laid over the old state, and the timer restarts towards the (possibly new) end |
| LibRaffle.Raffle.EndRaffle | modules/lib/Raffle.js:24-35 | the first call marks the raffle as ending and resets the timer to the grace end; later calls change nothing; the rolls are kept |
| LibRaffle.Raffle.AddRoll | modules/lib/Raffle.js:37-49 | the rolls become the accepted table and the raffle is returned, or the refusal is thrown and the rolls are unchanged |
| UtilRaffle.Overlay | modules/util/Raffle.js:17 | fields present in the data win, and missing ones keep their values |
| UtilRaffle.OverlayIdempotent | modules/util/Raffle.js:16-20 | restoring the same data twice is restoring it once |
| UtilRaffle.Raffle.constructor | modules/util/Raffle.js:7-14 | the older timer gets the lifetime and the author as its callback; not ending, no announcement, no rolls |
| UtilRaffle.Raffle.Restore | modules/util/Raffle.js:16-20 | the fields are the data laid over the old fields; the timer is left as it was |
| UtilRaffle.Raffle.EndRaffle | modules/util/Raffle.js:22-29 | the first call marks the raffle as ending and resets the timer with the two-minute date and no callback; later calls change nothing |
| UtilRaffle.Raffle.AddRoll | modules/util/Raffle.js:31-43 | the rolls become the accepted table, or the refusal is thrown with the rolls unchanged; no other field changes |
| UtilRaffle.Raffle.Serialize | modules/util/Raffle.js:57-64 | always throws a TypeError, as the older timer has no `serialize` |
| UtilRaffle.EndedRaffleExpiryThrows | modules/util/Raffle.js:22-29 | an ended raffle whose timer has run out throws when asked whether it expired |
| LibBreakTimer.ChannelCopy | modules/lib/BreakTimer.js:13-16 | the copy keeps the channel's id and name |
| LibBreakTimer.TimeoutUntil | modules/lib/BreakTimer.js:22 | the timeout is what remains from now to the end |
| LibBreakTimer.ChannelCopyKeepsOnlyIdAndName | modules/lib/BreakTimer.js:13-16 | two channels with the same id and name give the same copy, whatever else differs |
| LibBreakTimer.BreakTimer.constructor | modules/lib/BreakTimer.js:8-19 | the author, the channel copy and the end are kept, and a handle runs for the time until the end |
| LibBreakTimer.BreakTimer.Reset | modules/lib/BreakTimer.js:21-27 | the end is recorded and a new handle runs for the time until it; author and channel stay |
| LibBreakTimer.BreakTimer.Start | modules/lib/BreakTimer.js:29-34 | a new handle for the timeout; nothing else changes; the timer itself is returned |
| LibBreakTimer.BreakTimer.Stop | modules/lib/BreakTimer.js:36-43 | a running handle is cleared, and without one nothing happens; the timer itself is returned |
| LibBreakTimer.BreakTimer.Expiration | modules/lib/BreakTimer.js:45-48 | the `expire` event carries the timer itself |
| LibBreakTimer.BreakTimer.Serialize | modules/lib/BreakTimer.js:50-56 | the end, the author and the channel copy |
| UtilBreakTimer.CheckExpiry | modules/util/BreakTimer.js:19-27 | expired exactly when now is after the expiry; only then is the callback called; calling a non-function throws, a rejecting callback is swallowed, and a throwing one throws |
| UtilBreakTimer.BreakTimer.constructor | modules/util/BreakTimer.js:7-9 | the callback is kept and the expiry is the timeout from now |
| UtilBreakTimer.BreakTimer.Reset | modules/util/BreakTimer.js:11-17 | a new callback and a new expiry, whatever was there before; the start moment is moved to the expiry too |
| UtilBreakTimer.BreakTimer.Expired | modules/util/BreakTimer.js:19-27 | asking changes nothing and answers as the expiry check says |
| UtilBreakTimer.FreshResetNotExpired | modules/util/BreakTimer.js:11-27 | a timer reset with a timeout in the future is not expired now, and its callback does not run |
| UtilBreakTimer.ExpiryIsFinal | modules/util/BreakTimer.js:19-27 | once expired, asking later still answers expired |
| Break.Decide | modules/Break.js:86-105 | no parameter with a timer reports the time left; a non-number or negative count is refused; zero, or no parameter without a timer, cancels; any positive count sets a timer for that many minutes |
| Break.PositiveSets | modules/Break.js:96-104 | every parameter that reads as a positive number sets a timer for that many minutes |
| Break.SetReplyWording | modules/Break.js:61 | "minute" for one, "minutes" for more |
| Break.Saved | modules/Break.js:26-29 | every timer is written under the key `breaktimer_` plus its id, and nothing else is written |
| Break.PrefixInjective | modules/Break.js:28 | different ids give different storage keys |
| Break.SavedPut | modules/Break.js:26-29 | saving one more timer writes one more key |
| Break.LoadedFrom | modules/Break.js:38-43 | each loaded timer comes from a stored key of the prefix whose channel is that id |
| Break.LoadedHas | modules/Break.js:38-43 | every stored key of the prefix gets its channel loaded |
| Break.SaveLoadRoundTrip | modules/Break.js:25-43 | saving timers keyed by their channel ids, next to storage items of other kinds, and loading again gives back the same timers |
| Break.SaveAll | modules/Break.js:26-29 | the loop writes exactly the saved keys over the storage |
| Break.BreakModule.constructor | modules/Break.js:10-23 | no timers, then the stored ones are loaded |
| Break.BreakModule.LoadTimers | modules/Break.js:38-43 | each stored timer of the prefix is recreated, under its channel id, as a fresh timer |
| Break.BreakModule.Destructor | modules/Break.js:25-30 | every timer is saved under its storage key and the timers are kept |
| Break.BreakModule.RemoveTimer | modules/Break.js:80-84 | the timer is forgotten in the map and its key in storage; a missing one throws; every other timer is left as it was |
| Break.BreakModule.ClearTimer | modules/Break.js:64-84 | a channel with a timer loses it, its storage key is deleted, and it is told `break cancelled.`; a channel without one is refused and the storage is untouched; every other timer is left as it was |
| Break.BreakModule.SetTimer | modules/Break.js:50-62 | the channel's timer is reset to end `minutes` from now, keeping its author, or a fresh one is made; every other timer keeps its end, author and channel, and the storage is untouched |
| Break.BreakModule.TimerExpired | modules/Break.js:74-84 | the timer is removed, its `breaktimer_<id>` storage key is deleted and the end is announced in its channel; every other timer and storage key is left as it was, and a timer no longer registered gives the no-timer error with nothing changed |
| Break.BreakModule.Message | modules/Break.js:86-105 | each branch of the decision: the time left shown as whole seconds in at most two units, the refusal, the cancel (which also deletes the storage key), or a timer set for that many minutes (an existing timer keeps its author, a new one is fresh and belongs to the message's author); other channels' timers are left as they were, and only a cancel touches the storage |
| Roll.FreeRange | modules/Roll.js:195-219 | as written: a non-number end is refused with "Please enter a number"; otherwise the range runs from the smaller to the larger of the low end raised to 0 and the high end capped at 1000 |
| Roll.RollRange | modules/Roll.js:195-219 | the step-by-step assignments and swap of `_rollDice` give exactly that range |
| Roll.DefaultRange | modules/Roll.js:195-200 | without parameters the range is 0 to 100 |
| Roll.OneParamRange | modules/Roll.js:203-204 | one non-negative parameter `n` gives 0 to min(1000, n) |
| Roll.TwoParamRange | modules/Roll.js:205-218 | two parameters: the first raised to 0, the second capped at 1000, then put in order |
| Roll.NotANumberRefused | modules/Roll.js:210-212 | a first parameter that is not a number is refused |
| Roll.ReversedParamsEscapeCap | modules/Roll.js:205-218 | a first number above 1000 with a second in range becomes the unclamped top of the range |
| Roll.ReversedParamsEscapeFloor | modules/Roll.js:205-218 | a negative second number with a first in range becomes the unclamped bottom of the range |
| Roll.CapExample | modules/Roll.js:205-218 | `!roll 5000 10` rolls from 10 to 5000 |
| Roll.FloorExample | modules/Roll.js:205-218 | `!roll 400 -200` rolls from -200 to 400 |
| Roll.Clamp | modules/Roll.js:203-207 | the result lies in 0..1000 and a value already there is kept |
| Roll.ClampedRange | modules/Roll.js:203-218 | corrected: refused exactly when the written range is refused, and otherwise always within 0 to 1000 |
| Roll.ClampedAgreesInBounds | modules/Roll.js:203-218 | where the written range already lies in 0..1000 the corrected one is the same |
| Roll.Dice | modules/Roll.js:221 | the draw lies within the range |
| Roll.EveryValueReachable | modules/Roll.js:221 | every value of the range is drawn for some random pick |
| Roll.RollDice | modules/Roll.js:192-221 | in a raffle the range is 0 to 100 whatever the parameters; outside one it is the range as written and refused exactly when that is; the dice lies in the range |
| Roll.FreeRollEscapesCap | modules/Roll.js:205-221 | as written, `!roll 5000 10` can roll 5000, above the cap |
| Roll.ClampedRollInBounds | modules/Roll.js:203-221 | corrected: a roll in the clamped range lies within 0 to 1000 |
| Roll.Flourish | modules/Roll.js:245-253 | a top roll of a range wider than one value gets the fire, a bottom roll the facepalm, anything in between nothing |
| Roll.Collect | modules/Roll.js:94-99 | one roll per recorded user, in the order the users first rolled |
| Roll.Insert | modules/Roll.js:101 | one roll more, the same rolls otherwise |
| Roll.InsertSorted | modules/Roll.js:101 | inserting into rolls sorted by dice keeps them sorted |
| Roll.SortByDice | modules/Roll.js:101 | a permutation of the rolls, ascending by dice |
| Roll.GetSortedRaffleRollers | modules/Roll.js:94-104 | the loop's result is the recorded rolls sorted by dice |
| Roll.WinnerRollsHighest | modules/Roll.js:107-113 | the last sorted roll is one of the rolls and no roll is above it |
| Roll.Winner | modules/Roll.js:107-113 | the announced winner is one of the rolls with the highest dice |
| Roll.ListsLowest | modules/Roll.js:178-187 | as written the "High Rollers" field lists rolls never above a roll left out |
| Roll.WinnerNotListed | modules/Roll.js:178-187 | with more than five rolls and a winner above the fifth lowest, the winner is not listed |
| Roll.Reversed | modules/Roll.js:178-187 | the rolls back to front |
| Roll.HighRollersCount | modules/Roll.js:178-187 | corrected: five rolls, or all when fewer, the winner first |
| Roll.HighRollersAreHighest | modules/Roll.js:178-187 | corrected: the `i`-th listed roll is the `i`-th highest and never below one left out |
| Roll.RaffleExpired | modules/Roll.js:106-131 | no channel throws reading its id; without rolls the no-participants text (or a throw without an author); with rolls the winner text naming the highest roll (or a throw without an author) |
| Roll.Respond | modules/Roll.js:230-281 | an unknown trigger gives no reply; a second roll in a raffle is refused with the first dice; a free roll is refused exactly when the written range is; `!winner` succeeds only for the raffle's owner and is refused without a raffle; `!raffle` without a raffle is refused, and with one succeeds only for its owner |
| Roll.After | modules/Roll.js:223-225 | a first roll in the raffle is recorded with its dice and time; the owner's `!winner` resets the timer to end now with no callable callback; nothing else changes |
| Roll.SecondRaffleRollRefused | modules/Roll.js:238-241 | once a raffle roll is answered, the same user's next roll there is refused with the first dice |
| Roll.RaffleRollInRange | modules/Roll.js:195-225 | a first raffle roll ignores the parameters, lands in 0..100 and is answered |
| Roll.StartNeverSucceeds | modules/Roll.js:64-75 | `!raffle` without a raffle is always refused, so no raffle is ever started |
| Roll.Sweep | modules/Roll.js:54-59 | the sweep only deletes raffles, never adds or changes one |
| Roll.SweepDeletesExpired | modules/Roll.js:54-59 | unvisited raffles stay; without a throw exactly the visited expired raffles are deleted; a throw comes from a visited raffle |
| Roll.SweepRaffles | modules/Roll.js:54-59 | the loop computes the sweep over the keys as they were at the start |
| Roll.RollModule.SeenIn | modules/Roll.js:151-157 | a raffle is seen exactly when the channel has one |
| Roll.RollModule.constructor | modules/Roll.js:13-41 | the module starts with no raffles |
| Roll.RollModule.CheckExpiredRaffles | modules/Roll.js:54-62 | the raffles become what the sweep leaves, and its throw is returned |
| Roll.RollModule.Message | modules/Roll.js:230-281 | the reply is the one `Respond` gives, and the channel's raffle becomes what `After` leaves |

## Left out

- The root `CommandModule.js` is not part of this model. `Break`, `Flip`, `Help`, `Manage`, `MythicAffix`, `Rekt` and `Roll` load it, but its text is not available here.
  - The base class in `lib/CommandModule.js` stands in for its configuration, triggers and parsing.
  - What its `allowed(member)` does is a parameter of the dispatch and of the help filter: it may throw, return a falsy value, or return a permission object. Which of these it does is unknown. `bot.js:373-384` and `modules/Help.js:23` test its result for truthiness, which suggests it may be falsy; `Bot.GateNeverDenies` and `Help.HelpListsRefusedModules` state only what happens when it returns a permission object, and neither is claimed as a finding.
  - Modules on `lib/CommandModule.js` (`Attendance`, `RaidStats`, `MagicEightBall`, `Test`) are modelled as throwing there, because they read a message where the bot hands them a member (`Bot.LibModulesNeverAnswer`).
- `bot._escapeMarkDown`, which `Help` calls, is not defined in `bot.js`. As written, the help text throws a TypeError wherever it would call it (`Help.HelpOutcome`). The corrected help text takes the escaping as a parameter; what that escaping does to the text is left out.
- The chat service is not modelled: the Discord client, its events and the message, channel and pin calls, including `sendChannelMessage`. A reply is modelled as the value handed to `sendReply`.
- Logging and the `begin`, `end` and `ready` events are not modelled. `Bot.DiscordBot.LoadModules` reports where the loading stopped instead of whether `ready` is emitted.
- The 15-second timeout that races the answer in `processMessage` is left out: dispatch is one sequential step.
- Clocks are parameters (`now`, weeks elapsed, the date rendering). `moment` calendar arithmetic, time zones and daylight saving are left out.
- `modules/util/Raffle.js` hands its end date to the older timer, which adds it to the clock as a number of seconds. How `moment` turns a date into that number is left out, and the result is a parameter (`lifetime`).
- `setTimeout` and the rescheduling of `_checkExpiredRaffles`, of the break timers and of the progress bar are left out. One step of each is modelled, with a timer handle kept abstract.
- `Math.random` and the shuffle in `Rekt` are parameters: a pick within the stated range, and an arbitrary order of the fixed list.
- `Common.getRandomInt`, which `Test` and `MagicEightBall` use, is not in the common files available here. Its results are inputs.
- `MagicEightBall._decideResponse` and `_updateMessage` are left out, because they depend on `getRandomInt` and on editing messages. Only the spinner is modelled.
- `parseInt` is modelled for decimal text only: an optional sign, then digits, with leading whitespace and trailing garbage ignored. Hexadecimal prefixes and other radixes are left out.
- Number formatting (`numeral`, `cli-table2`, padding) is reduced to the values shown. The rendered table of `_displayRaffleRolls` is left out; its rows are modelled as the list of listed rolls, and its reply as a plain object.
- Floating point is left out:
  - the attendance percentages of `_aggregateAttendance`;
  - the fractional seconds of the seconds-based `relativeTime`, which works here on whole milliseconds.
- The Warcraft Logs and Blizzard requests are not modelled, and neither is report filtering (`_filterReports`, `_filterReportsWithBosses`, `_getRaidZones`). Reports are inputs.
- The text assembly of the attendance and kill tables is not modelled (`_assemble*`, `_aggregateAttendance` output, trials).
- `modules/lib/RaidAttendance.js` and `modules/lib/PlayerAttendance.js`, which `modules/Attendance.js:15-16` requires, are not part of this model. Two assumptions stand in for them:
  - `new RaidAttendance(reports)` (`modules/Attendance.js:183`) ignores `reports` and starts with no fights, raids, character names or players (`Attendance.NoAttendance`); `Attendance.AttendanceModule.CollectAttendance`, `Attendance.CollectConsistent` and `Attendance.AttendedArePossible` start from that tally;
  - the player record built by `new PlayerAttendance(...)` is taken to be the one of `modules/util/PlayerAttendance.js` (`PlayerRecords.NewPlayer`).
- `_getKillCountEx` and `_getWipeCount` appear in both `modules/Attendance.js` (lines 720-821) and `modules/RaidStats.js` (lines 45-147) with the same text. They are modelled once, in `RaidStats`.
- `MythicAffix` does not read `affixes.json`: the affix table is a parameter. The `RichEmbed` rendering of `_getAffixes` is left out.
- `Manage` leaves several parts out:
  - `_evalExpression` (it calls `eval`);
  - `_restartBot` (process control);
  - the file write of `_saveConfig`;
  - the dot-path edit inside `_modifyConfiguration`, which is a parameter of the outcome;
  - the " (has conflicts)" suffix of the module listing (`Manage.ModuleLine`, `modules/Manage.js:130`). Nothing in `bot.js` or `lib/CommandModule.js` sets `module.conflicts`, so the suffix is empty wherever the visible code decides it.
- `Common.deleteNodeModule` (the require cache) is modelled only as whether the module's file could be purged, which is a parameter of `reloadModule`.
- `node-persist` storage is modelled as a map from keys to saved timer fields.
- `Roll` leaves several parts out:
  - `getHelp` text;
  - pinning and unpinning of announcements;
  - the re-roll of ties, which the announcement promises and the code does not do.
- The callback of a raffle's timer is modelled as not callable. The constructor of `modules/util/Raffle.js` passes its author argument to the timer as the callback, and `!winner` resets the timer with no callback at all. A raffle is never stored by `_startRaffle` anyway, because `raffle.setAuthor` is not a function of that class.
- `Roll.SortByDice` models `sort-by('dice')` as a stable ascending sort. Only its ordering by dice and its permutation are stated, not which of two equal dice comes first.
- `Attendance.AttendanceModule.constructor` models only the alt bookkeeping. The configuration merge of `defaultNumRaids`, the seven triggers, the Warcraft Logs and Blizzard clients and the trial schedule are left out. A missing `sameNameMapping` makes the constructor throw (`Object.keys(undefined)`, `modules/Attendance.js:150`); the class is built only from a present mapping, and in the bot such a throw is a factory failure (`Bot.Instantiate`).
- `Attendance.AttendanceModule.ManageAlts`, `ExcludeName` and `ClearExcludedName` keep the mapping and the exclusion list in the module's own fields. The `this.bot.updateConfig()` after an unmapping (`modules/Attendance.js:505`) is not modelled. Neither is the sharing of the configuration object with the bot's settings that `Object.assign` sets up.
- `Bot.DiscordBot.DisableModule` does not call `module.destructor()` (`bot.js:130`). The destructor of `lib/CommandModule.js` does nothing. `Break` saves its timers there, which `Break.BreakModule.Destructor` models on its own; disabling `Break` does not save them in this model.
- `Js.IsSpace`, `Js.ToLower` and `Js.LowerChar` cover part of JavaScript only:
  - `IsSpace` is the Latin-1 white space and the byte-order mark; U+1680, U+2000 to U+200A, U+2028, U+2029, U+202F, U+205F and U+3000 are not counted;
  - `ToLower` and `LowerChar` lower-case the ASCII letters only.
- `Break.SaveLoadRoundTrip` is stated for timers whose end is a number. A timer set by `!break` ends at a `moment`, which storage keeps in serialised form and which the timer's constructor reads back with `+end` (`modules/lib/BreakTimer.js:18`); that conversion is left out.
- `test/` and `index.js` are not modelled. They are the test scripts and the process entry point.

## Findings

| source | as written | input that shows it | evidently intended | confidence | as-written member | corrected member |
|---|---|---|---|---|---|---|
| bot.js:372-385 | `allowed` is handed `message.member`; a module on `lib/CommandModule.js` reads `message.member.user` of it (`lib/CommandModule.js:59`), throws a TypeError, and never answers anyone | any message starting with `!kills` while `RaidStats` is enabled: the dispatch fails with the TypeError and the module never runs | the module's rules decide: an allowed sender gets the answer; for anyone else the dispatch fails with `Access denied.` and nothing is sent to them | high, not executed | Bot.LibModulesNeverAnswer | Bot.CheckedGateAdmitsOnlyAllowed |
| modules/Manage.js:105-107 | a refusal from `enableModule` rejects with `err.message`, which is `undefined` for the thrown string | `!enmod Roll` while Roll is already enabled | the author is told "Module is already enabled." | high, not executed | Manage.EnableRefusalIsSilent | Manage.RefusalIsReported |
| modules/Help.js:21-24 | the filter hands `allowed` the member; an enabled module on `lib/CommandModule.js` then throws a TypeError, which fails the whole filter | `!help` while `RaidStats` is enabled and every module before it returns from `allowed` | the enabled modules the sender may use are listed | high, not executed | Help.HelpFailsOnLibModule | Help.AllowedModulesChecked |
| modules/Rekt.js:114-123 | a count of 0 or below becomes a negative slice end, which lists all but that many entries | `!rekt 0` lists 87 entries | at most 10 entries, none for a count below 1 | high, not executed | Rekt.ZeroListsAllButOne | Rekt.ListsCount |
| modules/Roll.js:205-218 | the ends are clamped before they are ordered, so swapped ends escape the clamp | `!roll 5000 10` rolls 10 to 5000 and can roll 5000; `!roll 400 -200` rolls -200 to 400 | every free roll lies within 0 to 1000 | high, not executed | Roll.FreeRollEscapesCap | Roll.ClampedRange |
| modules/Roll.js:178-187 | the "High Rollers" field takes the first five of the ascending sort, which are the lowest rolls; the code is unreachable as written, since no raffle is ever started (`Roll.StartNeverSucceeds`) | rolls 1 to 6: the field lists 1 to 5 and leaves out the winning 6 | the five highest rolls, the winner first | high, not executed | Roll.WinnerNotListed | Roll.HighRollersAreHighest |
| modules/Help.js:67-81 | each trigger with parameters or a short description is rendered through `this.bot._escapeMarkDown`, which the bot does not define | `!help` while the help module is listed: its own `!help` trigger has a description, so the listing throws a TypeError | the help text is rendered with the parameters and descriptions escaped | high, not executed | Help.HelpListingThrows | Help.HelpCommandChecked |

=== FILE: alt_mapping.dfy ===
/**
 * The two shapes of the alt-character table of the attendance module:
 * the configured mapping from a main to its list of alts, and the index
 * from each alt to its main, with the conversions between them.
 */
module AltMapping {
  import opened OrderedDict

  /** Main name to the alts listed under it. */
  type Mains = Dict<seq<string>>

  /** Alt name to its main. */
  type Alts = Dict<string>

  /** Every key in the order list carries a value, and only those. */
  ghost predicate Keyed<V>(d: Dict<V>)
  {
    forall k :: k in d.keys <==> k in d.vals
  }

  // ---------------------------------------------------------------- main -> alts, to alt -> main

  /** Index every alt of `alts` under `main`, one after the other. */
  function PutAlts(d: Alts, main: string, alts: seq<string>): (r: Alts)
    ensures forall a :: a in r.vals <==> a in d.vals || a in alts
    ensures forall a :: a in alts ==> r.vals[a] == main
    ensures forall a :: a in d.vals && a !in alts ==> r.vals[a] == d.vals[a]
    ensures Keyed(d) ==> Keyed(r)
  {
    if alts == [] then d
    else PutAlts(d, main, alts[..|alts| - 1]).Put(alts[|alts| - 1], main)
  }

  /** The index built from the mains in `mains`, in that order. */
  function Invert(m: Mains, mains: seq<string>): (r: Alts)
    requires forall k :: k in mains ==> k in m.vals
    ensures Keyed(r)
  {
    if mains == [] then Empty()
    else
      var init := mains[..|mains| - 1];
      var last := mains[|mains| - 1];
      PutAlts(Invert(m, init), last, m.vals[last])
  }

  /** An alt is indexed exactly when it is listed under one of the mains. */
  lemma {:induction false} InvertKeys(m: Mains, mains: seq<string>, a: string)
    requires forall k :: k in mains ==> k in m.vals
    ensures a in Invert(m, mains).vals <==> exists k :: k in mains && a in m.vals[k]
    decreases |mains|
  {
    if mains != [] {
      var init := mains[..|mains| - 1];
      var last := mains[|mains| - 1];
      assert forall k :: k in mains <==> k in init || k == last;
      InvertKeys(m, init, a);
    }
  }

  /** `_makeMainsToAltMapping(mapping)`: every listed alt indexed to its main. */
  function AltIndex(m: Mains): (r: Alts)
    requires Keyed(m)
    ensures Keyed(r)
  {
    Invert(m, m.keys)
  }

  /** An alt listed under exactly one main is indexed to that main. */
  lemma {:induction false} InvertUnique(m: Mains, mains: seq<string>, a: string, main: string)
    requires forall k :: k in mains ==> k in m.vals
    requires main in mains && a in m.vals[main]
    requires forall k :: k in mains && k != main ==> a !in m.vals[k]
    ensures a in Invert(m, mains).vals && Invert(m, mains).vals[a] == main
    decreases |mains|
  {
    var init := mains[..|mains| - 1];
    var last := mains[|mains| - 1];
    assert forall k :: k in mains <==> k in init || k == last;
    if last != main {
      InvertUnique(m, init, a, main);
    }
  }

  // ---------------------------------------------------------------- alt -> main, to main -> alts

  /** The mapping rebuilt from the alts in `alts`, in that order. */
  function Group(a: Alts, alts: seq<string>): (r: Mains)
    requires forall x :: x in alts ==> x in a.vals
    ensures Keyed(r)
  {
    if alts == [] then Empty()
    else
      var g := Group(a, alts[..|alts| - 1]);
      var x := alts[|alts| - 1];
      var main := a.vals[x];
      if main in g.vals then g.Put(main, g.vals[main] + [x]) else g.Put(main, [x])
  }

  /** `_makeAltToMainsMapping(alts)`: the alts regrouped under their mains. */
  function Grouped(a: Alts): (r: Mains)
    requires Keyed(a)
    ensures Keyed(r)
  {
    Group(a, a.keys)
  }

  /** Every alt regrouped is listed under its own main. */
  lemma {:induction false} GroupHasAlt(a: Alts, alts: seq<string>, x: string)
    requires forall y :: y in alts ==> y in a.vals
    requires x in alts
    ensures a.vals[x] in Group(a, alts).vals && x in Group(a, alts).vals[a.vals[x]]
    decreases |alts|
  {
    var init := alts[..|alts| - 1];
    var last := alts[|alts| - 1];
    if x != last {
      assert x in init;
      GroupHasAlt(a, init, x);
    }
  }

  /** A regrouped main lists only alts that point at it. */
  lemma {:induction false} GroupOnly(a: Alts, alts: seq<string>, main: string, x: string)
    requires forall y :: y in alts ==> y in a.vals
    requires main in Group(a, alts).vals && x in Group(a, alts).vals[main]
    ensures x in alts && a.vals[x] == main
    decreases |alts|
  {
    var init := alts[..|alts| - 1];
    var last := alts[|alts| - 1];
    assert forall y :: y in init ==> y in alts;
    if !(x == last && a.vals[last] == main) {
      GroupOnly(a, init, main, x);
    }
  }

  /** No regrouped main has an empty list. */
  lemma {:induction false} GroupNonEmpty(a: Alts, alts: seq<string>, main: string)
    requires forall y :: y in alts ==> y in a.vals
    requires main in Group(a, alts).vals
    ensures Group(a, alts).vals[main] != []
    decreases |alts|
  {
    var init := alts[..|alts| - 1];
    var last := alts[|alts| - 1];
    assert forall y :: y in init ==> y in alts;
    if a.vals[last] != main {
      GroupNonEmpty(a, init, main);
    }
  }

  /** Regrouping an index and indexing the result again gives back the same index. */
  lemma IndexOfGrouped(a: Alts)
    requires Keyed(a)
    ensures AltIndex(Grouped(a)).vals == a.vals
  {
    var r := AltIndex(Grouped(a));
    forall x | x in a.vals ensures x in r.vals && r.vals[x] == a.vals[x] {
      GroupedIndexesAlt(a, x);
    }
    forall x | x in r.vals ensures x in a.vals {
      GroupedIndexesOnly(a, x);
    }
  }

  lemma GroupedIndexesAlt(a: Alts, x: string)
    requires Keyed(a) && x in a.vals
    ensures x in AltIndex(Grouped(a)).vals && AltIndex(Grouped(a)).vals[x] == a.vals[x]
  {
    var g := Grouped(a);
    GroupHasAlt(a, a.keys, x);
    forall k | k in g.keys && k != a.vals[x] ensures x !in g.vals[k] {
      if x in g.vals[k] {
        GroupOnly(a, a.keys, k, x);
      }
    }
    InvertUnique(g, g.keys, x, a.vals[x]);
  }

  lemma GroupedIndexesOnly(a: Alts, x: string)
    requires Keyed(a) && x in AltIndex(Grouped(a)).vals
    ensures x in a.vals
  {
    var g := Grouped(a);
    InvertKeys(g, g.keys, x);
    var k :| k in g.keys && x in g.vals[k];
    GroupOnly(a, a.keys, k, x);
  }

  /** No alt is listed under two different mains. */
  ghost predicate NoSharedAlts(m: Mains)
  {
    forall k1, k2, x :: k1 in m.vals && k2 in m.vals && k1 != k2 && x in m.vals[k1] ==> x !in m.vals[k2]
  }

  /** Under a mapping without shared alts, an alt is indexed to the main that lists it. */
  lemma IndexedUnder(m: Mains, main: string, x: string)
    requires Keyed(m) && NoSharedAlts(m)
    requires main in m.vals && x in m.vals[main]
    ensures x in AltIndex(m).vals && AltIndex(m).vals[x] == main
  {
    InvertUnique(m, m.keys, x, main);
  }

  /** Under a mapping without shared alts, an indexed alt is listed under the main it is indexed to. */
  lemma IndexedFrom(m: Mains, x: string)
    requires Keyed(m) && NoSharedAlts(m)
    requires x in AltIndex(m).vals
    ensures AltIndex(m).vals[x] in m.vals && x in m.vals[AltIndex(m).vals[x]]
  {
    InvertKeys(m, m.keys, x);
    var k :| k in m.keys && x in m.vals[k];
    InvertUnique(m, m.keys, x, k);
  }

  /**
   * Indexing a mapping and regrouping the index gives every main with at
   * least one alt the same set of alts, and no other main, provided no alt
   * is listed under two mains.
   */
  lemma GroupedOfIndex(m: Mains)
    requires Keyed(m) && NoSharedAlts(m)
    ensures forall main :: main in Grouped(AltIndex(m)).vals <==> main in m.vals && m.vals[main] != []
    ensures forall main, x :: main in Grouped(AltIndex(m)).vals ==>
              (x in Grouped(AltIndex(m)).vals[main] <==> x in m.vals[main])
  {
    var idx := AltIndex(m);
    var g := Grouped(idx);
    forall main | main in g.vals ensures main in m.vals && m.vals[main] != [] {
      GroupNonEmpty(idx, idx.keys, main);
      var x := g.vals[main][0];
      GroupOnly(idx, idx.keys, main, x);
      IndexedFrom(m, x);
    }
    forall main | main in m.vals && m.vals[main] != [] ensures main in g.vals {
      var x := m.vals[main][0];
      IndexedUnder(m, main, x);
      GroupHasAlt(idx, idx.keys, x);
    }
    forall main, x | main in g.vals ensures x in g.vals[main] <==> x in m.vals[main] {
      if x in g.vals[main] {
        GroupOnly(idx, idx.keys, main, x);
        IndexedFrom(m, x);
      }
      if main in m.vals && x in m.vals[main] {
        IndexedUnder(m, main, x);
        GroupHasAlt(idx, idx.keys, x);
      }
    }
  }

  // ---------------------------------------------------------------- the loops

  /** `_makeMainsToAltMapping`: two nested loops writing one alt at a time. */
  method MakeMainsToAltMapping(m: Mains) returns (r: Alts)
    requires Keyed(m)
    ensures r == AltIndex(m)
  {
    r := Empty();
    var keys := m.keys;
    var i := 0;
    while i < |keys|
      invariant 0 <= i <= |keys|
      invariant r == Invert(m, keys[..i])
    {
      var main := keys[i];
      var alts := m.vals[main];
      var j := 0;
      while j < |alts|
        invariant 0 <= j <= |alts|
        invariant r == PutAlts(Invert(m, keys[..i]), main, alts[..j])
      {
        assert alts[..j + 1][..j] == alts[..j];
        r := r.Put(alts[j], main);
        j := j + 1;
      }
      assert alts[..j] == alts;
      assert keys[..i + 1][..i] == keys[..i];
      i := i + 1;
    }
    assert keys[..i] == keys;
  }

  /** `_makeAltToMainsMapping`: one loop, creating a main's list on first sight. */
  method MakeAltToMainsMapping(a: Alts) returns (r: Mains)
    requires Keyed(a)
    ensures r == Grouped(a)
  {
    r := Empty();
    var keys := a.keys;
    var i := 0;
    while i < |keys|
      invariant 0 <= i <= |keys|
      invariant r == Group(a, keys[..i])
    {
      var x := keys[i];
      var main := a.vals[x];
      ghost var before := r;
      if main !in r.vals {
        r := r.Put(main, []);
      }
      r := r.Put(main, r.vals[main] + [x]);
      assert r == Group(a, keys[..i + 1]) by {
        assert keys[..i + 1][..i] == keys[..i];
        if main !in before.vals {
          PutTwice(before, main, [], [x]);
          assert [] + [x] == [x];
        }
      }
      i := i + 1;
    }
    assert keys[..i] == keys;
  }
}

=== FILE: attendance.dfy ===
/**
 * The attendance module's own state and bookkeeping: the alt-to-main
 * table it keeps in step with its configuration, the list of names kept
 * out of the records, and the tally of who attended which raid.
 */
module Attendance {
  import opened Js
  import opened OrderedDict
  import opened Common
  import opened PlayerRecords
  import opened RaidStats
  import opened AltMapping
  import opened AttendanceArgs
  import opened BossNames

  // ---------------------------------------------------------------- excluded names

  datatype Exclusion = Exclusion(list: seq<string>, added: seq<string>)

  /** The loop of `_excludeName`: each name not yet on the list is pushed onto it and reported. */
  function Excluding(list: seq<string>, names: seq<string>): (e: Exclusion)
    ensures e.list == list + e.added
  {
    if names == [] then Exclusion(list, [])
    else
      var e := Excluding(list, names[..|names| - 1]);
      var x := names[|names| - 1];
      if x in e.list then e else Exclusion(e.list + [x], e.added + [x])
  }

  /**
   * Excluding adds exactly the given names that were missing, each once,
   * so a list without repeats stays without repeats.
   */
  lemma {:induction false} ExcludingAdds(list: seq<string>, names: seq<string>)
    ensures forall x :: x in Excluding(list, names).list <==> x in list || x in names
    ensures forall x :: x in Excluding(list, names).added ==> x !in list && x in names
    ensures Distinct(list) ==> Distinct(Excluding(list, names).list)
    decreases |names|
  {
    if names != [] {
      var init := names[..|names| - 1];
      var x := names[|names| - 1];
      assert forall y :: y in names <==> y in init || y == x;
      ExcludingAdds(list, init);
    }
  }

  function ExcludeReply(added: seq<string>): string
  {
    if added == [] then "they're already excluded."
    else "okay, _" + Join(added, "_, _") + "_ will be excluded from attendance records. Undo with `!att reset "
         + Join(added, " ") + "`"
  }

  /** The list with the element at `i` spliced out. */
  function SpliceOut(list: seq<string>, i: nat): (r: seq<string>)
    requires i < |list|
    ensures |r| == |list| - 1
  {
    list[..i] + list[i + 1..]
  }

  /** Splicing a name out of a list without repeats removes that name and nothing else. */
  lemma SpliceOutDistinct(list: seq<string>, i: nat)
    requires i < |list|
    ensures Distinct(list) ==> Distinct(SpliceOut(list, i))
    ensures Distinct(list) ==> forall y :: y in SpliceOut(list, i) <==> y in list && y != list[i]
  {
    if !Distinct(list) {
      return;
    }
    var r := SpliceOut(list, i);
    forall a, b | 0 <= a < b < |r| ensures r[a] != r[b] {
      var a' := if a < i then a else a + 1;
      var b' := if b < i then b else b + 1;
      assert r[a] == list[a'] && r[b] == list[b'];
    }
    forall y | y in list && y != list[i] ensures y in r {
      var k :| 0 <= k < |list| && list[k] == y;
      if k < i {
        assert r[k] == y;
      } else {
        assert r[k - 1] == y;
      }
    }
  }

  datatype Clearing = Clearing(list: seq<string>, cleared: seq<string>)

  /** The loop of `_clearExcludedName`: each name found is spliced out at its first place and reported. */
  function Clear(list: seq<string>, names: seq<string>): (c: Clearing)
    ensures |c.list| + |c.cleared| == |list|
  {
    if names == [] then Clearing(list, [])
    else
      var c := Clear(list, names[..|names| - 1]);
      var x := names[|names| - 1];
      match IndexOf(c.list, x)
      case None => c
      case Some(i) => Clearing(SpliceOut(c.list, i), c.cleared + [x])
  }

  /**
   * Clearing only removes names from the list and reports only names that
   * were on it; on a list without repeats it removes exactly the given names.
   */
  lemma {:induction false} ClearRemoves(list: seq<string>, names: seq<string>)
    ensures forall x :: x in Clear(list, names).list ==> x in list
    ensures forall x :: x in Clear(list, names).cleared ==> x in names && x in list
    ensures Distinct(list) ==>
              Distinct(Clear(list, names).list) && forall x :: x in Clear(list, names).list <==> x in list && x !in names
    decreases |names|
  {
    if names != [] {
      var init := names[..|names| - 1];
      var x := names[|names| - 1];
      assert forall y :: y in names <==> y in init || y == x;
      ClearRemoves(list, init);
      var c := Clear(list, init);
      match IndexOf(c.list, x)
      case None =>
      case Some(i) =>
        SpliceOutDistinct(c.list, i);
        assert forall y :: y in SpliceOut(c.list, i) ==> y in c.list;
    }
  }

  function ClearReply(cleared: seq<string>): string
  {
    if cleared == [] then "they're not excluded."
    else "okay, _" + Join(cleared, "_, _") + "_ has been cleared and will be included in attendance records."
  }

  /** The loop of `_excludeName`, pushing onto the list one name at a time. */
  method PushMissing(list: seq<string>, names: seq<string>) returns (e: Exclusion)
    ensures e == Excluding(list, names)
  {
    var current := list;
    var added: seq<string> := [];
    var i := 0;
    while i < |names|
      invariant 0 <= i <= |names|
      invariant Exclusion(current, added) == Excluding(list, names[..i])
    {
      assert names[..i + 1][..i] == names[..i];
      if IndexOf(current, names[i]).None? {
        current := current + [names[i]];
        added := added + [names[i]];
      }
      i := i + 1;
    }
    assert names[..i] == names;
    e := Exclusion(current, added);
  }

  /** The loop of `_clearExcludedName`, splicing names out of the list one at a time. */
  method SpliceFound(list: seq<string>, names: seq<string>) returns (c: Clearing)
    ensures c == Clear(list, names)
  {
    var current := list;
    var cleared: seq<string> := [];
    var i := 0;
    while i < |names|
      invariant 0 <= i <= |names|
      invariant Clearing(current, cleared) == Clear(list, names[..i])
    {
      assert names[..i + 1][..i] == names[..i];
      var index := IndexOf(current, names[i]);
      if index.Some? {
        current := SpliceOut(current, index.value);
        cleared := cleared + [names[i]];
      }
      i := i + 1;
    }
    assert names[..i] == names;
    c := Clearing(current, cleared);
  }

  // ---------------------------------------------------------------- collecting attendance

  datatype RaidEntry = RaidEntry(id: string, start: int, fights: nat)

  datatype RaidAttendance = RaidAttendance(
    fights: nat,
    raids: seq<RaidEntry>,
    characterNames: seq<string>,
    players: Dict<Player>)

  const NoAttendance := RaidAttendance(0, [], [], Empty())

  /** The ids of a report's boss fights (boss id not 0), in order. */
  function BossFightIds(fights: seq<Fight>): (ids: seq<int>)
    ensures |ids| <= |fights|
  {
    if fights == [] then []
    else (if fights[0].boss != 0 then [fights[0].id] else []) + BossFightIds(fights[1..])
  }

  /** Friendlies that are not NPCs, bosses or pets. */
  predicate Qualifies(v: Friendly)
  {
    v.kind != "NPC" && v.kind != "Boss" && v.kind != "Pet"
  }

  /** `intersect(a, b).length`: the distinct ids in both. */
  function Shared(a: seq<int>, b: seq<int>): nat
  {
    |set x | x in a && x in b|
  }

  /** `_resolveCharacterName(name)`: the main of an indexed alt, else the name itself. */
  function Resolve(alts: Alts, name: string): (r: string)
    ensures name in alts.vals ==> r == alts.vals[name]
    ensures name !in alts.vals ==> r == name
  {
    if name in alts.vals then alts.vals[name] else name
  }

  /** A player seen in a raid: the raid is recorded once, the dates move, the shared fights are added. */
  function Visit(p: Player, id: string, start: int, shared: nat): Player
  {
    p.(raids := p.raids.(ids := if id in p.raids.ids then p.raids.ids else p.raids.ids + [id]),
       firstAttendance := if start < p.firstAttendance then start else p.firstAttendance,
       lastAttendance := start,
       fights := p.fights.(num := p.fights.num + shared))
  }

  /** One friendly of one report: the inner loop body of `_collectAttendance`. */
  function Attend(att: RaidAttendance, r: Report, fids: seq<int>, v: Friendly, alts: Alts, exclude: seq<string>)
    : RaidAttendance
  {
    if !Qualifies(v) || v.name in exclude then att
    else
      var name := Resolve(alts, v.name);
      var chars := if v.name in att.characterNames then att.characterNames else att.characterNames + [v.name];
      var p0 := if name in att.players.vals then att.players.vals[name]
                else NewPlayer(PlayerData(Some(name), Some(r.start), None, Some(r.id), None, None));
      att.(characterNames := chars, players := att.players.Put(name, Visit(p0, r.id, r.start, Shared(v.fightIds, fids))))
  }

  function AttendAll(att: RaidAttendance, r: Report, fids: seq<int>, vs: seq<Friendly>, alts: Alts, exclude: seq<string>)
    : RaidAttendance
    decreases |vs|
  {
    if vs == [] then att else AttendAll(Attend(att, r, fids, vs[0], alts, exclude), r, fids, vs[1..], alts, exclude)
  }

  const NoExcludeList := TypeErr("Cannot read property 'includes' of undefined")

  /**
   * One report: skipped without boss fights; otherwise its fights and its
   * entry are counted, then each friendly is looked at.  Without an exclude
   * list the first friendly that qualifies throws.
   */
  function ReportStep(att: RaidAttendance, r: Report, alts: Alts, exclude: Option<seq<string>>)
    : Result<RaidAttendance, Thrown>
  {
    var fids := BossFightIds(r.fights);
    if fids == [] then Ok(att)
    else
      var att1 := att.(fights := att.fights + |fids|, raids := att.raids + [RaidEntry(r.id, r.start, |fids|)]);
      if exclude.None? then
        if exists j :: 0 <= j < |r.friendlies| && Qualifies(r.friendlies[j]) then Err(NoExcludeList) else Ok(att1)
      else Ok(AttendAll(att1, r, fids, r.friendlies, alts, exclude.value))
  }

  function CollectFold(att: RaidAttendance, reports: seq<Report>, alts: Alts, exclude: Option<seq<string>>)
    : Result<RaidAttendance, Thrown>
    decreases |reports|
  {
    if reports == [] then Ok(att)
    else match ReportStep(att, reports[0], alts, exclude)
      case Err(e) => Err(e)
      case Ok(att') => CollectFold(att', reports[1..], alts, exclude)
  }

  /** The raids a player could have attended: those from the player's first attendance on. */
  datatype Possible = Possible(raids: seq<string>, fights: int)

  /** `_getPossibleReports(attendance, player)` */
  function PossibleReports(raids: seq<RaidEntry>, first: int): (p: Possible)
    ensures forall id :: id in p.raids <==> exists j :: 0 <= j < |raids| && raids[j].id == id && raids[j].start >= first
    ensures |p.raids| <= |raids|
  {
    if raids == [] then Possible([], 0)
    else
      var rest := PossibleReports(raids[1..], first);
      assert forall j :: 1 <= j < |raids| ==> raids[j] == raids[1..][j - 1];
      if raids[0].start >= first then Possible([raids[0].id] + rest.raids, raids[0].fights + rest.fights)
      else rest
  }

  /** Every raid recorded for a player is a collected raid from the player's first attendance on, recorded once. */
  ghost predicate Accounted(p: Player, raids: seq<RaidEntry>)
  {
    && Distinct(p.raids.ids)
    && forall id :: id in p.raids.ids ==>
         exists j :: 0 <= j < |raids| && raids[j].id == id && raids[j].start >= p.firstAttendance
  }

  /** A player record consistent with the raids collected so far. */
  ghost predicate PlayerOk(p: Player, raids: seq<RaidEntry>)
  {
    p.firstAttendance <= p.lastAttendance && Accounted(p, raids)
  }

  /** The tally so far: every player is consistent, and no excluded name was recorded. */
  ghost predicate Consistent(att: RaidAttendance, exclude: seq<string>)
  {
    && (forall k :: k in att.players.vals ==> PlayerOk(att.players.vals[k], att.raids))
    && Distinct(att.characterNames)
    && (forall n :: n in att.characterNames ==> n !in exclude)
  }

  /** Seeing a player in the latest raid leaves the record consistent. */
  lemma VisitOk(p: Player, raids: seq<RaidEntry>, shared: nat)
    requires raids != [] && Accounted(p, raids)
    ensures PlayerOk(Visit(p, raids[|raids| - 1].id, raids[|raids| - 1].start, shared), raids)
  {
    var last := |raids| - 1;
    var q := Visit(p, raids[last].id, raids[last].start, shared);
    forall id | id in q.raids.ids
      ensures exists j :: 0 <= j < |raids| && raids[j].id == id && raids[j].start >= q.firstAttendance
    {
      if id == raids[last].id {
        assert raids[last].start >= q.firstAttendance;
      } else {
        assert id in p.raids.ids;
      }
    }
  }

  lemma AttendConsistent(att: RaidAttendance, r: Report, fids: seq<int>, v: Friendly, alts: Alts, exclude: seq<string>)
    requires Consistent(att, exclude)
    requires att.raids != [] && att.raids[|att.raids| - 1].id == r.id && att.raids[|att.raids| - 1].start == r.start
    ensures Consistent(Attend(att, r, fids, v, alts, exclude), exclude)
    ensures Attend(att, r, fids, v, alts, exclude).raids == att.raids
  {
    if Qualifies(v) && v.name !in exclude {
      var name := Resolve(alts, v.name);
      var p0 := if name in att.players.vals then att.players.vals[name]
                else NewPlayer(PlayerData(Some(name), Some(r.start), None, Some(r.id), None, None));
      var q := Visit(p0, r.id, r.start, Shared(v.fightIds, fids));
      VisitOk(p0, att.raids, Shared(v.fightIds, fids));
      PutPlayerOk(att.players, name, q, att.raids);
      AddNameOk(att.characterNames, v.name, exclude);
    }
  }

  lemma PutPlayerOk(players: Dict<Player>, name: string, q: Player, raids: seq<RaidEntry>)
    requires forall k :: k in players.vals ==> PlayerOk(players.vals[k], raids)
    requires PlayerOk(q, raids)
    ensures forall k :: k in players.Put(name, q).vals ==> PlayerOk(players.Put(name, q).vals[k], raids)
  {
  }

  lemma AddNameOk(names: seq<string>, n: string, exclude: seq<string>)
    requires Distinct(names) && (forall x :: x in names ==> x !in exclude) && n !in exclude
    ensures var names' := if n in names then names else names + [n];
            Distinct(names') && forall x :: x in names' ==> x !in exclude
  {
  }

  lemma {:induction false} AttendAllConsistent(att: RaidAttendance, r: Report, fids: seq<int>, vs: seq<Friendly>,
                                               alts: Alts, exclude: seq<string>)
    requires Consistent(att, exclude)
    requires att.raids != [] && att.raids[|att.raids| - 1].id == r.id && att.raids[|att.raids| - 1].start == r.start
    ensures Consistent(AttendAll(att, r, fids, vs, alts, exclude), exclude)
    ensures AttendAll(att, r, fids, vs, alts, exclude).raids == att.raids
    decreases |vs|
  {
    if vs != [] {
      AttendConsistent(att, r, fids, vs[0], alts, exclude);
      AttendAllConsistent(Attend(att, r, fids, vs[0], alts, exclude), r, fids, vs[1..], alts, exclude);
    }
  }

  /** Adding a raid entry keeps every player's raids accounted for. */
  lemma GrowRaids(att: RaidAttendance, e: RaidEntry, exclude: seq<string>)
    requires Consistent(att, exclude)
    ensures Consistent(att.(raids := att.raids + [e]), exclude)
  {
    var raids := att.raids + [e];
    forall k | k in att.players.vals ensures PlayerOk(att.players.vals[k], raids) {
      var p := att.players.vals[k];
      forall id | id in p.raids.ids
        ensures exists j :: 0 <= j < |raids| && raids[j].id == id && raids[j].start >= p.firstAttendance
      {
        var j :| 0 <= j < |att.raids| && att.raids[j].id == id && att.raids[j].start >= p.firstAttendance;
        assert raids[j] == att.raids[j];
      }
    }
  }

  lemma {:induction false} CollectConsistent(att: RaidAttendance, reports: seq<Report>, alts: Alts, exclude: seq<string>)
    requires Consistent(att, exclude)
    ensures CollectFold(att, reports, alts, Some(exclude)).Ok?
    ensures Consistent(CollectFold(att, reports, alts, Some(exclude)).value, exclude)
    decreases |reports|
  {
    if reports != [] {
      var r := reports[0];
      var fids := BossFightIds(r.fights);
      if fids != [] {
        var e := RaidEntry(r.id, r.start, |fids|);
        var att1 := att.(fights := att.fights + |fids|, raids := att.raids + [e]);
        GrowRaids(att, e, exclude);
        AttendAllConsistent(att1, r, fids, r.friendlies, alts, exclude);
        CollectConsistent(AttendAll(att1, r, fids, r.friendlies, alts, exclude), reports[1..], alts, exclude);
      } else {
        CollectConsistent(att, reports[1..], alts, exclude);
      }
    }
  }

  /**
   * With an exclude list, collecting never fails; every player's first
   * attendance is no later than the last, no raid is counted twice for a
   * player, every raid a player attended is among that player's possible
   * raids, and no excluded name is recorded.
   */
  lemma AttendedArePossible(reports: seq<Report>, alts: Alts, exclude: seq<string>)
    ensures CollectFold(NoAttendance, reports, alts, Some(exclude)).Ok?
    ensures var att := CollectFold(NoAttendance, reports, alts, Some(exclude)).value;
            (forall k :: k in att.players.vals ==>
               var p := att.players.vals[k];
               p.firstAttendance <= p.lastAttendance && Distinct(p.raids.ids)
               && forall id :: id in p.raids.ids ==> id in PossibleReports(att.raids, p.firstAttendance).raids)
            && (forall n :: n in att.characterNames ==> n !in exclude)
  {
    CollectConsistent(NoAttendance, reports, alts, exclude);
  }

  // ---------------------------------------------------------------- selecting characters

  /** A player whose lower-cased name starts with one of the lower-cased queries. */
  predicate Selected(p: Player, names: seq<string>)
  {
    exists i :: 0 <= i < |names| && StartsWith(ToLower(p.name), names[i])
  }

  function Select(ps: seq<Player>, names: seq<string>): (r: seq<Player>)
    ensures forall p :: p in r <==> p in ps && Selected(p, names)
    ensures |r| <= |ps|
  {
    if ps == [] then []
    else
      var init := Select(ps[..|ps| - 1], names);
      var p := ps[|ps| - 1];
      assert forall q :: q in ps <==> q in ps[..|ps| - 1] || q == p;
      if Selected(p, names) then init + [p] else init
  }

  /**
   * `_filterSpecificCharacter(characters, attendance)`: the players, in
   * table order, whose name starts with one of the given names ignoring
   * case; throws when there is none.
   */
  method FilterSpecificCharacter(characters: seq<string>, players: Dict<Player>) returns (r: Result<seq<Player>, Thrown>)
    requires players.Valid()
    ensures r.Ok? ==> r.value == Select(ObjectValues(players), Lowered(characters)) && r.value != []
    ensures r.Err? <==> Select(ObjectValues(players), Lowered(characters)) == []
    ensures r.Err? ==> r.error == Text("no players found matching _" + Join(characters, ", ") + "_.")
  {
    var names := Lowered(characters);
    var all := ObjectValues(players);
    var found: seq<Player> := [];
    var i := 0;
    while i < |all|
      invariant 0 <= i <= |all|
      invariant found == Select(all[..i], names)
    {
      assert all[..i + 1][..i] == all[..i];
      if Selected(all[i], names) {
        found := found + [all[i]];
      }
      i := i + 1;
    }
    assert all[..i] == all;
    if found == [] {
      r := Err(Text("no players found matching _" + Join(characters, ", ") + "_."));
    } else {
      r := Ok(found);
    }
  }

  // ---------------------------------------------------------------- the module object

  const Insufficient := Text("Insufficient arguments given.")

  function MainRefusal(alt: string, unmapping: bool, alts: seq<string>): Thrown
  {
    Text("cannot " + (if unmapping then "un" else "") + "map a main as an alt. _" + alt + "_ is main of _"
         + Join(alts, "_, _") + "_")
  }

  /** The mapping with `alt` pushed onto the list of `main`, created if need be. */
  function WithAlt(m: Mains, main: string, alt: string): (r: Mains)
    ensures Keyed(m) ==> Keyed(r)
  {
    if main in m.vals then m.Put(main, m.vals[main] + [alt]) else m.Put(main, [alt])
  }

  class AttendanceModule {
    /** `config.sameNameMapping`: main to alts. */
    var sameNameMapping: Mains
    /** `altsToMains`: alt to main, rebuilt from the mapping. */
    var altsToMains: Alts
    /** `config.excludeNames`, which may be missing. */
    var excludeNames: Option<seq<string>>

    /** The index always agrees with the configured mapping. */
    ghost predicate Valid()
      reads this
    {
      Keyed(sameNameMapping) && Keyed(altsToMains) && altsToMains.vals == AltIndex(sameNameMapping).vals
    }

    constructor(mapping: Mains, exclude: Option<seq<string>>)
      requires Keyed(mapping)
      ensures Valid()
      ensures sameNameMapping == mapping && altsToMains == AltIndex(mapping) && excludeNames == exclude
    {
      var index := MakeMainsToAltMapping(mapping);
      sameNameMapping := mapping;
      excludeNames := exclude;
      altsToMains := index;
    }

    function ResolveCharacterName(name: string): string
      reads this
    {
      Resolve(altsToMains, name)
    }

    /**
     * `_manageAlts(params)`: `!alt <alt> <main>` maps an alt, `!alt <alt> null`
     * unmaps it.  A main can be neither; an alt is mapped at most once.
     */
    method ManageAlts(params: seq<string>) returns (r: Result<string, Thrown>)
      requires Valid()
      modifies this
      ensures Valid()
      ensures excludeNames == old(excludeNames)
      ensures r.Err? ==> sameNameMapping == old(sameNameMapping) && altsToMains == old(altsToMains)
      ensures |params| != 2 ==> r == Err(Insufficient)
      ensures |params| == 2 && params[0] in old(sameNameMapping.vals) ==>
                r == Err(MainRefusal(params[0], params[1] == "null", old(sameNameMapping.vals[params[0]])))
      ensures (|params| == 2 && params[0] !in old(sameNameMapping.vals) && params[1] == "null") ==>
                if params[0] !in old(altsToMains.vals) then
                  r == Err(Text("'" + params[0] + "' is already unmapped."))
                else
                  && r == Ok("okay, **" + params[0] + "** is unmapped.")
                  && altsToMains == old(altsToMains).Remove(params[0])
                  && sameNameMapping == Grouped(altsToMains)
                  && ResolveCharacterName(params[0]) == params[0]
      ensures (|params| == 2 && params[0] !in old(sameNameMapping.vals) && params[1] != "null") ==>
                if params[0] in old(altsToMains.vals) then
                  r == Err(Text("**" + params[0] + "** is already mapped to **" + old(altsToMains.vals[params[0]]) + "**"))
                else
                  && r == Ok("okay, **" + params[0] + "** is now mapped to **" + params[1] + "**.")
                  && sameNameMapping == WithAlt(old(sameNameMapping), params[1], params[0])
                  && altsToMains == AltIndex(sameNameMapping)
                  && ResolveCharacterName(params[0]) == params[1]
    {
      if |params| != 2 {
        return Err(Insufficient);
      }
      var alt, main := params[0], params[1];
      var performUnmapping := main == "null";
      if alt in sameNameMapping.vals {
        return Err(MainRefusal(alt, performUnmapping, sameNameMapping.vals[alt]));
      }
      if performUnmapping {
        if alt !in altsToMains.vals {
          return Err(Text("'" + alt + "' is already unmapped."));
        }
        altsToMains := altsToMains.Remove(alt);
        sameNameMapping := MakeAltToMainsMapping(altsToMains);
        IndexOfGrouped(altsToMains);
        return Ok("okay, **" + alt + "** is unmapped.");
      }
      if alt in altsToMains.vals {
        return Err(Text("**" + alt + "** is already mapped to **" + altsToMains.vals[alt] + "**"));
      }
      ghost var before := sameNameMapping;
      sameNameMapping := WithAlt(sameNameMapping, main, alt);
      altsToMains := MakeMainsToAltMapping(sameNameMapping);
      MappedAltResolves(before, main, alt);
      return Ok("okay, **" + alt + "** is now mapped to **" + main + "**.");
    }

    /**
     * `_excludeName(names)`: creates the list if missing, then pushes each
     * name not already on it; a missing name list throws after that.
     */
    method ExcludeName(names: Option<seq<string>>) returns (r: Result<string, Thrown>)
      requires Valid()
      modifies this
      ensures Valid()
      ensures sameNameMapping == old(sameNameMapping) && altsToMains == old(altsToMains)
      ensures var list := if old(excludeNames).Some? then old(excludeNames).value else [];
              if names.None? then
                r == Err(TypeErr("Cannot read property 'length' of null")) && excludeNames == Some(list)
              else
                && excludeNames == Some(Excluding(list, names.value).list)
                && r == Ok(ExcludeReply(Excluding(list, names.value).added))
    {
      var list := if excludeNames.Some? then excludeNames.value else [];
      excludeNames := Some(list);
      if names.None? {
        return Err(TypeErr("Cannot read property 'length' of null"));
      }
      var e := PushMissing(list, names.value);
      excludeNames := Some(e.list);
      r := Ok(ExcludeReply(e.added));
    }

    /**
     * `_clearExcludedName(names)`: without a list there is nothing to clear;
     * otherwise each name found is spliced out of it.
     */
    method ClearExcludedName(names: Option<seq<string>>) returns (r: Result<string, Thrown>)
      requires Valid()
      modifies this
      ensures Valid()
      ensures sameNameMapping == old(sameNameMapping) && altsToMains == old(altsToMains)
      ensures old(excludeNames).None? ==> r == Ok("no names has been excluded.") && excludeNames == old(excludeNames)
      ensures old(excludeNames).Some? && names.None? ==>
                r == Err(TypeErr("Cannot read property 'length' of null")) && excludeNames == old(excludeNames)
      ensures old(excludeNames).Some? && names.Some? ==>
                && excludeNames == Some(Clear(old(excludeNames).value, names.value).list)
                && r == Ok(ClearReply(Clear(old(excludeNames).value, names.value).cleared))
    {
      if excludeNames.None? {
        return Ok("no names has been excluded.");
      }
      if names.None? {
        return Err(TypeErr("Cannot read property 'length' of null"));
      }
      var c := SpliceFound(excludeNames.value, names.value);
      excludeNames := Some(c.list);
      r := Ok(ClearReply(c.cleared));
    }

    /** `_collectAttendance(reports)` before the percentages are worked out. */
    method CollectAttendance(reports: seq<Report>) returns (r: Result<RaidAttendance, Thrown>)
      ensures r == CollectFold(NoAttendance, reports, altsToMains, excludeNames)
    {
      var att := NoAttendance;
      var i := 0;
      while i < |reports|
        invariant 0 <= i <= |reports|
        invariant CollectFold(att, reports[i..], altsToMains, excludeNames)
                  == CollectFold(NoAttendance, reports, altsToMains, excludeNames)
      {
        assert reports[i..][1..] == reports[i + 1..];
        var step := AttendReport(att, reports[i]);
        if step.Err? {
          return Err(step.error);
        }
        att := step.value;
        i := i + 1;
      }
      r := Ok(att);
    }

    /** One report of `_collectAttendance`. */
    method AttendReport(att: RaidAttendance, report: Report) returns (r: Result<RaidAttendance, Thrown>)
      ensures r == ReportStep(att, report, altsToMains, excludeNames)
    {
      var fids := BossFightIds(report.fights);
      if |fids| == 0 {
        return Ok(att);
      }
      var acc := att.(fights := att.fights + |fids|, raids := att.raids + [RaidEntry(report.id, report.start, |fids|)]);
      ghost var start := acc;
      var vs := report.friendlies;
      var j := 0;
      while j < |vs|
        invariant 0 <= j <= |vs|
        invariant excludeNames.None? ==> acc == start && forall k :: 0 <= k < j ==> !Qualifies(vs[k])
        invariant excludeNames.Some? ==>
                    AttendAll(acc, report, fids, vs[j..], altsToMains, excludeNames.value)
                    == AttendAll(start, report, fids, vs, altsToMains, excludeNames.value)
      {
        assert vs[j..][1..] == vs[j + 1..];
        if Qualifies(vs[j]) {
          if excludeNames.None? {
            return Err(NoExcludeList);
          }
          acc := Attend(acc, report, fids, vs[j], altsToMains, excludeNames.value);
        }
        j := j + 1;
      }
      r := Ok(acc);
    }
  }

  /** After mapping, the alt is listed under its new main only, so it resolves to that main. */
  lemma MappedAltResolves(m: Mains, main: string, alt: string)
    requires Keyed(m) && alt !in AltIndex(m).vals
    ensures alt in AltIndex(WithAlt(m, main, alt)).vals && AltIndex(WithAlt(m, main, alt)).vals[alt] == main
  {
    var m' := WithAlt(m, main, alt);
    InvertKeys(m, m.keys, alt);
    forall k | k in m'.keys && k != main ensures alt !in m'.vals[k] {
      assert k in m.keys;
    }
    InvertUnique(m', m'.keys, alt, main);
  }

  // ---------------------------------------------------------------- the command

  /** What an attendance message goes on to do. */
  datatype Action =
    | ManageAltsAction(params: seq<string>)
    | ViewAlts
    | KillCountsAction(bosses: seq<string>)
    | KillTimelineAction(bosses: seq<string>)
    | MissedReport(args: Args)
    | ExcludeAction(names: Option<seq<string>>)
    | ClearExcludedAction(names: Option<seq<string>>)
    | AttendanceReport(args: Args)
    | TrialsReport(args: Args)
    | NoAction

  const NoCharacter := Text("please specify the (partial) name of whoever's dedication you're questioning.")

  /**
   * `Message`: the arguments are parsed first, for every trigger, so a bad
   * `-diff` fails any command; then the trigger picks the action.
   */
  function MessageAction(params: seq<string>, trigger: string): (r: Result<Action, Thrown>)
    ensures ArgumentsOf(params, DefaultNumRaids).Err? ==> r == Err(ArgumentsOf(params, DefaultNumRaids).error)
    ensures ArgumentsOf(params, DefaultNumRaids).Ok? && (trigger == "kills" || trigger == "knw") && params == [] ==>
              r == Err(Text("which boss?"))
    ensures (ArgumentsOf(params, DefaultNumRaids).Ok? && trigger == "missed"
             && ArgumentsOf(params, DefaultNumRaids).value.character.None?) ==> r == Err(NoCharacter)
    ensures (ArgumentsOf(params, DefaultNumRaids).Ok? && trigger == "att" && IsRm(params)) ==>
              r == Ok(ExcludeAction(ArgumentsOf(params, DefaultNumRaids).value.character))
  {
    match ArgumentsOf(params, DefaultNumRaids)
    case Err(e) => Err(e)
    case Ok(args) =>
      if trigger == "alt" then Ok(ManageAltsAction(params))
      else if trigger == "alts" then Ok(ViewAlts)
      else if trigger == "kills" then (if params == [] then Err(Text("which boss?")) else Ok(KillCountsAction(params)))
      else if trigger == "knw" then (if params == [] then Err(Text("which boss?")) else Ok(KillTimelineAction(params)))
      else if trigger == "missed" then (if args.character.None? then Err(NoCharacter) else Ok(MissedReport(args)))
      else if trigger == "att" then
        if args.excludeName then Ok(ExcludeAction(args.character))
        else if args.clearExcludeName then Ok(ClearExcludedAction(args.character))
        else Ok(AttendanceReport(args))
      else if trigger == "trials" then Ok(TrialsReport(args))
      else Ok(NoAction)
  }

  /** `!att rm` with no name reaches `_excludeName(null)`, which throws a TypeError. */
  lemma BareRmHasNoNames()
    ensures MessageAction(["rm"], "att") == Ok(ExcludeAction(None))
  {
    var params := ["rm"];
    assert IsRm(params) && params[1..] == [];
    assert LeadingNames([]) == [];
    var start := Args(true, false, None, DefaultNumRaids, Filter(None, false, false));
    assert Flags([], start, DefaultNumRaids) == Ok(start);
    assert ArgumentsOf(params, DefaultNumRaids) == Ok(start);
  }
}

=== FILE: attendance_args.dfy ===
/**
 * The argument parser of the attendance commands: an optional `rm` or
 * `reset`, then character names up to the first number or dash option,
 * then options (`-diff <d>`, `-alt`, `-only-alt`, or a number of raids).
 */
module AttendanceArgs {
  import opened Js
  import opened Common

  /** The raid count used when none is given; the module forces it to 12. */
  const DefaultNumRaids := 12

  const DiffMissing :=
    "please give a difficulty to filter by: **n**ormal, **h**eroic, or **m**ythic (preceed by ! to negate the filter)"

  datatype Filter = Filter(difficulty: Option<string>, altRuns: bool, onlyAltRuns: bool)

  datatype Args = Args(
    excludeName: bool,
    clearExcludeName: bool,
    character: Option<seq<string>>,
    numberOfRaids: int,
    filter: Filter)

  /** The characters the regular-expression `.` does not match. */
  predicate LineTerminator(c: char)
  {
    c == '\n' || c == '\r' || c == '\U{2028}' || c == '\U{2029}'
  }

  predicate AllDigits(p: string)
  {
    p == [] || (IsDigit(p[0]) && AllDigits(p[1..]))
  }

  predicate NoLineTerminator(p: string)
  {
    p == [] || (!LineTerminator(p[0]) && NoLineTerminator(p[1..]))
  }

  /** `/^(\d+|\-.+)$/`: all digits, or a dash followed by at least one character. */
  predicate OptionLike(p: string)
  {
    (|p| >= 1 && AllDigits(p)) || (|p| >= 2 && p[0] == '-' && NoLineTerminator(p[1..]))
  }

  /** A parameter taken as a character name: non-empty and not option-like. */
  predicate NameLike(p: string)
  {
    p != [] && !OptionLike(p)
  }

  /** The names at the front of `ps`: the first loop of `_getArguments`. */
  function LeadingNames(ps: seq<string>): (names: seq<string>)
    ensures |names| <= |ps| && names == ps[..|names|]
    ensures forall i :: 0 <= i < |names| ==> NameLike(names[i])
    ensures |names| == |ps| || !NameLike(ps[|names|])
  {
    if ps != [] && NameLike(ps[0]) then [ps[0]] + LeadingNames(ps[1..]) else []
  }

  /** `getIntegerBetween(param, {min: 1, default})` */
  function RaidCount(param: string, default: int): int
  {
    GetIntegerBetween(Some(param), Options(Some(1), None, Some(default)))
  }

  /** The option loop of `_getArguments`: each token is consumed in turn, `-diff` takes the next. */
  function Flags(ps: seq<string>, acc: Args, default: int): (r: Result<Args, Thrown>)
    ensures r.Ok? ==> r.value.character == acc.character
    ensures r.Ok? ==> r.value.excludeName == acc.excludeName
    ensures r.Ok? ==> r.value.clearExcludeName == acc.clearExcludeName
    decreases |ps|
  {
    if ps == [] then Ok(acc)
    else if ps[0] == "-diff" then
      if |ps| == 1 then Err(Text(DiffMissing))
      else Flags(ps[2..], acc.(filter := acc.filter.(difficulty := Some(ps[1]))), default)
    else if ps[0] == "-alt" then Flags(ps[1..], acc.(filter := acc.filter.(altRuns := true)), default)
    else if ps[0] == "-only-alt" then Flags(ps[1..], acc.(filter := acc.filter.(onlyAltRuns := true)), default)
    else Flags(ps[1..], acc.(numberOfRaids := RaidCount(ps[0], default)), default)
  }

  predicate IsRm(params: seq<string>) { params != [] && params[0] == "rm" }
  predicate IsReset(params: seq<string>) { params != [] && params[0] == "reset" }

  /** What `_getArguments(params)` returns or throws. */
  function ArgumentsOf(params: seq<string>, default: int): (r: Result<Args, Thrown>)
    ensures r.Ok? ==> r.value.excludeName == IsRm(params)
    ensures r.Ok? ==> r.value.clearExcludeName == IsReset(params)
    ensures r.Ok? ==>
              var rest := if IsRm(params) || IsReset(params) then params[1..] else params;
              (r.value.character.None? <==> LeadingNames(rest) == [])
              && (r.value.character.Some? ==> r.value.character.value == LeadingNames(rest))
  {
    var rest := if IsRm(params) || IsReset(params) then params[1..] else params;
    var names := LeadingNames(rest);
    var start := Args(IsRm(params), IsReset(params), if names == [] then None else Some(names),
                      default, Filter(None, false, false));
    Flags(rest[|names|..], start, default)
  }

  /** Every option loop leaves a raid count of at least one, given a default of at least one. */
  lemma {:induction false} FlagsRaidsPositive(ps: seq<string>, acc: Args, default: int)
    requires default >= 1 && acc.numberOfRaids >= 1
    ensures Flags(ps, acc, default).Ok? ==> Flags(ps, acc, default).value.numberOfRaids >= 1
    decreases |ps|
  {
    if ps != [] {
      if ps[0] == "-diff" {
        if |ps| > 1 {
          FlagsRaidsPositive(ps[2..], acc.(filter := acc.filter.(difficulty := Some(ps[1]))), default);
        }
      } else if ps[0] == "-alt" {
        FlagsRaidsPositive(ps[1..], acc.(filter := acc.filter.(altRuns := true)), default);
      } else if ps[0] == "-only-alt" {
        FlagsRaidsPositive(ps[1..], acc.(filter := acc.filter.(onlyAltRuns := true)), default);
      } else {
        GetIntegerBetweenRange(Some(ps[0]), Options(Some(1), None, Some(default)));
        FlagsRaidsPositive(ps[1..], acc.(numberOfRaids := RaidCount(ps[0], default)), default);
      }
    }
  }

  /** Parsed arguments always ask for at least one raid. */
  lemma ArgumentsRaidsPositive(params: seq<string>)
    ensures ArgumentsOf(params, DefaultNumRaids).Ok? ==> ArgumentsOf(params, DefaultNumRaids).value.numberOfRaids >= 1
  {
    var rest := if IsRm(params) || IsReset(params) then params[1..] else params;
    var names := LeadingNames(rest);
    var start := Args(IsRm(params), IsReset(params), if names == [] then None else Some(names),
                      DefaultNumRaids, Filter(None, false, false));
    FlagsRaidsPositive(rest[|names|..], start, DefaultNumRaids);
  }

  /** Names followed by something that is not a name stop at the names. */
  lemma {:induction false} LeadingNamesStop(names: seq<string>, tail: seq<string>)
    requires forall i :: 0 <= i < |names| ==> NameLike(names[i])
    requires tail == [] || !NameLike(tail[0])
    ensures LeadingNames(names + tail) == names
    decreases |names|
  {
    if names != [] {
      assert (names + tail)[1..] == names[1..] + tail;
      LeadingNamesStop(names[1..], tail);
    } else {
      assert names + tail == tail;
    }
  }

  /** A trailing `-diff` with nothing after it is refused. */
  lemma DiffNeedsValue(names: seq<string>)
    requires forall i :: 0 <= i < |names| ==> NameLike(names[i])
    requires !IsRm(names) && !IsReset(names)
    ensures ArgumentsOf(names + ["-diff"], DefaultNumRaids) == Err(Text(DiffMissing))
  {
    var params := names + ["-diff"];
    assert !IsRm(params) && !IsReset(params) by {
      if names == [] {
        assert params[0] == "-diff";
      } else {
        assert params[0] == names[0];
      }
    }
    assert OptionLike("-diff");
    LeadingNamesStop(names, ["-diff"]);
    assert params[|names|..] == ["-diff"];
  }

  /** `_getArguments(params)`: two loops consuming the parameters from the front. */
  method GetArguments(params: seq<string>, default: int) returns (r: Result<Args, Thrown>)
    ensures r == ArgumentsOf(params, default)
  {
    var first := 0;
    var excludeName := false;
    var clearExcludeName := false;
    if |params| > 0 && params[0] == "rm" {
      excludeName := true;
      first := 1;
    } else if |params| > 0 && params[0] == "reset" {
      clearExcludeName := true;
      first := 1;
    }
    var names := TakeNames(params[first..]);
    var character := if names == [] then None else Some(names);
    var args := Args(excludeName, clearExcludeName, character, default, Filter(None, false, false));
    r := TakeFlags(params[first..][|names|..], args, default);
  }

  /** The first loop: shift names off while the head is a name. */
  method TakeNames(ps: seq<string>) returns (names: seq<string>)
    ensures names == LeadingNames(ps)
  {
    names := [];
    var i := 0;
    while i < |ps| && NameLike(ps[i])
      invariant 0 <= i <= |ps| && i == |names|
      invariant names + LeadingNames(ps[i..]) == LeadingNames(ps)
    {
      assert ps[i..][1..] == ps[i + 1..];
      assert LeadingNames(ps[i..]) == [ps[i]] + LeadingNames(ps[i + 1..]);
      assert names + ([ps[i]] + LeadingNames(ps[i + 1..])) == (names + [ps[i]]) + LeadingNames(ps[i + 1..]);
      names := names + [ps[i]];
      i := i + 1;
    }
    assert LeadingNames(ps[i..]) == [];
  }

  /** The second loop: shift options off until none is left. */
  method TakeFlags(ps: seq<string>, start: Args, default: int) returns (r: Result<Args, Thrown>)
    ensures r == Flags(ps, start, default)
  {
    var args := start;
    var i := 0;
    while i < |ps|
      invariant 0 <= i <= |ps|
      invariant Flags(ps[i..], args, default) == Flags(ps, start, default)
    {
      var param := ps[i];
      assert ps[i..][1..] == ps[i + 1..];
      assert |ps[i..]| > 1 ==> ps[i..][2..] == ps[i + 2..] && ps[i..][1] == ps[i + 1];
      i := i + 1;
      if param == "-diff" {
        if i >= |ps| {
          return Err(Text(DiffMissing));
        }
        args := args.(filter := args.filter.(difficulty := Some(ps[i])));
        i := i + 1;
      } else if param == "-alt" {
        args := args.(filter := args.filter.(altRuns := true));
      } else if param == "-only-alt" {
        args := args.(filter := args.filter.(onlyAltRuns := true));
      } else {
        args := args.(numberOfRaids := RaidCount(param, default));
      }
    }
    r := Ok(args);
  }
}

=== FILE: boss_name_matcher.dfy ===
/**
 * Deciding whether a fight from a combat report is one of the bosses a
 * user asked about: a case-insensitive substring test, remembered per
 * fight name.
 */
module BossNames {
  import opened Js

  /** The boss names as the matcher keeps them: lower-cased, in order. */
  function Lowered(bossNames: seq<string>): (r: seq<string>)
    ensures |r| == |bossNames|
    ensures forall i :: 0 <= i < |r| ==> r[i] == ToLower(bossNames[i])
  {
    seq(|bossNames|, i requires 0 <= i < |bossNames| => ToLower(bossNames[i]))
  }

  /** How many of the names occur in `fightLower` (the map to 0/1 and the sum). */
  function Hits(names: seq<string>, fightLower: string): (n: nat)
    ensures n <= |names|
  {
    if names == [] then 0
    else Hits(names[..|names| - 1], fightLower) + (if Contains(fightLower, names[|names| - 1]) then 1 else 0)
  }

  /** `match(fightName)` before caching: the sum of hits is positive. */
  predicate Matches(names: seq<string>, fightName: string)
  {
    Hits(names, ToLower(fightName)) > 0
  }

  /** A fight matches exactly when one of the names is a substring of its lower-cased name. */
  lemma {:induction false} HitsPositive(names: seq<string>, fightLower: string)
    ensures Hits(names, fightLower) > 0 <==> exists i :: 0 <= i < |names| && Contains(fightLower, names[i])
    decreases |names|
  {
    if names != [] {
      var init := names[..|names| - 1];
      HitsPositive(init, fightLower);
      if Hits(init, fightLower) > 0 {
        var i :| 0 <= i < |init| && Contains(fightLower, init[i]);
        assert names[i] == init[i];
      }
      if exists i :: 0 <= i < |names| && Contains(fightLower, names[i]) {
        var i :| 0 <= i < |names| && Contains(fightLower, names[i]);
        if i < |init| {
          assert init[i] == names[i];
        }
      }
    }
  }

  /** An empty name list matches no fight. */
  lemma NoNamesNoMatch(fightName: string)
    ensures !Matches([], fightName)
  {
  }

  lemma {:induction false} LowerIdempotent(s: string)
    ensures ToLower(ToLower(s)) == ToLower(s)
  {
    assert forall i :: 0 <= i < |s| ==> LowerChar(LowerChar(s[i])) == LowerChar(s[i]);
  }

  /**
   * The test ignores case on both sides: the fight name can be given in any
   * case, and so can the boss names.
   */
  lemma MatchIgnoresCase(bossNames: seq<string>, fightName: string)
    ensures Matches(Lowered(bossNames), fightName) == Matches(Lowered(bossNames), ToLower(fightName))
    ensures Lowered(Lowered(bossNames)) == Lowered(bossNames)
  {
    LowerIdempotent(fightName);
    forall i | 0 <= i < |bossNames| ensures ToLower(ToLower(bossNames[i])) == ToLower(bossNames[i]) {
      LowerIdempotent(bossNames[i]);
    }
  }

  class BossNameMatcher {
    /** Answers already given, keyed by the fight name as passed in. */
    var cache: map<string, bool>
    const names: seq<string>

    /** Every remembered answer is the answer the test gives. */
    ghost predicate Valid()
      reads this
    {
      forall k :: k in cache ==> cache[k] == Matches(names, k)
    }

    constructor(bossNames: seq<string>)
      ensures names == Lowered(bossNames)
      ensures cache == map[]
      ensures Valid()
    {
      names := Lowered(bossNames);
      cache := map[];
    }

    /**
     * `match(fightName)`: the remembered answer when there is one, else
     * the test's answer, which is then remembered.
     */
    method Match(fightName: string) returns (b: bool)
      requires Valid()
      modifies this
      ensures Valid()
      ensures b == Matches(names, fightName)
      ensures fightName in old(cache) ==> b == old(cache)[fightName] && cache == old(cache)
      ensures cache == old(cache)[fightName := b]
    {
      if fightName !in cache {
        cache := cache[fightName := Hits(names, ToLower(fightName)) > 0];
      }
      b := cache[fightName];
    }
  }
}

=== FILE: bot.dfy ===
/**
 * The bot: a registry of loaded command modules keyed by file base name,
 * a trigger table from trigger word to module name in which the first
 * module to claim a word keeps it, the persisted per-module
 * configuration, the routing of a module's answer to a chat action, and
 * the dispatch of one incoming message.
 */
module Bot {
  import opened Js
  import opened OrderedDict
  import opened CommandModule

  // ================================================================ trigger table

  /**
   * Binding a module's trigger words in order: a word that is already
   * bound keeps its owner, an unbound word goes to `name`.
   */
  function Bind(table: Dict<string>, words: seq<string>, name: string): (r: Dict<string>)
    decreases |words|
  {
    if words == [] then table
    else
      var prev := Bind(table, words[..|words| - 1], name);
      var w := words[|words| - 1];
      if prev.Has(w) then prev else prev.Put(w, name)
  }

  /**
   * Releasing a module's trigger words: a word is deleted only where the
   * table binds it to `name`. (The source first selects the words bound to
   * `name` and then deletes them; deleting one word never changes another
   * word's binding, so doing it word by word is the same.)
   */
  function Unbind(table: Dict<string>, words: seq<string>, name: string): (r: Dict<string>)
    decreases |words|
  {
    if words == [] then table
    else
      var prev := Unbind(table, words[..|words| - 1], name);
      var w := words[|words| - 1];
      if w in prev.vals && prev.vals[w] == name then prev.Remove(w) else prev
  }

  lemma {:induction false} BindValid(table: Dict<string>, words: seq<string>, name: string)
    requires table.Valid()
    ensures Bind(table, words, name).Valid()
    decreases |words|
  {
    if words != [] {
      BindValid(table, words[..|words| - 1], name);
    }
  }

  lemma {:induction false} UnbindValid(table: Dict<string>, words: seq<string>, name: string)
    requires table.Valid()
    ensures Unbind(table, words, name).Valid()
    decreases |words|
  {
    if words != [] {
      var prev := Unbind(table, words[..|words| - 1], name);
      UnbindValid(table, words[..|words| - 1], name);
      RemoveValid(prev, words[|words| - 1]);
    }
  }

  /**
   * The first module to claim a word keeps it: binding never changes an
   * existing binding, binds every unbound word of the module to it, and
   * binds nothing else.
   */
  lemma {:induction false} BindVals(table: Dict<string>, words: seq<string>, name: string)
    ensures forall w :: w in Bind(table, words, name).vals <==> w in table.vals || w in words
    ensures forall w :: w in table.vals ==> Bind(table, words, name).vals[w] == table.vals[w]
    ensures forall w :: w !in table.vals && w in words ==> Bind(table, words, name).vals[w] == name
    decreases |words|
  {
    if words != [] {
      var init := words[..|words| - 1];
      BindVals(table, init, name);
      assert words == init + [words[|words| - 1]];
    }
  }

  /**
   * Releasing deletes exactly the module's words that are bound to it and
   * leaves every other binding as it was.
   */
  lemma {:induction false} UnbindVals(table: Dict<string>, words: seq<string>, name: string)
    ensures forall w :: (w in Unbind(table, words, name).vals
      <==> w in table.vals && !(w in words && table.vals[w] == name))
    ensures forall w :: (w in Unbind(table, words, name).vals
      ==> Unbind(table, words, name).vals[w] == table.vals[w])
    decreases |words|
  {
    if words != [] {
      var init := words[..|words| - 1];
      UnbindVals(table, init, name);
      assert words == init + [words[|words| - 1]];
    }
  }

  /**
   * Enabling, disabling and enabling a module again gives back the same
   * bindings: the words it owned return to it and words owned by other
   * modules stay with them.
   */
  lemma EnableDisableEnable(table: Dict<string>, words: seq<string>, name: string)
    ensures Bind(Unbind(Bind(table, words, name), words, name), words, name).vals
      == Bind(table, words, name).vals
  {
    var t1 := Bind(table, words, name);
    var t2 := Unbind(t1, words, name);
    var t3 := Bind(t2, words, name);
    BindVals(table, words, name);
    UnbindVals(t1, words, name);
    BindVals(t2, words, name);
    assert forall w :: w in t3.vals <==> w in t1.vals;
  }

  /** A module's words that are not taken by another module are bound to it after binding. */
  lemma BindOwnsFreeWords(table: Dict<string>, words: seq<string>, name: string, w: string)
    requires w in words
    requires w !in table.vals || table.vals[w] == name
    ensures w in Bind(table, words, name).vals && Bind(table, words, name).vals[w] == name
  {
    BindVals(table, words, name);
  }

  // ================================================================ module definitions

  /**
   * What `require(path)(bot, config)` builds for one file under
   * `modules/`: the class, its help text, the triggers its constructor
   * adds in order, the settings its constructor writes over the merged
   * configuration, which base class it extends, and what the factory
   * throws for a given configuration, if anything (a constructor that
   * reads a setting the configuration lacks, say).
   */
  datatype ModuleDef = ModuleDef(
    className: string,
    helpText: string,
    triggerList: seq<(string, TriggerInfo)>,
    overrides: Config,
    libBased: bool,
    failure: Config -> Option<Thrown>)

  /** The trigger table left by a sequence of `addTrigger` calls. */
  function TriggerTable(pairs: seq<(string, TriggerInfo)>): (d: Dict<TriggerInfo>)
    ensures d.Valid()
    ensures forall w :: w in d.vals <==> exists i :: 0 <= i < |pairs| && pairs[i].0 == w
    decreases |pairs|
  {
    if pairs == [] then Empty()
    else
      var prev := TriggerTable(pairs[..|pairs| - 1]);
      var p := pairs[|pairs| - 1];
      PutValid(prev, p.0, p.1);
      assert forall i :: 0 <= i < |pairs| - 1 ==> pairs[..|pairs| - 1][i] == pairs[i];
      prev.Put(p.0, p.1)
  }

  /** Runs the constructor of the module class `def` describes. */
  method Construct(def: ModuleDef, config: Config) returns (m: CommandModule)
    ensures fresh(m)
    ensures m.className == def.className && m.helpText == def.helpText && m.libBased == def.libBased
    ensures m.config == Defaults() + config + def.overrides
    ensures m.triggers == TriggerTable(def.triggerList)
  {
    m := new CommandModule(def.className, def.helpText, config, def.libBased);
    var i := 0;
    while i < |def.triggerList|
      invariant 0 <= i <= |def.triggerList|
      invariant m.config == Defaults() + config
      invariant m.triggers == TriggerTable(def.triggerList[..i])
    {
      var pair := def.triggerList[i];
      assert def.triggerList[..i + 1][..i] == def.triggerList[..i];
      var _ := m.AddTrigger(pair.0, pair.1);
      i := i + 1;
    }
    assert def.triggerList[..i] == def.triggerList;
    m.MergeConfig(def.overrides);
  }

  /** Builds a module the way its file's exported factory does, or fails as the factory throws. */
  method Instantiate(def: ModuleDef, config: Config) returns (r: Result<CommandModule, Thrown>)
    ensures def.failure(config).Some? ==> r == Err(def.failure(config).value)
    ensures def.failure(config).None? ==> r.Ok? && fresh(r.value)
    ensures r.Ok? ==> var m := r.value;
      m.className == def.className && m.helpText == def.helpText && m.libBased == def.libBased
      && m.config == Defaults() + config + def.overrides
      && m.triggers == TriggerTable(def.triggerList)
  {
    if def.failure(config).Some? {
      return Err(def.failure(config).value);
    }
    var m := Construct(def, config);
    r := Ok(m);
  }

  /** `config.hasOwnProperty('blacklisted') && config.blacklisted` */
  predicate Blacklisted(config: Config)
  {
    TruthyAt(config, "blacklisted")
  }

  /** `!config.hasOwnProperty('enabled') || config.enabled` */
  function EnabledSetting(config: Config): (v: Value)
    ensures "enabled" !in config ==> v == Bool(true)
    ensures "enabled" in config ==> v == config["enabled"]
  {
    if "enabled" in config then config["enabled"] else Bool(true)
  }

  /** The module's configuration with `enabled` written back, as `_loadModule` hands it over. */
  function Granted(config: Config): (c: Config)
    ensures "enabled" in c && Truthy(c["enabled"]) <==> "enabled" !in config || Truthy(config["enabled"])
    ensures forall k :: k in config && k != "enabled" ==> k in c && c[k] == config[k]
  {
    config["enabled" := EnabledSetting(config)]
  }

  /** Writing `enabled` back twice is writing it back once, and never changes `blacklisted`. */
  lemma GrantedTwice(config: Config)
    ensures Granted(Granted(config)) == Granted(config)
    ensures Blacklisted(Granted(config)) == Blacklisted(config)
  {
    assert "blacklisted" != "enabled";
  }

  // ================================================================ replies

  /** A value a module's `Message` resolves or rejects with. */
  datatype Reply =
    | Falsy                                   // undefined, null, false, 0 or ''
    | TextReply(s: string)                    // a string
    | Scalar                                  // a truthy number or `true`
    | FileEmbed(file: string, content: Option<string>)
    | DirectMessage(content: Option<string>)
    | Embed(content: Option<string>)
    | Obj(content: Option<string>)            // any other object, e.g. `{content: ...}` or an Error

  predicate IsFalsy(r: Reply)
  {
    r.Falsy? || r == TextReply("")
  }

  /** A thrown value seen as a reply. */
  function ThrownReply(t: Thrown): (r: Reply)
    ensures IsFalsy(r) <==> t == Undefined || t == Text("")
  {
    match t
    case ErrorObject(_) => Obj(None)
    case TypeErr(_) => Obj(None)
    case Text(s) => TextReply(s)
    case Undefined => Falsy
  }

  /** What the bot does in the chat to answer a message. */
  datatype SendAction =
    | ReplyTo(text: string)                   // message.reply(text): mentions the author
    | SendFile(file: string, caption: string) // channel.sendFile(file, null, caption)
    | DirectTo(content: Option<string>)       // author.sendMessage(content)
    | ChannelEmbed(content: Option<string>)   // channel.sendMessage('', embed)
    | ChannelSend(content: Option<string>)    // channel.sendMessage(reply.content)

  const NoResponse := "the command/query surprisingly had no response."

  /**
   * `sendReply`: a falsy reply throws, a string is a reply to the author,
   * a file embed is posted with its caption (empty when absent), a direct
   * message goes to the author, an embed is posted, any other object posts
   * its `content`; a truthy number or `true` leaves no promise to attach a
   * handler to, which throws a TypeError.
   */
  function SendReply(reply: Reply): (r: Result<SendAction, Thrown>)
    ensures IsFalsy(reply) <==> r == Err(Text(NoResponse))
    ensures reply.TextReply? && reply.s != "" ==> r == Ok(ReplyTo(reply.s))
    ensures reply.FileEmbed? ==> r == Ok(SendFile(reply.file, if reply.content.Some? then reply.content.value else ""))
    ensures reply.DirectMessage? ==> r == Ok(DirectTo(reply.content))
    ensures reply.Embed? ==> r == Ok(ChannelEmbed(reply.content))
    ensures reply.Obj? ==> r == Ok(ChannelSend(reply.content))
    ensures reply.Scalar? ==> r.Err? && r.error.TypeErr?
  {
    match reply
    case Falsy => Err(Text(NoResponse))
    case TextReply(s) => if s == "" then Err(Text(NoResponse)) else Ok(ReplyTo(s))
    case Scalar => Err(TypeErr("Cannot read property 'catch' of undefined"))
    case FileEmbed(file, content) => Ok(SendFile(file, if content.Some? then content.value else ""))
    case DirectMessage(content) => Ok(DirectTo(content))
    case Embed(content) => Ok(ChannelEmbed(content))
    case Obj(content) => Ok(ChannelSend(content))
  }

  /** How the promise returned by a module's `Message` settles. */
  datatype Settled = Resolved(reply: Reply) | Rejected(error: Reply)

  /**
   * What `module.allowed(message.member)` does: it throws, returns a
   * falsy value, or returns a permission object, which is truthy whatever
   * its `check` says.
   */
  datatype MemberCall =
    | MemberCallThrows(error: Thrown)
    | MemberCallFalsy                  // false, undefined, null, 0 or ""
    | MemberCallReturns(p: Permission)

  /**
   * `allowed(member)` on a module built on `lib/CommandModule.js`: the
   * method reads `message.member.user`, and a member has no `member`.
   */
  const LibAllowedOnMember := MemberCallThrows(TypeErr("Cannot read property 'user' of undefined"))

  /**
   * What `m.allowed(message.member)` does: a module on
   * `lib/CommandModule.js` throws; for one on the root `CommandModule.js`,
   * which is not part of this model, `rootCall` says.
   */
  function MemberCallOf(m: CommandModule, rootCall: MemberCall): MemberCall
  {
    if m.libBased then LibAllowedOnMember else rootCall
  }

  /** The outcome of one incoming message. */
  datatype Dispatch =
    | Ignored                  // the first word is not a bound trigger
    | Failed(error: Thrown)    // processMessage rejects; no answer is sent
    | Silent                   // the module settled without anything to send
    | Sent(action: SendAction)

  /** The `catch` of processMessage: a truthy error is sent as the reply. */
  function Catch(err: Reply): (d: Dispatch)
    ensures IsFalsy(err) ==> d == Silent
    ensures !IsFalsy(err) && !err.Scalar? ==> d.Sent? && SendReply(err) == Ok(d.action)
  {
    if IsFalsy(err) then Silent
    else match SendReply(err)
      case Ok(a) => Sent(a)
      case Err(e) => Failed(e)
  }

  /** The `try`/`catch` of processMessage around the module's answer. */
  function Answer(settled: Settled): (d: Dispatch)
    ensures settled.Resolved? && !IsFalsy(settled.reply) && !settled.reply.Scalar?
      ==> d.Sent? && SendReply(settled.reply) == Ok(d.action)
    ensures settled.Rejected? ==> d == Catch(settled.error)
  {
    match settled
    case Resolved(reply) =>
      (match SendReply(reply)
       case Ok(a) => Sent(a)
       case Err(e) => Catch(ThrownReply(e)))
    case Rejected(err) => Catch(err)
  }

  /** A module that answers with nothing makes the bot say so to the author. */
  lemma EmptyAnswerIsReported(reply: Reply)
    requires IsFalsy(reply)
    ensures Answer(Resolved(reply)) == Sent(ReplyTo(NoResponse))
  {
  }

  /** A module that rejects with nothing stays silent. */
  lemma EmptyRejectionIsSilent(err: Reply)
    requires IsFalsy(err)
    ensures Answer(Rejected(err)) == Silent
  {
  }

  /** A rejection with a text answers the author with that text, like a resolved text. */
  lemma RejectedTextAnswers(s: string)
    requires s != ""
    ensures Answer(Rejected(TextReply(s))) == Answer(Resolved(TextReply(s))) == Sent(ReplyTo(s))
  {
  }

  /** The first word of a message: `content.split(' ', 2)[0]`. */
  function FirstWord(content: string): (w: string)
    ensures ' ' !in w && StartsWith(content, w)
    ensures |w| < |content| ==> content[|w|] == ' '
  {
    match IndexOf(content, ' ')
    case None => content
    case Some(i) => content[..i]
  }

  /** The configurations of the modules registered under `keys`, read from the module objects. */
  ghost function ConfigsOf(mods: Dict<CommandModule>, keys: seq<string>): map<string, Config>
    requires forall i :: 0 <= i < |keys| ==> keys[i] in mods.vals
    reads set k | k in mods.vals :: mods.vals[k]
    decreases |keys|
  {
    if keys == [] then map[]
    else
      var k := keys[|keys| - 1];
      ConfigsOf(mods, keys[..|keys| - 1])[k := mods.vals[k].config]
  }

  lemma {:induction false} ConfigsOfAll(mods: Dict<CommandModule>, keys: seq<string>)
    requires forall i :: 0 <= i < |keys| ==> keys[i] in mods.vals
    ensures forall k :: k in ConfigsOf(mods, keys) <==> k in keys
    ensures forall k :: k in ConfigsOf(mods, keys) ==> ConfigsOf(mods, keys)[k] == mods.vals[k].config
    decreases |keys|
  {
    if keys != [] {
      ConfigsOfAll(mods, keys[..|keys| - 1]);
      assert keys == keys[..|keys| - 1] + [keys[|keys| - 1]];
    }
  }

  lemma ConfigsOfStep(base: map<string, Config>, mods: Dict<CommandModule>, keys: seq<string>, i: nat)
    requires i < |keys| && forall j :: 0 <= j < |keys| ==> keys[j] in mods.vals
    ensures (base + ConfigsOf(mods, keys[..i]))[keys[i] := mods.vals[keys[i]].config]
      == base + ConfigsOf(mods, keys[..i + 1])
  {
    assert keys[..i + 1][..i] == keys[..i];
  }

  /** Walking all keys of a valid registry collects every module's configuration. */
  lemma ConfigsOfKeys(mods: Dict<CommandModule>)
    requires mods.Valid()
    ensures ConfigsOf(mods, mods.keys) == map k | k in mods.vals :: mods.vals[k].config
  {
    ConfigsOfAll(mods, mods.keys);
  }

  // ================================================================ the bot

  /** The settings `env` persists for `name`, `{}` when there are none. */
  function SettingsIn(env: map<string, Config>, name: string): Config
  {
    if name in env then env[name] else map[]
  }

  class DiscordBot {
    /** The files under `modules/`, by base name. */
    const definitions: map<string, ModuleDef>
    /** `this.modules` */
    var modules: Dict<CommandModule>
    /** `this.triggers`: trigger word to module name. */
    var triggers: Dict<string>
    /** `this.config.modules`: persisted settings per module. */
    var configModules: map<string, Config>

    ghost predicate Valid()
      reads this
    {
      modules.Valid() && triggers.Valid()
      && (forall a, b :: a in modules.vals && b in modules.vals && a != b ==> modules.vals[a] != modules.vals[b])
    }

    /** The registered module objects. */
    ghost function Objects(): set<CommandModule>
      reads this
    {
      set k | k in modules.vals :: modules.vals[k]
    }

    /** The module object registered under `name`, if any. */
    ghost function ObjectAt(name: string): set<CommandModule>
      reads this
    {
      if name in modules.vals then {modules.vals[name]} else {}
    }

    /** Every registered module's current configuration. */
    ghost function Configs(): map<string, Config>
      reads this, Objects()
    {
      map k | k in modules.vals :: modules.vals[k].config
    }

    /** The persisted settings of `name`, `{}` when there are none. */
    function ConfigFor(name: string): Config
      reads this
    {
      SettingsIn(configModules, name)
    }

    constructor (env: map<string, Config>, definitions: map<string, ModuleDef>)
      ensures Valid()
      ensures this.definitions == definitions && configModules == env
      ensures modules == Empty() && triggers == Empty()
    {
      this.definitions := definitions;
      configModules := env;
      modules := Empty();
      triggers := Empty();
    }

    /** `hasModule(name)` */
    predicate HasModule(name: string)
      reads this
    {
      name in modules.vals
    }

    /** `getModuleByName(name)`: the module, or `undefined`. */
    function ModuleByName(name: string): (m: Option<CommandModule>)
      reads this
      ensures m.Some? <==> HasModule(name)
      ensures m.Some? ==> m.value == modules.vals[name]
    {
      if name in modules.vals then Some(modules.vals[name]) else None
    }

    /**
     * `getModuleByTrigger(word)`: the module named by the trigger table;
     * `false` for an unbound word, `undefined` when the bound name is not
     * a registry key.
     */
    function ModuleByTrigger(word: string): (m: Option<CommandModule>)
      reads this
      ensures word !in triggers.vals ==> m.None?
      ensures m.Some? <==> word in triggers.vals && triggers.vals[word] in modules.vals
      ensures m.Some? ==> m.value == modules.vals[triggers.vals[word]]
    {
      if word in triggers.vals && triggers.vals[word] in modules.vals then
        Some(modules.vals[triggers.vals[word]])
      else None
    }

    /** `_loadModuleTriggers(module)` */
    method LoadModuleTriggers(m: CommandModule)
      requires Valid()
      modifies this
      ensures Valid()
      ensures triggers == Bind(old(triggers), m.triggers.keys, m.Name())
      ensures modules == old(modules) && configModules == old(configModules)
    {
      var words := m.triggers.keys;
      var name := m.Name();
      var table := triggers;
      var i := 0;
      while i < |words|
        invariant 0 <= i <= |words|
        invariant table == Bind(old(triggers), words[..i], name)
        invariant table.Valid() && unchanged(this)
      {
        assert words[..i + 1][..i] == words[..i];
        if !table.Has(words[i]) {
          PutValid(table, words[i], name);
          table := table.Put(words[i], name);
        }
        i := i + 1;
      }
      assert words[..i] == words;
      triggers := table;
    }

    /** `_unloadModuleTriggers(module)` */
    method UnloadModuleTriggers(m: CommandModule)
      requires Valid()
      modifies this
      ensures Valid()
      ensures triggers == Unbind(old(triggers), m.triggers.keys, m.Name())
      ensures modules == old(modules) && configModules == old(configModules)
    {
      var words := m.triggers.keys;
      var name := m.Name();
      var table := triggers;
      var i := 0;
      while i < |words|
        invariant 0 <= i <= |words|
        invariant table == Unbind(old(triggers), words[..i], name)
        invariant table.Valid() && unchanged(this)
      {
        assert words[..i + 1][..i] == words[..i];
        if words[i] in table.vals && table.vals[words[i]] == name {
          RemoveValid(table, words[i]);
          table := table.Remove(words[i]);
        }
        i := i + 1;
      }
      assert words[..i] == words;
      triggers := table;
    }

    /** `updateConfig()`: copies every module's configuration into the persisted settings. */
    method UpdateConfig()
      requires Valid()
      modifies this
      ensures Valid()
      ensures configModules == old(configModules) + Configs()
      ensures modules == old(modules) && triggers == old(triggers)
    {
      var keys := modules.keys;
      var i := 0;
      while i < |keys|
        invariant 0 <= i <= |keys|
        invariant modules == old(modules) && triggers == old(triggers)
        invariant configModules == old(configModules) + ConfigsOf(modules, keys[..i])
      {
        var k := keys[i];
        assert keys[..i + 1][..i] == keys[..i];
        ConfigsOfStep(old(configModules), modules, keys, i);
        configModules := configModules[k := modules.vals[k].config];
        i := i + 1;
      }
      assert keys[..i] == keys;
      ConfigsOfKeys(modules);
    }

    /** What the factory of `name` throws for the configuration `_loadModule` hands it, if anything. */
    function LoadFailure(name: string): Option<Thrown>
      requires name in definitions
      reads this
    {
      definitions[name].failure(Granted(ConfigFor(name)))
    }

    /** Loading `name` does not throw: it is blacklisted, or its factory accepts its settings. */
    predicate Loads(name: string)
      requires name in definitions
      reads this
    {
      Blacklisted(ConfigFor(name)) || LoadFailure(name).None?
    }

    /**
     * `_loadModule(path)`: a blacklisted module is skipped; otherwise its
     * persisted settings get `enabled` written back in place, then the
     * module is built from them, and a factory that throws leaves it
     * unregistered and passes the error on; a built module is registered,
     * and its triggers are bound when it is enabled.
     */
    method LoadModule(name: string) returns (r: Result<Option<CommandModule>, Thrown>)
      requires Valid() && name in definitions
      modifies this
      ensures Valid()
      ensures r.Err? <==> !old(Loads(name))
      ensures Blacklisted(old(ConfigFor(name))) ==>
        r == Ok(None) && modules == old(modules) && triggers == old(triggers) && configModules == old(configModules)
      ensures !Blacklisted(old(ConfigFor(name))) ==>
        configModules == (if name in old(configModules) then old(configModules)[name := Granted(old(ConfigFor(name)))]
                          else old(configModules))
      ensures !Blacklisted(old(ConfigFor(name))) && old(LoadFailure(name)).Some? ==>
        r == Err(old(LoadFailure(name)).value) && modules == old(modules) && triggers == old(triggers)
      ensures !Blacklisted(old(ConfigFor(name))) && old(LoadFailure(name)).None? ==>
        r.Ok? && r.value.Some? && fresh(r.value.value)
        && var m := r.value.value;
        modules == old(modules).Put(name, m)
        && m.className == definitions[name].className && m.libBased == definitions[name].libBased
        && m.config == Defaults() + Granted(old(ConfigFor(name))) + definitions[name].overrides
        && m.triggers == TriggerTable(definitions[name].triggerList)
        && triggers == (if m.IsEnabled() then Bind(old(triggers), m.triggers.keys, m.Name()) else old(triggers))
      ensures forall n :: Blacklisted(ConfigFor(n)) == Blacklisted(old(ConfigFor(n)))
      ensures forall n :: Granted(SettingsIn(configModules, n)) == Granted(SettingsIn(old(configModules), n))
    {
      var config := ConfigFor(name);
      if Blacklisted(config) {
        return Ok(None);
      }
      var moduleConfig := Granted(config);
      GrantedTwice(config);
      Persist(name, moduleConfig);
      var built := Instantiate(definitions[name], moduleConfig);
      if built.Err? {
        return Err(built.error);
      }
      Install(name, built.value);
      r := Ok(Some(built.value));
    }

    /** Registers a freshly built module and binds its triggers when it is enabled. */
    method Install(name: string, loaded: CommandModule)
      requires Valid()
      requires forall k :: k in modules.vals ==> modules.vals[k] != loaded
      modifies this
      ensures Valid()
      ensures modules == old(modules).Put(name, loaded) && configModules == old(configModules)
      ensures triggers == (if loaded.IsEnabled() then Bind(old(triggers), loaded.triggers.keys, loaded.Name()) else old(triggers))
    {
      Register(name, loaded);
      if loaded.IsEnabled() {
        LoadModuleTriggers(loaded);
      }
    }

    /** Writes `config` back as the persisted settings of `name`, when there are any. */
    method Persist(name: string, config: Config)
      requires Valid()
      requires Blacklisted(config) == Blacklisted(ConfigFor(name))
      modifies this
      ensures Valid()
      ensures configModules == if name in old(configModules) then old(configModules)[name := config] else old(configModules)
      ensures modules == old(modules) && triggers == old(triggers)
      ensures forall n :: Blacklisted(ConfigFor(n)) == Blacklisted(old(ConfigFor(n)))
      ensures config == Granted(old(ConfigFor(name))) ==>
        forall n :: Granted(SettingsIn(configModules, n)) == Granted(SettingsIn(old(configModules), n))
    {
      GrantedTwice(ConfigFor(name));
      if name in configModules {
        configModules := configModules[name := config];
      }
    }

    /** `this.modules[name] = module` for a module object not yet registered. */
    method Register(name: string, loaded: CommandModule)
      requires Valid()
      requires forall k :: k in modules.vals ==> modules.vals[k] != loaded
      modifies this
      ensures Valid()
      ensures modules == old(modules).Put(name, loaded)
      ensures triggers == old(triggers) && configModules == old(configModules)
    {
      PutValid(modules, name, loaded);
      modules := modules.Put(name, loaded);
    }

    /**
     * `files.forEach(this._loadModule.bind(this))` followed by
     * `emit('ready')`: the files are loaded in order, and the first
     * factory that throws ends the walk before the later files and before
     * `ready`. `failed` is the position and error of that file; `None`
     * means every file was walked and `ready` is emitted.
     */
    method LoadModules(names: seq<string>) returns (failed: Option<(nat, Thrown)>)
      requires Valid()
      requires forall i :: 0 <= i < |names| ==> names[i] in definitions
      modifies this
      ensures Valid()
      ensures failed.None? <==> forall i :: 0 <= i < |names| ==> old(Loads(names[i]))
      ensures failed.None? ==> forall n :: n in names && !Blacklisted(old(ConfigFor(n))) ==> n in modules.vals
      ensures failed.None? ==> forall n :: n in modules.vals ==> n in old(modules.vals) || n in names
      ensures failed.Some? ==> var (k, e) := failed.value;
        k < |names| && !Blacklisted(old(ConfigFor(names[k]))) && old(LoadFailure(names[k])) == Some(e)
        && (forall i :: 0 <= i < k ==> old(Loads(names[i])))
        && (forall n :: n in names[..k] && !Blacklisted(old(ConfigFor(n))) ==> n in modules.vals)
        && (forall n :: n in modules.vals ==> n in old(modules.vals) || n in names[..k])
    {
      ghost var env := configModules;
      var i := 0;
      while i < |names|
        invariant 0 <= i <= |names|
        invariant Valid()
        invariant forall j :: 0 <= j < i ==> old(Loads(names[j]))
        invariant forall n :: n in names[..i] && !Blacklisted(old(ConfigFor(n))) ==> n in modules.vals
        invariant forall n :: n in modules.vals ==> n in old(modules.vals) || n in names[..i]
        invariant forall n :: Granted(SettingsIn(configModules, n)) == Granted(SettingsIn(env, n))
      {
        var name := names[i];
        GrantedTwice(ConfigFor(name));
        GrantedTwice(old(ConfigFor(name)));
        assert LoadFailure(name) == old(LoadFailure(name));
        var r := LoadModule(name);
        if r.Err? {
          return Some((i, r.error));
        }
        assert names[..i + 1] == names[..i] + [name];
        i := i + 1;
      }
      assert names[..i] == names;
      failed := None;
    }

    /**
     * `disableModule(name)`: an unknown or already disabled module throws
     * an Error; otherwise the module is switched off, its triggers are
     * released and the persisted settings are refreshed.
     */
    method DisableModule(name: string) returns (r: Result<CommandModule, Thrown>)
      requires Valid()
      modifies this, ObjectAt(name)
      ensures Valid()
      ensures modules == old(modules)
      ensures name !in modules.vals ==>
        r == Err(ErrorObject("No such module: " + name))
        && triggers == old(triggers) && configModules == old(configModules)
      ensures name in modules.vals && !old(modules.vals[name].IsEnabled()) ==>
        r == Err(ErrorObject("Module is already disabled."))
        && triggers == old(triggers) && configModules == old(configModules)
        && modules.vals[name].config == old(modules.vals[name].config)
      ensures name in modules.vals && old(modules.vals[name].IsEnabled()) ==>
        var m := modules.vals[name];
        r == Ok(m)
        && m.config == old(m.config)["enabled" := Bool(false)] && !m.IsEnabled()
        && m.triggers == old(m.triggers)
        && triggers == Unbind(old(triggers), m.triggers.keys, m.Name())
        && configModules == old(configModules) + Configs()
    {
      if name !in modules.vals {
        return Err(ErrorObject("No such module: " + name));
      }
      var m := modules.vals[name];
      if !m.IsEnabled() {
        return Err(ErrorObject("Module is already disabled."));
      }
      m.SetEnabled(false);
      UnloadModuleTriggers(m);
      UpdateConfig();
      r := Ok(m);
    }

    /**
     * `enableModule(name)`: an unknown or already enabled module throws a
     * string; otherwise the module is switched on, its free triggers are
     * bound to it and the persisted settings are refreshed.
     */
    method EnableModule(name: string) returns (r: Result<CommandModule, Thrown>)
      requires Valid()
      modifies this, ObjectAt(name)
      ensures Valid()
      ensures modules == old(modules)
      ensures name !in modules.vals ==>
        r == Err(Text("No such module: " + name))
        && triggers == old(triggers) && configModules == old(configModules)
      ensures name in modules.vals && old(modules.vals[name].IsEnabled()) ==>
        r == Err(Text("Module is already enabled."))
        && triggers == old(triggers) && configModules == old(configModules)
        && modules.vals[name].config == old(modules.vals[name].config)
      ensures name in modules.vals && !old(modules.vals[name].IsEnabled()) ==>
        var m := modules.vals[name];
        r == Ok(m)
        && m.config == old(m.config)["enabled" := Bool(true)] && m.IsEnabled()
        && m.triggers == old(m.triggers)
        && triggers == Bind(old(triggers), m.triggers.keys, m.Name())
        && configModules == old(configModules) + Configs()
    {
      if name !in modules.vals {
        return Err(Text("No such module: " + name));
      }
      var m := modules.vals[name];
      if m.IsEnabled() {
        return Err(Text("Module is already enabled."));
      }
      m.SetEnabled(true);
      LoadModuleTriggers(m);
      UpdateConfig();
      r := Ok(m);
    }

    /**
     * `reloadModule(name)`: an unknown module throws a string; otherwise
     * the module's triggers are released, the module file is purged from
     * Node's module cache (`purge` is what that throws, if anything; a
     * missing file always throws), the module is unregistered and loaded
     * afresh.
     */
    method ReloadModule(name: string, purge: Option<Thrown>) returns (r: Result<Option<CommandModule>, Thrown>)
      requires Valid()
      modifies this
      ensures Valid()
      ensures name !in old(modules.vals) ==>
        r == Err(Text("No such module: " + name))
        && modules == old(modules) && triggers == old(triggers) && configModules == old(configModules)
      ensures name in old(modules.vals) && (name !in definitions || purge.Some?) ==>
        r.Err? && (name !in definitions ==> r.error == TypeErr("module path is not a string"))
        && (purge.Some? && name in definitions ==> r.error == purge.value)
        && modules == old(modules) && configModules == old(configModules)
        && triggers == Unbind(old(triggers), old(modules.vals[name]).triggers.keys, old(modules.vals[name]).Name())
      ensures name in old(modules.vals) && name in definitions && purge.None? ==>
        var released := Unbind(old(triggers), old(modules.vals[name]).triggers.keys, old(modules.vals[name]).Name());
        (Blacklisted(old(ConfigFor(name))) ==>
          r == Ok(None) && modules == old(modules).Remove(name)
          && triggers == released && configModules == old(configModules))
        && (!Blacklisted(old(ConfigFor(name))) ==>
          configModules == (if name in old(configModules) then old(configModules)[name := Granted(old(ConfigFor(name)))]
                            else old(configModules)))
        && (!Blacklisted(old(ConfigFor(name))) && old(LoadFailure(name)).Some? ==>
          r == Err(old(LoadFailure(name)).value) && modules == old(modules).Remove(name) && triggers == released)
        && (!Blacklisted(old(ConfigFor(name))) && old(LoadFailure(name)).None? ==>
          r.Ok? && r.value.Some? && fresh(r.value.value)
          && var m := r.value.value;
          modules == old(modules).Remove(name).Put(name, m)
          && m.config == Defaults() + Granted(old(ConfigFor(name))) + definitions[name].overrides
          && m.triggers == TriggerTable(definitions[name].triggerList)
          && triggers == (if m.IsEnabled() then Bind(released, m.triggers.keys, m.Name()) else released))
      ensures forall k :: k in modules.vals && k != name ==> k in old(modules.vals) && modules.vals[k] == old(modules.vals[k])
      ensures name in modules.vals ==> fresh(modules.vals[name]) || modules.vals[name] == old(modules.vals[name])
    {
      if name !in modules.vals {
        return Err(Text("No such module: " + name));
      }
      var m := modules.vals[name];
      UnloadModuleTriggers(m);
      if name !in definitions {
        return Err(TypeErr("module path is not a string"));
      }
      if purge.Some? {
        return Err(purge.value);
      }
      RemoveValid(modules, name);
      modules := modules.Remove(name);
      r := LoadModule(name);
    }

    // ---------------------------------------------------------------- dispatch

    /**
     * `processMessage(message)` as written: the first word picks the
     * module; the member, not the message, is handed to `allowed`, whose
     * result is judged by its truthiness: a falsy one fails the dispatch
     * with `'Access denied.'`, while a permission object lets the
     * module's answer be sent whatever its `check` says. `call` is what
     * `allowed` does for a module on the root `CommandModule.js`.
     */
    function ProcessMessage(content: string, call: MemberCall, settled: Settled): (d: Dispatch)
      reads this
      ensures ModuleByTrigger(FirstWord(content)).None? <==> d == Ignored
      ensures ModuleByTrigger(FirstWord(content)).Some? ==>
        var c := MemberCallOf(ModuleByTrigger(FirstWord(content)).value, call);
        && (c.MemberCallThrows? ==> d == Failed(c.error))
        && (c.MemberCallFalsy? ==> d == Failed(Text("Access denied.")))
        && (c.MemberCallReturns? ==> d == Answer(settled))
    {
      match ModuleByTrigger(FirstWord(content))
      case None => Ignored
      case Some(m) =>
        match MemberCallOf(m, call)
        case MemberCallThrows(e) => Failed(e)
        case MemberCallFalsy => Failed(Text("Access denied."))
        case MemberCallReturns(_) => Answer(settled)
    }

    /**
     * The dispatch with the permission gate it evidently means to have:
     * the message's sender is checked with `allowed`, and a refusal
     * fails the dispatch with `'Access denied.'` before the module runs;
     * nothing is sent to the sender.
     */
    function ProcessMessageChecked(content: string, caller: Caller, settled: Settled): (d: Dispatch)
      reads this, Objects()
      ensures ModuleByTrigger(FirstWord(content)).None? ==> d == Ignored
      ensures ModuleByTrigger(FirstWord(content)).Some? ==>
        var m := ModuleByTrigger(FirstWord(content)).value;
        (m.Allowed(caller).check ==> d == Answer(settled))
        && (!m.Allowed(caller).check ==> d == Failed(Text("Access denied.")))
    {
      match ModuleByTrigger(FirstWord(content))
      case None => Ignored
      case Some(m) =>
        if m.Allowed(caller).check then Answer(settled) else Failed(Text("Access denied."))
    }
  }

  /**
   * As written, the gate tests only the truthiness of what `allowed`
   * returns: whenever the root class's `allowed` returns a permission
   * object, the module's answer is sent whatever that permission says, so
   * a caller the module refuses still gets the module's answer.
   */
  lemma GateNeverDenies(bot: DiscordBot, content: string, p: Permission, settled: Settled)
    requires bot.ModuleByTrigger(FirstWord(content)).Some?
    requires !bot.ModuleByTrigger(FirstWord(content)).value.libBased
    ensures bot.ProcessMessage(content, MemberCallReturns(p), settled) == Answer(settled)
    ensures bot.ProcessMessage(content, MemberCallReturns(p), settled) != Failed(Text("Access denied."))
  {
    match settled
    case Resolved(reply) =>
      if SendReply(reply).Err? {
        assert SendReply(reply).error != Text("Access denied.");
      }
    case Rejected(err) =>
  }

  /**
   * A module built on `lib/CommandModule.js` never answers a message: its
   * `allowed`, handed the member, throws a TypeError before the module
   * runs, whoever the caller is and whatever the module would answer.
   */
  lemma LibModulesNeverAnswer(bot: DiscordBot, content: string, call: MemberCall, settled: Settled, other: Settled)
    requires bot.ModuleByTrigger(FirstWord(content)).Some?
    requires bot.ModuleByTrigger(FirstWord(content)).value.libBased
    ensures bot.ProcessMessage(content, call, settled) == Failed(LibAllowedOnMember.error)
    ensures bot.ProcessMessage(content, call, settled) == bot.ProcessMessage(content, call, other)
  {
  }

  /**
   * With the gate as intended, a module answers only a caller it allows;
   * for a refused caller the dispatch fails with `Access denied.`, nothing
   * is sent and the module never runs.
   */
  lemma CheckedGateAdmitsOnlyAllowed(bot: DiscordBot, content: string, caller: Caller, settled: Settled)
    requires bot.ModuleByTrigger(FirstWord(content)).Some?
    ensures var d := bot.ProcessMessageChecked(content, caller, settled);
      var m := bot.ModuleByTrigger(FirstWord(content)).value;
      (d == Answer(settled) && d != Failed(Text("Access denied."))) ==> m.Allowed(caller).check
    ensures var m := bot.ModuleByTrigger(FirstWord(content)).value;
      !m.Allowed(caller).check ==> bot.ProcessMessageChecked(content, caller, settled) == Failed(Text("Access denied."))
  {
  }
}

=== FILE: break.dfy ===
/**
 * The `!break` command: at most one break timer per channel, set for a
 * number of minutes, reported, cancelled, announced when it runs out, and
 * saved to storage when the module is unloaded.
 */
module Break {
  import opened Js
  import opened Chat
  import opened Bot
  import Common
  import LibBreakTimer

  const Minute := 60 * 1000

  /** Storage keys of saved timers start with this. */
  const Prefix := "breaktimer_"

  const Cancelled := "break cancelled."
  const NoTimer := "no timer was set."
  const NotPositive := "Please enter positive number"
  const Over := "@here break is over, get back to whatever you were doing!"
  const NoTimerToStop := TypeErr("Cannot read property 'stop' of undefined")

  /** What `Message` decides to do before it touches any timer. */
  datatype Decision = TimeLeft | RefuseNumber | Cancel | SetFor(minutes: int)

  /**
   * The branches of `Message`: no parameter with a timer reports the time
   * left; a non-numeric or negative count is refused; zero, or no
   * parameter without a timer, cancels; any other count sets a timer.
   */
  function Decide(params: seq<string>, hasTimer: bool): (d: Decision)
    ensures d == TimeLeft <==> params == [] && hasTimer
    ensures d == RefuseNumber <==> params != [] && (ParseInt(params[0]).None? || ParseInt(params[0]).value < 0)
    ensures d == Cancel <==> (params == [] && !hasTimer) || (params != [] && ParseInt(params[0]) == Some(0))
    ensures d.SetFor? ==> d.minutes > 0 && params != [] && ParseInt(params[0]) == Some(d.minutes)
  {
    var timeout := if params != [] then ParseInt(params[0]) else Some(0);
    if params == [] && hasTimer then TimeLeft
    else if timeout.None? || timeout.value < 0 then RefuseNumber
    else if timeout.value == 0 then Cancel
    else SetFor(timeout.value)
  }

  /** Every parameter that reads as a positive number sets a timer for that many minutes. */
  lemma PositiveSets(params: seq<string>, hasTimer: bool)
    requires params != [] && ParseInt(params[0]).Some? && ParseInt(params[0]).value > 0
    ensures Decide(params, hasTimer) == SetFor(ParseInt(params[0]).value)
  {
  }

  /** The confirmation of `_setTimer`. */
  function SetReply(minutes: int): string
  {
    "@here " + IntToString(minutes) + " minute" + (if minutes > 1 then "s" else "") + " break timer set."
  }

  /** "minute" for one, "minutes" for more. */
  lemma SetReplyWording(minutes: int)
    requires minutes >= 1
    ensures minutes == 1 ==> SetReply(minutes) == "@here 1 minute break timer set."
    ensures minutes > 1 ==> SetReply(minutes) == "@here " + IntToString(minutes) + " minutes break timer set."
  {
    if minutes == 1 {
      assert IntToString(1) == "1";
    }
  }

  /** The report of the time left. */
  function LeftReply(left: string): string
  {
    "there's " + left + " left of the break."
  }

  // ---------------------------------------------------------------- storage

  /** `this.bot.storage.setItemSync('breaktimer_' + k, ...)` for every timer. */
  function Saved(snaps: map<string, LibBreakTimer.Snapshot>): (s: map<string, LibBreakTimer.Snapshot>)
    ensures forall k :: k in snaps <==> Prefix + k in s
    ensures forall k :: k in snaps ==> s[Prefix + k] == snaps[k]
    ensures forall key :: key in s ==> StartsWith(key, Prefix)
  {
    PrefixInjective();
    var s := map k | k in snaps :: Prefix + k := snaps[k];
    assert forall k :: k in snaps ==> (Prefix + k)[..|Prefix|] == Prefix;
    forall key | key in s ensures StartsWith(key, Prefix) {
      var k :| k in snaps && key == Prefix + k;
      assert key[..|Prefix|] == Prefix;
    }
    s
  }

  /** Different ids give different storage keys. */
  lemma PrefixInjective()
    ensures forall a: string, b: string :: Prefix + a == Prefix + b ==> a == b
  {
    forall a: string, b: string | Prefix + a == Prefix + b ensures a == b {
      assert (Prefix + a)[|Prefix|..] == a;
      assert (Prefix + b)[|Prefix|..] == b;
    }
  }

  /** Saving one more timer writes one more key. */
  lemma SavedPut(
    base: map<string, LibBreakTimer.Snapshot>,
    written: map<string, LibBreakTimer.Snapshot>,
    k: string,
    v: LibBreakTimer.Snapshot)
    ensures (base + Saved(written))[Prefix + k := v] == base + Saved(written[k := v])
  {
    SavedPutOne(written, k, v);
    UpdateUnion(base, Saved(written), Prefix + k, v);
  }

  lemma UpdateUnion<K, V>(base: map<K, V>, m: map<K, V>, key: K, v: V)
    ensures (base + m)[key := v] == base + m[key := v]
  {
  }

  lemma SavedPutOne(written: map<string, LibBreakTimer.Snapshot>, k: string, v: LibBreakTimer.Snapshot)
    ensures Saved(written)[Prefix + k := v] == Saved(written[k := v])
  {
    var a := Saved(written)[Prefix + k := v];
    var b := Saved(written[k := v]);
    forall key | key in b ensures key in a && a[key] == b[key] {
      var t := key[|Prefix|..];
      assert key == Prefix + t;
      if t != k {
        assert t in written;
        PrefixInjective();
      }
    }
    forall key | key in a ensures key in b {
      if key != Prefix + k {
        var t := key[|Prefix|..];
        assert key == Prefix + t;
      }
    }
  }

  /**
   * `_loadTimers()`: the stored values whose key starts with the prefix,
   * visited in the order `order` lists the storage keys, each put under its
   * own channel id (a later one replacing an earlier one).
   */
  function Loaded(storage: map<string, LibBreakTimer.Snapshot>, order: seq<string>): map<string, LibBreakTimer.Snapshot>
  {
    if order == [] then map[]
    else
      var m := Loaded(storage, order[..|order| - 1]);
      var key := order[|order| - 1];
      if key in storage && StartsWith(key, Prefix) then m[storage[key].channel.id := storage[key]] else m
  }

  predicate Matches(storage: map<string, LibBreakTimer.Snapshot>, key: string, id: string)
  {
    key in storage && StartsWith(key, Prefix) && storage[key].channel.id == id
  }

  /** Each loaded timer comes from a stored key of the prefix whose channel is that id. */
  lemma {:induction false} LoadedFrom(storage: map<string, LibBreakTimer.Snapshot>, order: seq<string>, id: string)
    requires id in Loaded(storage, order)
    ensures exists key :: key in order && Matches(storage, key, id) && Loaded(storage, order)[id] == storage[key]
    decreases |order|
  {
    var key := order[|order| - 1];
    if !(Matches(storage, key, id)) {
      LoadedFrom(storage, order[..|order| - 1], id);
      var k :| k in order[..|order| - 1] && Matches(storage, k, id)
               && Loaded(storage, order[..|order| - 1])[id] == storage[k];
      assert k in order;
    }
  }

  /** A stored key of the prefix in the order gets its channel loaded. */
  lemma {:induction false} LoadedHas(storage: map<string, LibBreakTimer.Snapshot>, order: seq<string>, key: string)
    requires key in order && key in storage && StartsWith(key, Prefix)
    ensures storage[key].channel.id in Loaded(storage, order)
    decreases |order|
  {
    if order[|order| - 1] != key {
      assert key in order[..|order| - 1];
      LoadedHas(storage, order[..|order| - 1], key);
    }
  }

  /**
   * Saving timers keyed by their channel ids, next to storage items of
   * other kinds, and loading again gives back the same timers.
   */
  lemma SaveLoadRoundTrip(
    snaps: map<string, LibBreakTimer.Snapshot>,
    other: map<string, LibBreakTimer.Snapshot>,
    order: seq<string>)
    requires forall k :: k in snaps ==> snaps[k].channel.id == k
    requires forall key :: key in other ==> !StartsWith(key, Prefix)
    requires forall key :: key in (other + Saved(snaps)) ==> key in order
    ensures Loaded(other + Saved(snaps), order) == snaps
  {
    var storage := other + Saved(snaps);
    var loaded := Loaded(storage, order);
    forall id | id in loaded ensures id in snaps && loaded[id] == snaps[id] {
      LoadedFrom(storage, order, id);
      var key :| key in order && Matches(storage, key, id) && loaded[id] == storage[key];
      var k :| k in snaps && key == Prefix + k;
    }
    forall id | id in snaps ensures id in loaded {
      LoadedHas(storage, order, Prefix + id);
    }
  }

  /** The loop of `destructor()`: one `setItemSync` per timer, in any order. */
  method SaveAll(storage: map<string, LibBreakTimer.Snapshot>, snaps: map<string, LibBreakTimer.Snapshot>)
    returns (s: map<string, LibBreakTimer.Snapshot>)
    ensures s == storage + Saved(snaps)
  {
    s := storage;
    var left := snaps.Keys;
    var written: map<string, LibBreakTimer.Snapshot> := map[];
    while left != {}
      invariant left <= snaps.Keys
      invariant forall k :: k in written <==> k in snaps && k !in left
      invariant forall k :: k in written ==> written[k] == snaps[k]
      invariant s == storage + Saved(written)
      decreases left
    {
      var k :| k in left;
      SavedPut(storage, written, k, snaps[k]);
      s := s[Prefix + k := snaps[k]];
      written := written[k := snaps[k]];
      left := left - {k};
    }
    assert written == snaps;
  }

  // ---------------------------------------------------------------- the module

  class BreakModule {
    /** Channel id to that channel's timer. */
    var timers: map<string, LibBreakTimer.BreakTimer>
    /** The bot's storage, as far as break timers use it. */
    var storage: map<string, LibBreakTimer.Snapshot>

    /** Every timer sits under its own channel's id. */
    ghost predicate Valid()
      reads this, timers.Values
    {
      forall k :: k in timers ==> timers[k].channel.id == k
    }

    /** The timers as `serialize()` shows them. */
    function Snapshots(): map<string, LibBreakTimer.Snapshot>
      reads this, timers.Values
    {
      map k | k in timers :: timers[k].Serialize()
    }

    /** `new BreakModule(...)`: no timers, then `_loadTimers()` from `storage`. */
    constructor(storage: map<string, LibBreakTimer.Snapshot>, order: seq<string>, now: int)
      ensures Valid()
      ensures this.storage == storage
      ensures Snapshots() == Loaded(storage, order)
    {
      timers := map[];
      this.storage := storage;
      new;
      LoadTimers(order, now);
    }

    /** `_loadTimers()`, visiting the storage keys in the order `order`. */
    method LoadTimers(order: seq<string>, now: int)
      requires timers == map[]
      modifies this
      ensures Valid() && storage == old(storage)
      ensures Snapshots() == Loaded(storage, order)
      ensures forall k :: k in timers ==> fresh(timers[k])
    {
      var i := 0;
      while i < |order|
        invariant 0 <= i <= |order| && storage == old(storage)
        invariant forall k :: k in timers ==> fresh(timers[k])
        invariant Valid()
        invariant Snapshots() == Loaded(storage, order[..i])
      {
        var key := order[i];
        assert order[..i + 1][..i] == order[..i];
        if key in storage && StartsWith(key, Prefix) {
          var saved := storage[key];
          var t := new LibBreakTimer.BreakTimer(saved.end, saved.author, AsChannel(saved.channel), now);
          timers := timers[saved.channel.id := t];
        }
        i := i + 1;
      }
      assert order[..i] == order;
    }

    /** `destructor()`: every timer saved under its storage key. */
    method Destructor()
      requires Valid()
      modifies this
      ensures timers == old(timers) && Valid()
      ensures storage == old(storage) + Saved(old(Snapshots()))
    {
      storage := SaveAll(storage, Snapshots());
    }

    /** `_removeTimer(channelId)`: stop the timer, forget it in storage and in the map. */
    method RemoveTimer(channelId: string) returns (r: Result<(), Thrown>)
      requires Valid()
      modifies this, timers.Values
      ensures channelId !in old(timers) ==> r == Err(NoTimerToStop) && timers == old(timers) && storage == old(storage)
      ensures channelId in old(timers) ==> r.Ok? && timers == old(timers) - {channelId}
      ensures channelId in old(timers) ==> storage == old(storage) - {Prefix + channelId}
      ensures forall k :: k in timers ==> unchanged(timers[k])
      ensures Valid()
    {
      if channelId !in timers {
        return Err(NoTimerToStop);
      }
      var t := timers[channelId];
      var self := t.Stop();
      storage := storage - {Prefix + channelId};
      timers := timers - {channelId};
      r := Ok(());
    }

    /** `_clearTimer(msg)` for a message in channel `channelId`. */
    method ClearTimer(channelId: string) returns (s: Settled)
      requires Valid()
      modifies this, timers.Values
      ensures channelId in old(timers) <==> s == Resolved(TextReply(Cancelled))
      ensures channelId !in old(timers) <==> s == Rejected(TextReply(NoTimer))
      ensures timers == old(timers) - {channelId} && Valid()
      ensures forall k :: k in timers ==> unchanged(timers[k])
      ensures storage == if channelId in old(timers) then old(storage) - {Prefix + channelId} else old(storage)
    {
      if channelId in timers {
        var r := RemoveTimer(channelId);
        return Resolved(TextReply(Cancelled));
      }
      s := Rejected(TextReply(NoTimer));
    }

    /** `_setTimer(msg, minutes)`: reset the channel's timer, or create one. */
    method SetTimer(channel: Channel, author: User, minutes: int, now: int) returns (s: Settled)
      requires Valid()
      modifies this, timers.Values
      ensures s == Resolved(Obj(Some(SetReply(minutes))))
      ensures timers.Keys == old(timers.Keys) + {channel.id} && Valid()
      ensures forall k :: k in old(timers) ==> timers[k] == old(timers[k])
      ensures timers[channel.id].end == now + minutes * Minute
      ensures channel.id in old(timers) ==> timers[channel.id].author == old(timers[channel.id].author)
      ensures channel.id !in old(timers) ==> fresh(timers[channel.id]) && timers[channel.id].author == author
      ensures forall k :: k in old(timers) && k != channel.id ==> unchanged(timers[k])
      ensures storage == old(storage)
    {
      var end := now + minutes * Minute;
      if channel.id in timers {
        timers[channel.id].Reset(end, now);
      } else {
        var t := new LibBreakTimer.BreakTimer(end, author, channel, now);
        timers := timers[channel.id := t];
      }
      s := Resolved(Obj(Some(SetReply(minutes))));
    }

    /** `_timerExpired(timer)`: remove it, then announce the end in its channel. */
    method TimerExpired(timer: LibBreakTimer.BreakTimer) returns (r: Result<(string, string), Thrown>)
      requires Valid()
      modifies this, timers.Values
      ensures var id := old(timer.channel.id);
              (id in old(timers) ==> r == Ok((id, Over)) && timers == old(timers) - {id})
              && (id !in old(timers) ==> r == Err(NoTimerToStop) && timers == old(timers))
      ensures var id := old(timer.channel.id);
              storage == if id in old(timers) then old(storage) - {Prefix + id} else old(storage)
      ensures forall k :: k in timers ==> unchanged(timers[k])
      ensures Valid()
    {
      var id := timer.channel.id;
      var removed := RemoveTimer(id);
      if removed.Err? {
        return Err(removed.error);
      }
      r := Ok((id, Over));
    }

    /** `Message(message)` for a message in `channel` by `author`, given its parameters. */
    method Message(params: seq<string>, channel: Channel, author: User, now: int) returns (s: Settled)
      requires Valid()
      modifies this, timers.Values
      ensures Valid()
      ensures var d := Decide(params, channel.id in old(timers));
              && (d == TimeLeft ==>
                    (timers == old(timers) && s.Resolved? && s.reply.TextReply?
                     && s.reply.s == LeftReply(Common.Shown(Common.Parts((old(timers[channel.id].end) - now) / 1000, Common.SecondUnits)))))
              && (d == RefuseNumber ==> timers == old(timers) && s == Rejected(TextReply(NotPositive)))
              && (d == Cancel ==>
                    (timers == old(timers) - {channel.id}
                     && (s == Resolved(TextReply(Cancelled)) <==> channel.id in old(timers))))
              && (d.SetFor? ==>
                    (timers.Keys == old(timers.Keys) + {channel.id}
                     && timers[channel.id].end == now + d.minutes * Minute
                     && (channel.id in old(timers) ==> timers[channel.id].author == old(timers[channel.id].author))
                     && (channel.id !in old(timers) ==> fresh(timers[channel.id]) && timers[channel.id].author == author)
                     && s == Resolved(Obj(Some(SetReply(d.minutes))))))
      ensures forall k :: k in old(timers) && k != channel.id ==> k in timers && timers[k] == old(timers[k]) && unchanged(timers[k])
      ensures var d := Decide(params, channel.id in old(timers));
              storage == if d == Cancel && channel.id in old(timers) then old(storage) - {Prefix + channel.id} else old(storage)
    {
      var d := Decide(params, channel.id in timers);
      match d
      case TimeLeft =>
        var left := Common.RelativeTimeSeconds(timers[channel.id].end - now);
        s := Resolved(TextReply(LeftReply(left)));
      case RefuseNumber =>
        s := Rejected(TextReply(NotPositive));
      case Cancel =>
        s := ClearTimer(channel.id);
      case SetFor(minutes) =>
        s := SetTimer(channel, author, minutes, now);
    }
  }
}

=== FILE: chat.dfy ===
/** The parts of the chat service's users and channels that timers and raffles keep. */
module Chat {

  datatype User = User(id: string, username: string)

  /** A chat channel object: its id, its name and whatever other properties it carries. */
  datatype Channel = Channel(id: string, name: string, other: map<string, string>)

  /** The copy of a channel a break timer keeps: `{id, name}`. */
  datatype ChannelRef = ChannelRef(id: string, name: string)

  /** A stored `{id, name}` object handed back where a channel is expected. */
  function AsChannel(c: ChannelRef): Channel
  {
    Channel(c.id, c.name, map[])
  }
}

=== FILE: command_module.dfy ===
/**
 * The base class of every chat command module: its configuration
 * (`enabled`, `owner`, `roles`), its trigger table, how a message's
 * trigger word and parameters are read, and the permission decision.
 */
module CommandModule {
  import opened Js
  import opened OrderedDict

  /** What a module says about one of its triggers (for the help text). */
  datatype TriggerInfo = TriggerInfo(short: Option<string>, params: Option<seq<string>>)

  /** A module's configuration object. */
  type Config = map<string, Value>

  /** The configuration every module starts from before its own settings are merged in. */
  function Defaults(): (c: Config)
    ensures !TruthyAt(c, "enabled") && !TruthyAt(c, "owner")
    ensures "roles" in c && c["roles"] == List([])
  {
    map["enabled" := Bool(false), "owner" := Bool(false), "roles" := List([])]
  }

  const DefaultHelp := "No further help available."
  const NotImplemented := "sorry, but this module has not yet been implemented."

  /** The module name: the class name without a trailing `Module`. */
  function ModuleName(className: string): (name: string)
    ensures EndsWith(className, "Module") ==> name + "Module" == className
    ensures !EndsWith(className, "Module") ==> name == className
  {
    if EndsWith(className, "Module") then className[..|className| - 6] else className
  }

  /** A class called `<name>Module` is known by `<name>`. */
  lemma ModuleNameOfSuffixed(name: string)
    ensures ModuleName(name + "Module") == name
  {
    var c := name + "Module";
    assert c[|c| - 6..] == "Module";
    assert c[..|c| - 6] == name;
  }

  /** The role names a configuration restricts a module to (`config.roles`). */
  function RoleList(config: Config): seq<string>
  {
    if "roles" in config && config["roles"].List? then config["roles"].items else []
  }

  // ------------------------------------------------------------------ reading a message

  /** The longest prefix of `s` made of `\w` characters. */
  function WordRun(s: string): (r: string)
    ensures StartsWith(s, r)
    ensures forall i :: 0 <= i < |r| ==> IsWordChar(r[i])
    ensures |r| == |s| || !IsWordChar(s[|r|])
  {
    if s != [] && IsWordChar(s[0]) then [s[0]] + WordRun(s[1..]) else []
  }

  /** `content.match(/^!(\w+)/)[1]`; `None` where the match fails and indexing it throws. */
  function GetTrigger(content: string): (r: Option<string>)
    ensures r.None? <==> !(|content| >= 2 && content[0] == '!' && IsWordChar(content[1]))
    ensures r.Some? ==> r.value != [] && StartsWith(content, "!" + r.value)
    ensures r.Some? ==> forall i :: 0 <= i < |r.value| ==> IsWordChar(r.value[i])
    ensures r.Some? ==> |content| == |r.value| + 1 || !IsWordChar(content[|r.value| + 1])
  {
    if |content| >= 1 && content[0] == '!' && WordRun(content[1..]) != [] then
      var w := WordRun(content[1..]);
      assert content[..|w| + 1] == "!" + w;
      Some(w)
    else None
  }

  /** `content.replace(/^!(\w+)/, '')` */
  function StripTrigger(content: string): (r: string)
    ensures GetTrigger(content).Some? ==> content == "!" + GetTrigger(content).value + r
    ensures GetTrigger(content).None? ==> r == content
  {
    match GetTrigger(content)
    case None => content
    case Some(w) =>
      assert content == content[..|w| + 1] + content[|w| + 1..];
      content[|w| + 1..]
  }

  /** `s.replace(/ +/, ' ')`: the first run of spaces becomes one space. */
  function CollapseFirstRun(s: string): (r: string)
    ensures ' ' !in s ==> r == s
  {
    match IndexOf(s, ' ')
    case None => s
    case Some(i) => s[..i] + " " + SkipSpaces(s[i..])
  }

  /** `s` without its leading spaces. */
  function SkipSpaces(s: string): (r: string)
    ensures |r| <= |s| && r == s[|s| - |r|..]
    ensures r == [] || r[0] != ' '
  {
    if s != [] && s[0] == ' ' then SkipSpaces(s[1..]) else s
  }

  /** The text after the trigger, as `_getParams` cleans it up before splitting. */
  function ParamText(content: string): string
  {
    Trim(CollapseFirstRun(StripTrigger(content)))
  }

  /** `_getParams`: the words after the trigger. */
  function GetParams(content: string): (params: seq<string>)
    ensures params == [] <==> ParamText(content) == ""
    ensures forall i :: 0 <= i < |params| ==> ' ' !in params[i]
  {
    var text := ParamText(content);
    if text != "" then Split(text, ' ') else []
  }

  /** The parameters, joined back with single spaces, are the cleaned-up text after the trigger. */
  lemma GetParamsJoin(content: string)
    ensures GetParams(content) != [] ==> Join(GetParams(content), " ") == ParamText(content)
  {
    if ParamText(content) != "" {
      JoinSplit(ParamText(content), ' ');
    }
  }

  /** A token that `trim` and `split(' ')` leave whole. */
  predicate IsToken(w: string)
  {
    w != [] && forall i :: 0 <= i < |w| ==> !IsSpace(w[i])
  }

  /**
   * A message `!trigger word1 word2 ...` (single spaces, words free of
   * white space) yields `trigger` and exactly those words.
   */
  lemma {:induction false} ReadCommand(trigger: string, words: seq<string>)
    requires trigger != [] && forall i :: 0 <= i < |trigger| ==> IsWordChar(trigger[i])
    requires |words| >= 1 && forall i :: 0 <= i < |words| ==> IsToken(words[i])
    ensures GetTrigger("!" + trigger + " " + Join(words, " ")) == Some(trigger)
    ensures GetParams("!" + trigger + " " + Join(words, " ")) == words
  {
    var body := Join(words, " ");
    JoinTokens(words);
    StripKnownTrigger(trigger, " " + body);
    assert "!" + trigger + " " + body == "!" + trigger + (" " + body);
    CollapseLeadingSpace(body);
    TrimLeadingSpace(body);
    assert ParamText("!" + trigger + " " + body) == body;
    forall i | 0 <= i < |words| ensures ' ' !in words[i] {
      assert IsToken(words[i]);
    }
    SplitJoin(words, ' ');
  }

  lemma StripKnownTrigger(trigger: string, rest: string)
    requires trigger != [] && forall i :: 0 <= i < |trigger| ==> IsWordChar(trigger[i])
    requires rest != [] && !IsWordChar(rest[0])
    ensures GetTrigger("!" + trigger + rest) == Some(trigger)
    ensures StripTrigger("!" + trigger + rest) == rest
  {
    var content := "!" + trigger + rest;
    assert content[1..] == trigger + rest;
    WordRunStops(trigger, rest);
  }

  lemma CollapseLeadingSpace(body: string)
    requires body != [] && body[0] != ' '
    ensures CollapseFirstRun(" " + body) == " " + body
  {
    var s := " " + body;
    assert IndexOf(s, ' ') == Some(0);
    assert s[0..] == s && s[1..] == body;
    assert SkipSpaces(body) == body;
    assert SkipSpaces(s) == body;
    assert s[..0] + " " + body == s;
  }

  lemma TrimLeadingSpace(body: string)
    requires body != [] && !IsSpace(body[0]) && !IsSpace(body[|body| - 1])
    ensures Trim(" " + body) == body
  {
    var s := " " + body;
    assert s[1..] == body;
    assert TrimStart(s) == body;
  }

  lemma {:induction false} WordRunStops(w: string, rest: string)
    requires forall i :: 0 <= i < |w| ==> IsWordChar(w[i])
    requires rest != [] && !IsWordChar(rest[0])
    ensures WordRun(w + rest) == w
    decreases |w|
  {
    if w != [] {
      assert (w + rest)[1..] == w[1..] + rest;
      WordRunStops(w[1..], rest);
    } else {
      assert w + rest == rest;
    }
  }

  /** A space-joined list of tokens neither starts nor ends with white space. */
  lemma {:induction false} JoinTokens(words: seq<string>)
    requires |words| >= 1 && forall i :: 0 <= i < |words| ==> IsToken(words[i])
    ensures var s := Join(words, " "); s != [] && !IsSpace(s[0]) && !IsSpace(s[|s| - 1])
    ensures TrimStart(Join(words, " ")) == Join(words, " ")
    ensures TrimEnd(Join(words, " ")) == Join(words, " ")
    decreases |words|
  {
    var s := Join(words, " ");
    if |words| > 1 {
      JoinTokens(words[1..]);
      assert s == words[0] + " " + Join(words[1..], " ");
      assert s[0] == words[0][0];
    } else {
      assert s == words[0];
    }
  }

  // ------------------------------------------------------------------ permission

  /** Who sent a message: the user's id, the guild owner's id and the names of the member's roles. */
  datatype Caller = Caller(userId: string, guildOwnerId: string, roleNames: seq<string>)

  /** The object `allowed` returns. */
  datatype Permission = Permission(check: bool, why: string)

  /** `userRoles[i]` is the first of the member's role names that the module also lists. */
  predicate FirstSharedAt(userRoles: seq<string>, moduleRoles: seq<string>, i: int)
  {
    0 <= i < |userRoles| && userRoles[i] in moduleRoles
    && forall j :: 0 <= j < i ==> userRoles[j] !in moduleRoles
  }

  /**
   * The first of the member's role names that the module also lists: the
   * head of `intersect(userRoles, moduleRoles)`, which keeps the order of
   * its first argument.
   */
  function FirstCommon(userRoles: seq<string>, moduleRoles: seq<string>): (r: Option<string>)
    ensures r.None? <==> forall i :: 0 <= i < |userRoles| ==> userRoles[i] !in moduleRoles
    ensures r.Some? ==> exists i :: FirstSharedAt(userRoles, moduleRoles, i) && userRoles[i] == r.value
  {
    if userRoles == [] then None
    else if userRoles[0] in moduleRoles then Some(userRoles[0])
    else
      var r := FirstCommon(userRoles[1..], moduleRoles);
      assert forall i :: 1 <= i < |userRoles| ==> userRoles[i] == userRoles[1..][i - 1];
      assert r.Some? ==> exists i :: FirstSharedAt(userRoles, moduleRoles, i) && userRoles[i] == r.value by {
        if r.Some? {
          var i :| FirstSharedAt(userRoles[1..], moduleRoles, i) && userRoles[1..][i] == r.value;
          assert FirstSharedAt(userRoles, moduleRoles, i + 1);
        }
      }
      r
  }

  /** A module class: its configuration and trigger table change in place. */
  class CommandModule {
    const className: string
    /** What `getHelp()` returns for this class. */
    const helpText: string
    /** Whether the class extends `lib/CommandModule.js` rather than the root `CommandModule.js`. */
    const libBased: bool
    var config: Config
    var triggers: Dict<TriggerInfo>

    /** `super(parent, config)`: defaults merged with the module's configuration, no triggers. */
    constructor (className: string, helpText: string, config: Config, libBased: bool)
      ensures this.className == className && this.helpText == helpText && this.libBased == libBased
      ensures this.config == Defaults() + config
      ensures triggers == Empty()
    {
      this.className := className;
      this.helpText := helpText;
      this.libBased := libBased;
      this.config := Defaults() + config;
      triggers := Empty();
    }

    /** `getName()` */
    function Name(): string
    {
      ModuleName(className)
    }

    /** `module.enabled`, as the bot and the other modules test it. */
    predicate IsEnabled()
      reads this
    {
      TruthyAt(config, "enabled")
    }

    /** `module.roles` */
    function Roles(): seq<string>
      reads this
    {
      RoleList(config)
    }

    /** `module.enabled = value`: writes `config.enabled`. */
    method SetEnabled(value: bool)
      modifies this
      ensures config == old(config)["enabled" := Bool(value)]
      ensures IsEnabled() == value
      ensures triggers == old(triggers)
    {
      config := config["enabled" := Bool(value)];
    }

    /** `addTrigger(name, info)`: registers or replaces one trigger, returns the module. */
    method AddTrigger(name: string, info: TriggerInfo) returns (self: CommandModule)
      modifies this
      ensures self == this
      ensures triggers == old(triggers).Put(name, info)
      ensures config == old(config)
    {
      triggers := triggers.Put(name, info);
      self := this;
    }

    /** `this.config = Object.assign(this.config, extra)`, as subclass constructors do. */
    method MergeConfig(extra: Config)
      modifies this
      ensures config == old(config) + extra
      ensures triggers == old(triggers)
    {
      config := config + extra;
    }

    /** `clearTriggers()` */
    method ClearTriggers() returns (self: CommandModule)
      modifies this
      ensures self == this
      ensures triggers == Empty()
      ensures config == old(config)
    {
      triggers := Empty();
      self := this;
    }

    /**
     * `allowed(message)`: the guild owner always passes; an owner-only
     * module refuses everyone else; a module without roles lets everyone
     * in; otherwise the member needs one of the module's roles.
     */
    function Allowed(caller: Caller): (p: Permission)
      reads this
      ensures caller.userId == caller.guildOwnerId ==> p == Permission(true, "Owner")
      ensures caller.userId != caller.guildOwnerId && TruthyAt(config, "owner")
        ==> p == Permission(false, "Owner")
      ensures caller.userId != caller.guildOwnerId && !TruthyAt(config, "owner") && Roles() == []
        ==> p == Permission(true, "Unrestricted")
      ensures caller.userId != caller.guildOwnerId && !TruthyAt(config, "owner") && Roles() != []
        ==> (p.check <==> exists r :: r in caller.roleNames && r in Roles())
      ensures caller.userId != caller.guildOwnerId && !TruthyAt(config, "owner") && Roles() != []
        ==> (p.check ==> exists i :: FirstSharedAt(caller.roleNames, Roles(), i) && p.why == "Role: " + caller.roleNames[i])
      ensures caller.userId != caller.guildOwnerId && !TruthyAt(config, "owner") && Roles() != []
        ==> (!p.check ==> p.why == "Role")
    {
      if caller.userId == caller.guildOwnerId then Permission(true, "Owner")
      else if TruthyAt(config, "owner") then Permission(false, "Owner")
      else if Roles() == [] then Permission(true, "Unrestricted")
      else match FirstCommon(caller.roleNames, Roles())
        case None => Permission(false, "Role")
        case Some(r) => Permission(true, "Role: " + r)
    }
  }
}

=== FILE: common.dfy ===
/**
 * The integer helpers shared by the modules: clamping a user supplied
 * number into a range, spelling a duration out in units, and walking the
 * values of a dictionary.  The bot ships two copies of these helpers, one
 * working in milliseconds and one in whole seconds.
 */
module Common {
  import opened Js
  import opened OrderedDict

  // ---------------------------------------------------------------- objectIterator

  /** The own values of a dictionary, in key order (`objectIterator`). */
  function ObjectValues<V>(d: Dict<V>): (r: seq<V>)
    requires d.Valid()
    ensures |r| == |d.keys|
    ensures forall i :: 0 <= i < |r| ==> r[i] == d.vals[d.keys[i]]
  {
    seq(|d.keys|, i requires 0 <= i < |d.keys| => d.vals[d.keys[i]])
  }

  /** Every value stored under a key is yielded. */
  lemma ObjectValuesCover<V>(d: Dict<V>, k: string)
    requires d.Valid() && k in d.vals
    ensures d.vals[k] in ObjectValues(d)
  {
    var i :| 0 <= i < |d.keys| && d.keys[i] == k;
    assert ObjectValues(d)[i] == d.vals[k];
  }

  // ---------------------------------------------------------------- getIntegerBetween

  /** The option bag; a missing field takes the stock default. */
  datatype Options = Options(min: Option<int>, max: Option<int>, default: Option<int>)

  const MaxSafeInteger: int := 0x1F_FFFF_FFFF_FFFF

  function Min(o: Options): int { if o.min.Some? then o.min.value else 0 }
  function Max(o: Options): int { if o.max.Some? then o.max.value else MaxSafeInteger }
  function Default(o: Options): int { if o.default.Some? then o.default.value else 0 }

  /**
   * The number the caller's text stands for, or `None` when it is falsy:
   * missing, empty, not a number, or zero.
   */
  function Given(value: Option<string>): (r: Option<int>)
    ensures r.Some? ==> r.value != 0
    ensures (value.Some? && value.value != [] && ParseInt(value.value).Some? && ParseInt(value.value).value != 0)
            <==> r.Some?
    ensures r.Some? ==> r == ParseInt(value.value)
  {
    if value.None? || value.value == [] then None
    else match ParseInt(value.value)
      case None => None
      case Some(n) => if n == 0 then None else Some(n)
  }

  /**
   * `getIntegerBetween(value, options)`: the default for a falsy value,
   * else the parsed value clamped to the range, checking `min` first.
   */
  function GetIntegerBetween(value: Option<string>, o: Options): (r: int)
    ensures Given(value).None? ==> r == Default(o)
    ensures Given(value).Some? && Given(value).value < Min(o) ==> r == Min(o)
    ensures (Given(value).Some? && Min(o) <= Given(value).value && Max(o) < Given(value).value)
            ==> r == Max(o)
    ensures (Given(value).Some? && Min(o) <= Given(value).value <= Max(o))
            ==> r == Given(value).value
  {
    match Given(value)
    case None => Default(o)
    case Some(n) =>
      if n < Min(o) then Min(o)
      else if n > Max(o) then Max(o)
      else n
  }

  /** With a sensible range, the answer is the default or lies in the range. */
  lemma GetIntegerBetweenRange(value: Option<string>, o: Options)
    requires Min(o) <= Max(o)
    ensures var r := GetIntegerBetween(value, o);
            r == Default(o) || Min(o) <= r <= Max(o)
  {
  }

  /** The decimal text of a non-zero number in range reads back as that number. */
  lemma GetIntegerBetweenOfString(n: int, o: Options)
    requires n != 0 && Min(o) <= n <= Max(o)
    ensures GetIntegerBetween(Some(IntToString(n)), o) == n
  {
    ParseIntOfString(n);
    assert IntToString(n) != [];
  }

  // ---------------------------------------------------------------- relativeTime

  /** One unit of the duration table: its size and its suffix. */
  datatype Unit = Unit(size: nat, suffix: string)

  /** One emitted component: how many of the unit. */
  datatype Part = Part(count: int, unit: Unit)

  /** The millisecond table: days, hours, minutes, seconds, milliseconds. */
  const MsUnits: seq<Unit> :=
    [Unit(86400000, "d"), Unit(3600000, "h"), Unit(60000, "m"), Unit(1000, "s"), Unit(1, "ms")]

  /** The second table: days, hours, minutes, seconds. */
  const SecondUnits: seq<Unit> :=
    [Unit(86400, "d"), Unit(3600, "h"), Unit(60, "m"), Unit(1, "s")]

  ghost predicate Table(units: seq<Unit>)
  {
    && (forall i :: 0 <= i < |units| ==> units[i].size > 0)
    && (forall i, j :: 0 <= i < j < |units| ==> units[i].size > units[j].size)
  }

  /** What is left of `amount` once the whole units of `u` are taken out. */
  function Rest(amount: int, u: Unit): (r: int)
    requires u.size > 0
    ensures amount / u.size == 0 ==> r == amount
    ensures 0 <= r < u.size
    ensures amount >= 0 ==> r <= amount
  {
    var count := amount / u.size;
    if count != 0 then amount - count * u.size else amount
  }

  /**
   * The components `relativeTime` computes for `amount` against `units`:
   * for each unit in turn the floored count, kept only when non-zero, and
   * the amount reduced by what was taken.
   */
  function Parts(amount: int, units: seq<Unit>): (ps: seq<Part>)
    requires forall i :: 0 <= i < |units| ==> units[i].size > 0
    ensures forall i :: 0 <= i < |ps| ==> ps[i].count != 0
    decreases |units|
  {
    if units == [] then []
    else
      var u := units[0];
      var count := amount / u.size;
      var rest := Parts(Rest(amount, u), units[1..]);
      if count != 0 then [Part(count, u)] + rest else rest
  }

  /** What is left of `amount` after the whole table has been applied. */
  function Remainder(amount: int, units: seq<Unit>): int
    requires forall i :: 0 <= i < |units| ==> units[i].size > 0
    decreases |units|
  {
    if units == [] then amount else Remainder(Rest(amount, units[0]), units[1..])
  }

  /** The sum of the components, each times its unit. */
  function Total(ps: seq<Part>): int
  {
    if ps == [] then 0 else ps[0].count * ps[0].unit.size + Total(ps[1..])
  }

  /** The components and the remainder add back up to the amount. */
  lemma {:induction false} PartsSum(amount: int, units: seq<Unit>)
    requires forall i :: 0 <= i < |units| ==> units[i].size > 0
    ensures Total(Parts(amount, units)) + Remainder(amount, units) == amount
    decreases |units|
  {
    if units != [] {
      var u := units[0];
      PartsSum(Rest(amount, u), units[1..]);
      var count := amount / u.size;
      if count != 0 {
        var rest := Parts(Rest(amount, u), units[1..]);
        assert ([Part(count, u)] + rest)[1..] == rest;
      }
    }
  }

  /** A table that ends with a unit of size one leaves nothing over. */
  lemma {:induction false} RemainderUnit(amount: int, units: seq<Unit>)
    requires forall i :: 0 <= i < |units| ==> units[i].size > 0
    requires units != [] && units[|units| - 1].size == 1
    ensures Remainder(amount, units) == 0
    decreases |units|
  {
    if |units| > 1 {
      RemainderUnit(Rest(amount, units[0]), units[1..]);
    }
  }

  /** Over the whole millisecond table the components add up to the input exactly. */
  lemma MsPartsSum(ms: int)
    ensures Total(Parts(ms, MsUnits)) == ms
  {
    PartsSum(ms, MsUnits);
    RemainderUnit(ms, MsUnits);
  }

  /** Over the second table the components add up to the whole seconds. */
  lemma SecondPartsSum(seconds: int)
    ensures Total(Parts(seconds, SecondUnits)) == seconds
  {
    PartsSum(seconds, SecondUnits);
    RemainderUnit(seconds, SecondUnits);
  }

  /** Components whose units strictly shrink. */
  ghost predicate Descending(ps: seq<Part>)
  {
    forall i, j :: 0 <= i < j < |ps| ==> ps[i].unit.size > ps[j].unit.size
  }

  /** Positive components each standing for at most `amount`. */
  ghost predicate AllWithin(ps: seq<Part>, amount: int)
  {
    forall j :: 0 <= j < |ps| ==> ps[j].count > 0 && ps[j].count * ps[j].unit.size <= amount
  }

  /** Every component of a table whose units are all below `bound` is below it too. */
  lemma {:induction false} PartsBelow(amount: int, units: seq<Unit>, bound: nat)
    requires forall i :: 0 <= i < |units| ==> 0 < units[i].size < bound
    ensures forall j :: 0 <= j < |Parts(amount, units)| ==> Parts(amount, units)[j].unit.size < bound
    decreases |units|
  {
    if units != [] {
      PartsBelow(Rest(amount, units[0]), units[1..], bound);
    }
  }

  /** The components come in the table's order, largest unit first. */
  lemma {:induction false} PartsOrdered(amount: int, units: seq<Unit>)
    requires Table(units)
    ensures Descending(Parts(amount, units))
    decreases |units|
  {
    if units != [] {
      var u := units[0];
      var rest := Parts(Rest(amount, u), units[1..]);
      PartsOrdered(Rest(amount, u), units[1..]);
      forall i | 0 <= i < |units[1..]| ensures 0 < units[1..][i].size < u.size {
        assert units[1..][i] == units[i + 1];
      }
      PartsBelow(Rest(amount, u), units[1..], u.size);
      if amount / u.size != 0 {
        var ps := [Part(amount / u.size, u)] + rest;
        forall i, j | 0 <= i < j < |ps| ensures ps[i].unit.size > ps[j].unit.size {
          assert ps[j] == rest[j - 1];
          if i > 0 {
            assert ps[i] == rest[i - 1];
          } else {
            assert ps[i].unit == u;
          }
        }
      }
    }
  }

  /**
   * From a non-negative amount every component is positive and stands for
   * no more than the amount.
   */
  lemma {:induction false} PartsBounded(amount: int, units: seq<Unit>)
    requires forall i :: 0 <= i < |units| ==> units[i].size > 0
    requires amount >= 0
    ensures AllWithin(Parts(amount, units), amount)
    decreases |units|
  {
    if units != [] {
      var u := units[0];
      var count := amount / u.size;
      var r := Rest(amount, u);
      var rest := Parts(r, units[1..]);
      CountBound(amount, u.size);
      PartsBounded(r, units[1..]);
      if count != 0 {
        var ps := [Part(count, u)] + rest;
        forall j | 0 <= j < |ps| ensures ps[j].count > 0 && ps[j].count * ps[j].unit.size <= amount {
          if j > 0 {
            assert ps[j] == rest[j - 1];
          } else {
            assert ps[j] == Part(count, u);
          }
        }
      }
    }
  }

  /** The whole units taken out of a non-negative amount are no more than it. */
  lemma CountBound(amount: int, size: nat)
    requires amount >= 0 && size > 0
    ensures 0 <= amount / size && 0 <= (amount / size) * size <= amount
  {
  }

  /**
   * Every component after the first unit of the table is less than one of
   * that unit: only the largest unit can exceed its limit.
   */
  lemma PartsBelowFirst(amount: int, units: seq<Unit>)
    requires Table(units) && units != []
    ensures forall j :: 0 <= j < |Parts(amount, units)| && Parts(amount, units)[j].unit != units[0] ==>
              Parts(amount, units)[j].count * Parts(amount, units)[j].unit.size < units[0].size
  {
    var u := units[0];
    var r := Rest(amount, u);
    var rest := Parts(r, units[1..]);
    PartsBounded(r, units[1..]);
    var ps := Parts(amount, units);
    forall j | 0 <= j < |ps| && ps[j].unit != u ensures ps[j].count * ps[j].unit.size < u.size {
      if amount / u.size != 0 {
        assert ps == [Part(amount / u.size, u)] + rest;
        assert ps[j] == rest[j - 1];
      } else {
        assert ps[j] == rest[j];
      }
    }
  }

  /** `value + divisor.n` */
  function Render(p: Part): string
  {
    IntToString(p.count) + p.unit.suffix
  }

  /** `values.slice(0, 2).join(' ')` over the rendered components. */
  function Shown(ps: seq<Part>): (text: string)
  {
    var first := if |ps| > 2 then ps[..2] else ps;
    Join(seq(|first|, i requires 0 <= i < |first| => Render(first[i])), " ")
  }

  /** A zero duration is spelled as the empty string. */
  lemma ZeroIsEmpty(units: seq<Unit>)
    requires forall i :: 0 <= i < |units| ==> units[i].size > 0
    ensures Parts(0, units) == []
    ensures Shown(Parts(0, units)) == ""
  {
    ZeroHasNoParts(units);
  }

  lemma {:induction false} ZeroHasNoParts(units: seq<Unit>)
    requires forall i :: 0 <= i < |units| ==> units[i].size > 0
    ensures Parts(0, units) == []
    decreases |units|
  {
    if units != [] {
      ZeroHasNoParts(units[1..]);
    }
  }

  /**
   * The text names at most two components: split on spaces it gives back
   * the first one or two rendered components and nothing else.
   */
  lemma ShownAtMostTwo(ps: seq<Part>)
    requires ps != []
    requires forall i :: 0 <= i < |ps| ==> ' ' !in ps[i].unit.suffix
    ensures var pieces := Split(Shown(ps), ' ');
            |pieces| <= 2 && pieces[0] == Render(ps[0])
            && (|ps| >= 2 ==> |pieces| == 2 && pieces[1] == Render(ps[1]))
  {
    var first := if |ps| > 2 then ps[..2] else ps;
    var rendered := seq(|first|, i requires 0 <= i < |first| => Render(first[i]));
    forall i | 0 <= i < |rendered| ensures ' ' !in rendered[i] {
      NoSpaceInNumber(first[i].count);
      assert first[i] in ps;
    }
    SplitJoin(rendered, ' ');
  }

  lemma NoSpaceInNumber(n: int)
    ensures ' ' !in IntToString(n)
  {
    var s := if n < 0 then NatToString(-n) else NatToString(n);
    assert forall i :: 0 <= i < |s| ==> IsDigit(s[i]);
  }

  /**
   * The loop of `relativeTime`: for each unit take the floored count, and
   * when it is non-zero subtract what it stands for and keep it.
   */
  method Decompose(amount: int, units: seq<Unit>) returns (values: seq<Part>)
    requires forall i :: 0 <= i < |units| ==> units[i].size > 0
    ensures values == Parts(amount, units)
  {
    var left := amount;
    values := [];
    var i := 0;
    while i < |units|
      invariant 0 <= i <= |units|
      invariant values + Parts(left, units[i..]) == Parts(amount, units)
    {
      var u := units[i];
      assert units[i..][1..] == units[i + 1..];
      var count := left / u.size;
      if count != 0 {
        left := left - count * u.size;
        values := values + [Part(count, u)];
      }
      i := i + 1;
    }
    assert units[i..] == [];
  }

  /** `relativeTime(ms)` of the millisecond copy. */
  method RelativeTimeMs(ms: int) returns (text: string)
    ensures text == Shown(Parts(ms, MsUnits))
  {
    var values := Decompose(ms, MsUnits);
    text := Shown(values);
  }

  /**
   * `relativeTime(ms)` of the second copy: the input is turned into seconds
   * first, and only the whole seconds reach the components.
   */
  method RelativeTimeSeconds(ms: int) returns (text: string)
    ensures text == Shown(Parts(ms / 1000, SecondUnits))
  {
    var values := Decompose(ms / 1000, SecondUnits);
    text := Shown(values);
  }
}

=== FILE: flip.dfy ===
/** The `!flip` command: flip a table, or put it back. */
module Flip {
  import opened Bot

  const TableFlip := "(\U{256F}\U{00B0}\U{25A1}\U{00B0}\U{FF09}\U{256F}\U{FE35} \U{253B}\U{2501}\U{253B}"
  const PutBack := "\U{252C}\U{2500}\U{252C}\U{FEFF} \U{30CE}( \U{309C}-\U{309C}\U{30CE})"

  /**
   * `Message`, given the parameters `_getParams` read from the message:
   * with any parameter at all the table is put back, with none it is
   * flipped; the promise never rejects.
   */
  function FlipMessage(params: seq<string>): (s: Settled)
    ensures s.Resolved? && s.reply.TextReply?
    ensures params == [] <==> s.reply.s == TableFlip
    ensures params != [] <==> s.reply.s == PutBack
  {
    Resolved(TextReply(if params != [] then PutBack else TableFlip))
  }

  /** Only whether there are parameters matters, not what they say. */
  lemma FlipIgnoresParams(a: seq<string>, b: seq<string>)
    requires (a == []) == (b == [])
    ensures FlipMessage(a) == FlipMessage(b)
  {
  }
}

=== FILE: help.dfy ===
/**
 * The help module: `!help` lists, for every module the author may use,
 * its triggers with their parameters and short descriptions; `!help
 * <module>` shows one module followed by its longer help text.
 */
module Help {
  import opened Js
  import opened OrderedDict
  import opened CommandModule
  import opened Bot

  /** The help module as the registry builds it. */
  function Definition(): (d: ModuleDef)
    ensures d.className == "HelpModule" && d.overrides == map[] && !d.libBased
    ensures |d.triggerList| == 1 && d.triggerList[0].0 == "!help" && Describes(d.triggerList[0].1)
    ensures forall c :: d.failure(c).None?
  {
    ModuleDef("HelpModule", "There's literally no more help to get here.",
      [("!help", TriggerInfo(Some("Display available bot commands"), Some(["module name (optional)"])))],
      map[], false, c => None)
  }

  const MeAnswer := "http://google.com/ http://wowhead.com/, there."
  const NothingAllowed := "sadly I can't do much for you."

  // ---------------------------------------------------------------- which modules

  /**
   * `_getAllowedModules(msg)` as written: the enabled modules, in
   * registration order, for which `allowed(msg.member)` is truthy; the
   * first `allowed` that throws fails the whole filter. A permission
   * object is truthy whatever its `check` says, so only a falsy result
   * leaves a module out. `call` is what `allowed` does for a module on the
   * root `CommandModule.js` (see `MemberCallOf`).
   */
  function AllowedModules(mods: Dict<CommandModule>, keys: seq<string>, call: string -> MemberCall): (r: Result<seq<string>, Thrown>)
    requires forall i :: 0 <= i < |keys| ==> keys[i] in mods.vals
    reads set k | k in mods.vals :: mods.vals[k]
    ensures r.Err? <==>
      exists i :: 0 <= i < |keys| && mods.vals[keys[i]].IsEnabled() && MemberCallOf(mods.vals[keys[i]], call(keys[i])).MemberCallThrows?
    ensures r.Ok? ==> forall k :: k in r.value <==>
      k in keys && mods.vals[k].IsEnabled() && MemberCallOf(mods.vals[k], call(k)).MemberCallReturns?
    decreases |keys|
  {
    if keys == [] then Ok([])
    else
      var k := keys[|keys| - 1];
      match AllowedModules(mods, keys[..|keys| - 1], call)
      case Err(e) => Err(e)
      case Ok(names) =>
        if !mods.vals[k].IsEnabled() then Ok(names)
        else match MemberCallOf(mods.vals[k], call(k))
          case MemberCallThrows(e) => Err(e)
          case MemberCallFalsy => Ok(names)
          case MemberCallReturns(_) => Ok(names + [k])
  }

  /**
   * As written, `!help` lists an enabled module even to a member its roles
   * refuse, wherever every `allowed` call returns a permission object
   * (modules on the root `CommandModule.js`).
   */
  lemma HelpListsRefusedModules(mods: Dict<CommandModule>, keys: seq<string>, call: string -> MemberCall, k: string)
    requires forall i :: 0 <= i < |keys| ==> keys[i] in mods.vals
    requires forall i :: 0 <= i < |keys| ==> MemberCallOf(mods.vals[keys[i]], call(keys[i])).MemberCallReturns?
    requires k in keys && mods.vals[k].IsEnabled() && !MemberCallOf(mods.vals[k], call(k)).p.check
    ensures AllowedModules(mods, keys, call).Ok? && k in AllowedModules(mods, keys, call).value
  {
  }

  /**
   * As written, `!help` fails with the TypeError of `lib/CommandModule.js`'s
   * `allowed` as soon as one enabled module is built on that class and
   * every module before it returns from `allowed`.
   */
  lemma {:induction false} HelpFailsOnLibModule(mods: Dict<CommandModule>, keys: seq<string>, call: string -> MemberCall, i: nat)
    requires forall j :: 0 <= j < |keys| ==> keys[j] in mods.vals
    requires i < |keys| && mods.vals[keys[i]].IsEnabled() && mods.vals[keys[i]].libBased
    requires forall j :: 0 <= j < i ==> MemberCallOf(mods.vals[keys[j]], call(keys[j])).MemberCallReturns?
    ensures AllowedModules(mods, keys, call) == Err(LibAllowedOnMember.error)
    decreases |keys|
  {
    if i < |keys| - 1 {
      HelpFailsOnLibModule(mods, keys[..|keys| - 1], call, i);
    }
  }

  /** The modules `!help` evidently means to list: enabled, and permitted to the caller. */
  function AllowedModulesChecked(mods: Dict<CommandModule>, keys: seq<string>, caller: Caller): (r: seq<string>)
    requires forall i :: 0 <= i < |keys| ==> keys[i] in mods.vals
    reads set k | k in mods.vals :: mods.vals[k]
    ensures forall k :: k in r <==> k in keys && mods.vals[k].IsEnabled() && mods.vals[k].Allowed(caller).check
    ensures |r| <= |keys|
    decreases |keys|
  {
    if keys == [] then []
    else
      var k := keys[|keys| - 1];
      var names := AllowedModulesChecked(mods, keys[..|keys| - 1], caller);
      if mods.vals[k].IsEnabled() && mods.vals[k].Allowed(caller).check then names + [k] else names
  }

  /** The allowed names that equal `name` when lower-cased, in order. */
  function Matching(names: seq<string>, name: string): (r: seq<string>)
    ensures forall k :: k in r <==> k in names && ToLower(k) == name
    ensures |r| <= |names|
    decreases |names|
  {
    if names == [] then []
    else
      var init := Matching(names[..|names| - 1], name);
      var k := names[|names| - 1];
      if ToLower(k) == name then init + [k] else init
  }

  // ---------------------------------------------------------------- rendering

  /** `**name**`, followed by the roles the module is restricted to, if any. */
  function Header(name: string, roles: seq<string>): string
  {
    "**" + name + "**" + (if roles == [] then "" else " (Only _" + Join(roles, "_, _") + "_)")
  }

  function ParamPieces(params: seq<string>, escape: string -> string): (r: seq<string>)
    ensures |r| == |params|
    ensures forall i :: 0 <= i < |params| ==> r[i] == " <_" + escape(params[i]) + "_> "
  {
    seq(|params|, i requires 0 <= i < |params| => " <_" + escape(params[i]) + "_> ")
  }

  function ParamsPart(info: TriggerInfo, escape: string -> string): string
  {
    if info.params.Some? then Concat(ParamPieces(info.params.value, escape)) else ""
  }

  function ShortPart(info: TriggerInfo, escape: string -> string): string
  {
    if info.short.Some? then "\n_" + escape(info.short.value) + "_\n" else ""
  }

  /** The entry for one trigger: its name set in `fmt`, its parameters, its short description. */
  function TriggerEntry(word: string, info: TriggerInfo, fmt: string, escape: string -> string): string
  {
    fmt + word + fmt + ParamsPart(info, escape) + ShortPart(info, escape) + "\n"
  }

  function TriggerEntries(table: Dict<TriggerInfo>, fmt: string, escape: string -> string): (r: seq<string>)
    requires table.Valid()
    ensures |r| == |table.keys|
    ensures forall i :: 0 <= i < |r| ==> r[i] == TriggerEntry(table.keys[i], table.vals[table.keys[i]], fmt, escape)
  {
    seq(|table.keys|, i requires 0 <= i < |table.keys| => TriggerEntry(table.keys[i], table.vals[table.keys[i]], fmt, escape))
  }

  /** Underlined trigger names in the full listing, bold ones for a single module. */
  function Format(specific: bool): string
  {
    if specific then "**" else "__"
  }

  /** What the help text reads of a module: its roles, triggers and `getHelp()`. */
  datatype ModuleView = ModuleView(roles: seq<string>, triggers: Dict<TriggerInfo>, helpText: string)

  function View(m: CommandModule): (v: ModuleView)
    reads m
    ensures v.roles == RoleList(m.config) && v.triggers == m.triggers && v.helpText == m.helpText
  {
    ModuleView(RoleList(m.config), m.triggers, m.helpText)
  }

  /** The registered modules as the help text sees them. */
  function Views(mods: Dict<CommandModule>): (r: map<string, ModuleView>)
    reads set k | k in mods.vals :: mods.vals[k]
    ensures forall k :: k in r <==> k in mods.vals
    ensures forall k :: k in r ==> r[k] == View(mods.vals[k])
  {
    map k | k in mods.vals :: View(mods.vals[k])
  }

  lemma ViewsRegistered(mods: Dict<CommandModule>, names: seq<string>)
    requires forall k :: k in names ==> k in mods.vals
    requires forall k :: k in mods.vals ==> mods.vals[k].triggers.Valid()
    ensures Registered(Views(mods), names)
  {
  }

  /** The block for one module; the full listing opens it with `# ` and the header. */
  function Section(v: ModuleView, name: string, specific: bool, escape: string -> string): string
    requires v.triggers.Valid()
  {
    (if specific then "" else "# " + Header(name, v.roles) + "\n")
    + Concat(TriggerEntries(v.triggers, Format(specific), escape))
  }

  ghost predicate Registered(views: map<string, ModuleView>, names: seq<string>)
  {
    forall k :: k in names ==> k in views && views[k].triggers.Valid()
  }

  function Sections(views: map<string, ModuleView>, names: seq<string>, specific: bool, escape: string -> string): (r: seq<string>)
    requires Registered(views, names)
    ensures |r| == |names|
    ensures forall i :: 0 <= i < |names| ==> r[i] == Section(views[names[i]], names[i], specific, escape)
  {
    seq(|names|, i requires 0 <= i < |names| && Registered(views, names) => Section(views[names[i]], names[i], specific, escape))
  }

  /**
   * `_getHelpText(msg)` given the allowed module names: `me` gets links,
   * an unknown module is refused, no allowed module gets a shrug, one
   * module gets its block and its `getHelp()`, otherwise every allowed
   * module's block is listed.
   */
  function HelpReply(views: map<string, ModuleView>, params: seq<string>, allowed: seq<string>, escape: string -> string): string
    requires Registered(views, allowed)
  {
    if params != [] && ToLower(params[0]) == "me" then MeAnswer
    else if params != [] && Matching(allowed, ToLower(params[0])) == [] then "No such module: " + params[0]
    else if params == [] then
      if allowed == [] then NothingAllowed
      else "here's what I can do for you:\n\n" + Concat(Sections(views, allowed, false, escape))
    else ModuleAnswer(views, Matching(allowed, ToLower(params[0])), escape)
  }

  /**
   * The answer about one module: the header of the last of `names`, the
   * bold-trigger blocks of all of them in order, then the last one's
   * `getHelp()`.
   */
  function ModuleAnswer(views: map<string, ModuleView>, names: seq<string>, escape: string -> string): (text: string)
    requires names != [] && Registered(views, names)
    ensures text == "regarding " + Header(names[|names| - 1], views[names[|names| - 1]].roles) + ", here's how it works:\n\n"
      + Concat(Sections(views, names, true, escape)) + views[names[|names| - 1]].helpText
    ensures forall i :: 0 <= i < |names| ==>
      Sections(views, names, true, escape)[i] == Concat(TriggerEntries(views[names[i]].triggers, "**", escape))
  {
    var last := names[|names| - 1];
    "regarding " + Header(last, views[last].roles) + ", here's how it works:\n\n"
    + Concat(Sections(views, names, true, escape)) + views[last].helpText
  }

  /** `!help me` answers with links, whatever the case of `me`. */
  lemma HelpMe(views: map<string, ModuleView>, rest: seq<string>, allowed: seq<string>, escape: string -> string)
    requires Registered(views, allowed)
    ensures HelpReply(views, ["me"] + rest, allowed, escape) == MeAnswer
    ensures HelpReply(views, ["ME"] + rest, allowed, escape) == MeAnswer
  {
    assert ToLower("me") == "me";
    assert ToLower("ME") == "me";
  }

  /** A name is refused exactly when no allowed module has it, ignoring case. */
  lemma HelpUnknownModule(views: map<string, ModuleView>, params: seq<string>, allowed: seq<string>, escape: string -> string)
    requires Registered(views, allowed)
    requires params != [] && ToLower(params[0]) != "me"
    ensures HelpReply(views, params, allowed, escape) == "No such module: " + params[0]
      <==> forall k :: k in allowed ==> ToLower(k) != ToLower(params[0])
  {
    var m := Matching(allowed, ToLower(params[0]));
    if m != [] {
      assert m[0] in m;
      assert ("No such module: " + params[0])[0] == 'N';
    }
  }

  /** The full listing holds, in order, one block per allowed module, each opened by its header. */
  lemma HelpListsEveryAllowedModule(views: map<string, ModuleView>, allowed: seq<string>, escape: string -> string, i: nat)
    requires Registered(views, allowed) && i < |allowed|
    ensures var sections := Sections(views, allowed, false, escape);
      HelpReply(views, [], allowed, escape) == "here's what I can do for you:\n\n" + Concat(sections)
      && StartsWith(sections[i], "# " + Header(allowed[i], views[allowed[i]].roles) + "\n")
      && Concat(sections) == Concat(sections[..i]) + sections[i] + Concat(sections[i + 1..])
  {
    var sections := Sections(views, allowed, false, escape);
    ConcatSplit(sections, i);
    var open := "# " + Header(allowed[i], views[allowed[i]].roles) + "\n";
    assert sections[i] == open + Concat(TriggerEntries(views[allowed[i]].triggers, "__", escape));
    assert sections[i][..|open|] == open;
  }

  // ---------------------------------------------------------------- the loops

  /** The `for (let t in triggers)` loop for one module, with the `forEach` over each trigger's parameters. */
  method RenderSection(v: ModuleView, name: string, specific: bool, escape: string -> string) returns (str: string)
    requires v.triggers.Valid()
    ensures str == Section(v, name, specific, escape)
  {
    var fmt := if specific then "**" else "__";
    var head := if specific then "" else "# " + Header(name, v.roles) + "\n";
    var table := v.triggers;
    ghost var entries := TriggerEntries(table, fmt, escape);
    var body := "";
    var i := 0;
    while i < |table.keys|
      invariant 0 <= i <= |table.keys|
      invariant body == Concat(entries[..i])
    {
      var entry := RenderTrigger(table.keys[i], table.vals[table.keys[i]], fmt, escape);
      ConcatPrefix(entries, i);
      body := body + entry;
      i := i + 1;
    }
    assert entries[..i] == entries;
    str := head + body;
  }

  /** The text one pass of the trigger loop appends. */
  method RenderTrigger(t: string, info: TriggerInfo, fmt: string, escape: string -> string) returns (entry: string)
    ensures entry == TriggerEntry(t, info, fmt, escape)
  {
    var params := "";
    if info.params.Some? {
      params := RenderParams(info.params.value, escape);
    }
    var short := if info.short.Some? then "\n_" + escape(info.short.value) + "_\n" else "";
    entry := fmt + t + fmt + params + short + "\n";
  }

  /** The `forEach` over one trigger's parameters. */
  method RenderParams(ps: seq<string>, escape: string -> string) returns (params: string)
    ensures params == Concat(ParamPieces(ps, escape))
  {
    ghost var pieces := ParamPieces(ps, escape);
    params := "";
    var j := 0;
    while j < |ps|
      invariant 0 <= j <= |ps|
      invariant params == Concat(pieces[..j])
    {
      ConcatPrefix(pieces, j);
      params := params + " <_" + escape(ps[j]) + "_> ";
      j := j + 1;
    }
    assert pieces[..j] == pieces;
  }

  /** The `forEach` over the modules to list, collecting their blocks. */
  method RenderSections(views: map<string, ModuleView>, names: seq<string>, specific: bool, escape: string -> string)
    returns (result: string)
    requires Registered(views, names)
    ensures result == Concat(Sections(views, names, specific, escape))
  {
    ghost var sections := Sections(views, names, specific, escape);
    result := "";
    var i := 0;
    while i < |names|
      invariant 0 <= i <= |names|
      invariant result == Concat(sections[..i])
    {
      var section := RenderSection(views[names[i]], names[i], specific, escape);
      ConcatPrefix(sections, i);
      result := result + section;
      i := i + 1;
    }
    assert sections[..i] == sections;
  }

  /** `_getHelpText(msg)` for the allowed modules, with the `forEach` over the modules to list. */
  method GetHelpText(views: map<string, ModuleView>, params: seq<string>, allowed: seq<string>, escape: string -> string)
    returns (text: string)
    requires Registered(views, allowed)
    ensures text == HelpReply(views, params, allowed, escape)
  {
    var names := allowed;
    var specific := false;
    if params != [] {
      var name := ToLower(params[0]);
      if name == "me" {
        return MeAnswer;
      }
      names := Matching(allowed, name);
      if names == [] {
        return "No such module: " + params[0];
      }
      specific := true;
    }
    var result := RenderSections(views, names, specific, escape);
    if names == [] {
      return NothingAllowed;
    }
    if specific {
      var last := names[|names| - 1];
      return "regarding " + Header(last, views[last].roles) + ", here's how it works:\n\n"
        + result + views[last].helpText;
    }
    text := "here's what I can do for you:\n\n" + result;
  }

  // ---------------------------------------------------------------- escaping

  /** `_escapeMarkDown` is called on a trigger's parameters and short description. */
  predicate Describes(info: TriggerInfo)
  {
    (info.params.Some? && info.params.value != []) || info.short.Some?
  }

  /** The bot defines no `_escapeMarkDown`: calling it throws this. */
  const EscapeMissing := TypeErr("this.bot._escapeMarkDown is not a function")

  /** Some trigger of some module among `names` calls `_escapeMarkDown` when rendered. */
  predicate NeedsEscape(views: map<string, ModuleView>, names: seq<string>)
    requires Registered(views, names)
  {
    exists i, j :: 0 <= i < |names| && 0 <= j < |views[names[i]].triggers.keys|
      && Describes(views[names[i]].triggers.vals[views[names[i]].triggers.keys[j]])
  }

  /** `!help` answers before rendering anything: `me`, or a module nobody listed. */
  predicate AnswersEarly(params: seq<string>, allowed: seq<string>)
  {
    params != [] && (ToLower(params[0]) == "me" || Matching(allowed, ToLower(params[0])) == [])
  }

  /** The modules whose blocks are rendered. */
  function Rendered(params: seq<string>, allowed: seq<string>): (names: seq<string>)
    ensures forall k :: k in names ==> k in allowed
  {
    if params == [] then allowed else Matching(allowed, ToLower(params[0]))
  }

  /**
   * `_getHelpText(msg)` as written, given the allowed modules: the early
   * answers render nothing; otherwise rendering a trigger with parameters
   * or a short description throws, since `_escapeMarkDown` does not
   * exist, and a rendering that calls no escaping gives the help reply.
   */
  function HelpOutcome(views: map<string, ModuleView>, params: seq<string>, allowed: seq<string>): Result<string, Thrown>
    requires Registered(views, allowed)
  {
    if !AnswersEarly(params, allowed) && NeedsEscape(views, Rendered(params, allowed)) then Err(EscapeMissing)
    else Ok(HelpReply(views, params, allowed, s => s))
  }

  lemma EntryEscapeFree(info: TriggerInfo, word: string, fmt: string, e1: string -> string, e2: string -> string)
    requires !Describes(info)
    ensures TriggerEntry(word, info, fmt, e1) == TriggerEntry(word, info, fmt, e2)
  {
    if info.params.Some? {
      assert ParamPieces(info.params.value, e1) == ParamPieces(info.params.value, e2) == [];
    }
  }

  lemma SectionEscapeFree(v: ModuleView, name: string, specific: bool, e1: string -> string, e2: string -> string)
    requires v.triggers.Valid()
    requires forall j :: 0 <= j < |v.triggers.keys| ==> !Describes(v.triggers.vals[v.triggers.keys[j]])
    ensures Section(v, name, specific, e1) == Section(v, name, specific, e2)
  {
    var t := v.triggers;
    var fmt := Format(specific);
    forall j | 0 <= j < |t.keys|
      ensures TriggerEntries(t, fmt, e1)[j] == TriggerEntries(t, fmt, e2)[j]
    {
      EntryEscapeFree(t.vals[t.keys[j]], t.keys[j], fmt, e1, e2);
    }
    assert TriggerEntries(t, fmt, e1) == TriggerEntries(t, fmt, e2);
  }

  /** Where no rendered trigger calls the escaping, which escaping it would be makes no difference. */
  lemma SectionsEscapeFree(views: map<string, ModuleView>, names: seq<string>, specific: bool, e1: string -> string, e2: string -> string)
    requires Registered(views, names) && !NeedsEscape(views, names)
    ensures Sections(views, names, specific, e1) == Sections(views, names, specific, e2)
  {
    forall i | 0 <= i < |names|
      ensures Sections(views, names, specific, e1)[i] == Sections(views, names, specific, e2)[i]
    {
      SectionEscapeFree(views[names[i]], names[i], specific, e1, e2);
    }
  }

  /**
   * Whenever `!help` as written does not throw, it answers exactly what the
   * help reply says, with any escaping at all.
   */
  lemma HelpOutcomeAgrees(views: map<string, ModuleView>, params: seq<string>, allowed: seq<string>, escape: string -> string)
    requires Registered(views, allowed)
    requires HelpOutcome(views, params, allowed).Ok?
    ensures HelpOutcome(views, params, allowed).value == HelpReply(views, params, allowed, escape)
  {
    if !AnswersEarly(params, allowed) {
      var names := Rendered(params, allowed);
      SectionsEscapeFree(views, names, params != [], s => s, escape);
    }
  }

  /**
   * As written, the full listing throws as soon as it lists a module with
   * a described trigger, and the help module's own `!help` is one: any
   * `!help` without parameters that lists the help module fails.
   */
  lemma HelpListingThrows(views: map<string, ModuleView>, allowed: seq<string>, k: string)
    requires Registered(views, allowed)
    requires k in allowed && views[k].triggers == TriggerTable(Definition().triggerList)
    ensures HelpOutcome(views, [], allowed) == Err(EscapeMissing)
  {
    var d := Definition();
    var t := views[k].triggers;
    var i :| 0 <= i < |allowed| && allowed[i] == k;
    assert d.triggerList == [d.triggerList[0]];
    assert t == Empty().Put("!help", d.triggerList[0].1);
    assert t.keys[0] == "!help" && t.vals["!help"] == d.triggerList[0].1;
    assert Describes(views[allowed[i]].triggers.vals[views[allowed[i]].triggers.keys[0]]);
  }

  /** `_getHelpText(msg)` as written: the help reply, or the TypeError of the missing escaping. */
  method GetHelpTextAsWritten(views: map<string, ModuleView>, params: seq<string>, allowed: seq<string>)
    returns (r: Result<string, Thrown>)
    requires Registered(views, allowed)
    ensures r == HelpOutcome(views, params, allowed)
  {
    if !AnswersEarly(params, allowed) && NeedsEscape(views, Rendered(params, allowed)) {
      return Err(EscapeMissing);
    }
    var text := GetHelpText(views, params, allowed, s => s);
    r := Ok(text);
  }

  /** `Promise.resolve(text)`, or the rejection with what was thrown. */
  function Settle(r: Result<string, Thrown>): (s: Settled)
    ensures r.Ok? <==> s.Resolved?
    ensures r.Ok? ==> s.reply == TextReply(r.value)
    ensures r.Err? ==> s.error == ThrownReply(r.error)
  {
    match r
    case Ok(text) => Resolved(TextReply(text))
    case Err(e) => Rejected(ThrownReply(e))
  }

  /** What `_getHelpText(msg)` as written gives for the message `content`. */
  function HelpFor(bot: DiscordBot, content: string, call: string -> MemberCall): Result<string, Thrown>
    requires bot.Valid()
    requires forall k :: k in bot.modules.vals ==> bot.modules.vals[k].triggers.Valid()
    reads bot, set k | k in bot.modules.vals :: bot.modules.vals[k]
  {
    match AllowedModules(bot.modules, bot.modules.keys, call)
    case Err(e) => Err(e)
    case Ok(allowed) =>
      ViewsRegistered(bot.modules, allowed);
      HelpOutcome(Views(bot.modules), GetParams(content), allowed)
  }

  /**
   * `Message(message)` as written: the help text, or, when
   * `_getHelpText` throws, a rejection with what it threw (the bot's
   * `await` catches the synchronous throw like a rejection).
   */
  method HelpCommand(bot: DiscordBot, content: string, call: string -> MemberCall) returns (s: Settled)
    requires bot.Valid()
    requires forall k :: k in bot.modules.vals ==> bot.modules.vals[k].triggers.Valid()
    ensures s == Settle(HelpFor(bot, content, call))
  {
    var allowed := AllowedModules(bot.modules, bot.modules.keys, call);
    match allowed
    case Err(e) =>
      s := Rejected(ThrownReply(e));
    case Ok(names) =>
      ViewsRegistered(bot.modules, names);
      s := HelpListing(Views(bot.modules), GetParams(content), names);
  }

  /** The help text as written for the allowed modules `names`, settled. */
  method HelpListing(views: map<string, ModuleView>, params: seq<string>, names: seq<string>) returns (s: Settled)
    requires Registered(views, names)
    ensures s == Settle(HelpOutcome(views, params, names))
  {
    var r := GetHelpTextAsWritten(views, params, names);
    s := Settle(r);
  }

  /** The help text a caller evidently should get: only permitted modules, with the escaping supplied. */
  function HelpForChecked(bot: DiscordBot, content: string, caller: Caller, escape: string -> string): string
    requires bot.Valid()
    requires forall k :: k in bot.modules.vals ==> bot.modules.vals[k].triggers.Valid()
    reads bot, set k | k in bot.modules.vals :: bot.modules.vals[k]
  {
    var allowed := AllowedModulesChecked(bot.modules, bot.modules.keys, caller);
    ViewsRegistered(bot.modules, allowed);
    HelpReply(Views(bot.modules), GetParams(content), allowed, escape)
  }

  /**
   * `Message(message)` as intended: the help text for the modules the
   * caller may use (see `AllowedModulesChecked`), escaped with `escape`.
   */
  method HelpCommandChecked(bot: DiscordBot, content: string, caller: Caller, escape: string -> string) returns (s: Settled)
    requires bot.Valid()
    requires forall k :: k in bot.modules.vals ==> bot.modules.vals[k].triggers.Valid()
    ensures s == Resolved(TextReply(HelpForChecked(bot, content, caller, escape)))
  {
    var allowed := AllowedModulesChecked(bot.modules, bot.modules.keys, caller);
    var views := Views(bot.modules);
    ViewsRegistered(bot.modules, allowed);
    var text := GetHelpText(views, GetParams(content), allowed, escape);
    s := Resolved(TextReply(text));
  }
}

=== FILE: js.dfy ===
/**
 * The small part of JavaScript's value semantics the bot relies on:
 * optional values, thrown values, JSON configuration values and their
 * truthiness, `parseInt`, ASCII case mapping, `trim`, `split(' ')`,
 * `join`, substring search and decimal rendering of integers.
 */
module Js {

  datatype Option<T> = None | Some(value: T)

  datatype Result<T, E> = Ok(value: T) | Err(error: E)

  /** A value that is thrown or that a promise rejects with. */
  datatype Thrown =
    | ErrorObject(message: string)   // `throw new Error(message)` / `throw Error(message)`
    | TypeErr(message: string)       // a TypeError raised by the runtime
    | Text(text: string)             // `throw 'text'` or `reject('text')`
    | Undefined                      // `reject(undefined)`

  /** A JSON value stored in a configuration object. */
  datatype Value = Bool(b: bool) | Num(n: int) | Str(s: string) | List(items: seq<string>) | Null

  /** JavaScript truthiness of a configuration value. */
  predicate Truthy(v: Value)
  {
    match v
    case Bool(b) => b
    case Num(n) => n != 0
    case Str(s) => s != ""
    case List(_) => true
    case Null => false
  }

  /** Truthiness of `obj[key]` for a configuration object (a missing key reads as `undefined`). */
  predicate TruthyAt(obj: map<string, Value>, key: string)
  {
    key in obj && Truthy(obj[key])
  }

  // ---------------------------------------------------------------- characters

  predicate IsDigit(c: char) { '0' <= c <= '9' }

  /** The characters of the regular-expression class `\w`. */
  predicate IsWordChar(c: char)
  {
    IsDigit(c) || 'a' <= c <= 'z' || 'A' <= c <= 'Z' || c == '_'
  }

  /** White space removed by `String.prototype.trim` (the Latin-1 part of it). */
  predicate IsSpace(c: char)
  {
    c == ' ' || c == '\t' || c == '\n' || c == '\r' || c == '\U{000B}' || c == '\U{000C}'
    || c == '\U{00A0}' || c == '\U{FEFF}'
  }

  function LowerChar(c: char): (r: char)
    ensures 'A' <= c <= 'Z' ==> 'a' <= r <= 'z'
    ensures !('A' <= c <= 'Z') ==> r == c
  {
    if 'A' <= c <= 'Z' then (c as int + 32) as char else c
  }

  /** `toLowerCase` on the ASCII letters. */
  function ToLower(s: string): (r: string)
    ensures |r| == |s|
    ensures forall i :: 0 <= i < |s| ==> r[i] == LowerChar(s[i])
  {
    if s == [] then [] else [LowerChar(s[0])] + ToLower(s[1..])
  }

  // ---------------------------------------------------------------- searching

  predicate StartsWith(s: string, prefix: string)
  {
    |prefix| <= |s| && s[..|prefix|] == prefix
  }

  predicate EndsWith(s: string, suffix: string)
  {
    |suffix| <= |s| && s[|s| - |suffix|..] == suffix
  }

  /** `s.indexOf(sub) !== -1` */
  predicate Contains(s: string, sub: string)
    decreases |s|
  {
    StartsWith(s, sub) || (s != [] && Contains(s[1..], sub))
  }

  /** `arr.indexOf(x)`, with `None` for -1. */
  function IndexOf<T(==)>(arr: seq<T>, x: T): (r: Option<nat>)
    ensures r.None? <==> x !in arr
    ensures r.Some? ==> r.value < |arr| && arr[r.value] == x && x !in arr[..r.value]
  {
    if arr == [] then None
    else if arr[0] == x then Some(0)
    else match IndexOf(arr[1..], x)
      case None => None
      case Some(i) => Some(i + 1)
  }

  // ---------------------------------------------------------------- trim

  function TrimStart(s: string): (r: string)
    ensures |r| <= |s| && r == s[|s| - |r|..]
    ensures r == [] || !IsSpace(r[0])
    ensures forall i :: 0 <= i < |s| - |r| ==> IsSpace(s[i])
  {
    if s != [] && IsSpace(s[0]) then TrimStart(s[1..]) else s
  }

  function TrimEnd(s: string): (r: string)
    ensures |r| <= |s| && r == s[..|r|]
    ensures r == [] || !IsSpace(r[|r| - 1])
    ensures forall i :: |r| <= i < |s| ==> IsSpace(s[i])
  {
    if s != [] && IsSpace(s[|s| - 1]) then TrimEnd(s[..|s| - 1]) else s
  }

  /** `String.prototype.trim` */
  function Trim(s: string): (r: string)
    ensures r == [] || (!IsSpace(r[0]) && !IsSpace(r[|r| - 1]))
  {
    TrimEnd(TrimStart(s))
  }

  // ---------------------------------------------------------------- split and join

  /** `s.split(sep)` for a one-character separator. */
  function Split(s: string, sep: char): (r: seq<string>)
    ensures |r| >= 1
    ensures forall i :: 0 <= i < |r| ==> sep !in r[i]
    decreases |s|
  {
    match IndexOf(s, sep)
    case None => [s]
    case Some(i) => [s[..i]] + Split(s[i + 1..], sep)
  }

  /** `parts.join(sep)` */
  function Join(parts: seq<string>, sep: string): string
  {
    if parts == [] then ""
    else if |parts| == 1 then parts[0]
    else parts[0] + sep + Join(parts[1..], sep)
  }

  /** `parts.join('')`, or appending the parts one after another. */
  function Concat(parts: seq<string>): string
  {
    if parts == [] then "" else Concat(parts[..|parts| - 1]) + parts[|parts| - 1]
  }

  lemma ConcatPrefix(parts: seq<string>, i: nat)
    requires i < |parts|
    ensures Concat(parts[..i + 1]) == Concat(parts[..i]) + parts[i]
  {
    assert parts[..i + 1][..i] == parts[..i];
  }

  /** Concatenating two runs of parts is concatenating the two results. */
  lemma {:induction false} ConcatAppend(a: seq<string>, b: seq<string>)
    ensures Concat(a + b) == Concat(a) + Concat(b)
    decreases |b|
  {
    if b != [] {
      var init := b[..|b| - 1];
      assert (a + b)[..|a + b| - 1] == a + init;
      assert (a + b)[|a + b| - 1] == b[|b| - 1];
      ConcatAppend(a, init);
    } else {
      assert a + b == a;
    }
  }

  /** Concatenating all parts is concatenating those before `k`, then those from `k` on. */
  lemma ConcatAt(parts: seq<string>, k: nat)
    requires k <= |parts|
    ensures Concat(parts) == Concat(parts[..k]) + Concat(parts[k..])
  {
    assert parts[..k] + parts[k..] == parts;
    ConcatAppend(parts[..k], parts[k..]);
  }

  /** The concatenation is the parts before `i`, part `i`, and the parts after it. */
  lemma ConcatSplit(parts: seq<string>, i: nat)
    requires i < |parts|
    ensures Concat(parts) == Concat(parts[..i]) + parts[i] + Concat(parts[i + 1..])
  {
    ConcatAt(parts, i + 1);
    ConcatPrefix(parts, i);
  }

  /** Joining the pieces of a split gives back the string that was split. */
  lemma {:induction false} JoinSplit(s: string, sep: char)
    ensures Join(Split(s, sep), [sep]) == s
    decreases |s|
  {
    match IndexOf(s, sep)
    case None =>
    case Some(i) =>
      var rest := Split(s[i + 1..], sep);
      var parts := [s[..i]] + rest;
      assert Split(s, sep) == parts;
      assert parts[1..] == rest;
      assert Join(parts, [sep]) == s[..i] + [sep] + Join(rest, [sep]);
      JoinSplit(s[i + 1..], sep);
      assert s == s[..i] + [sep] + s[i + 1..];
  }

  /** Splitting a join of separator-free pieces gives back the pieces. */
  lemma {:induction false} SplitJoin(parts: seq<string>, sep: char)
    requires |parts| >= 1
    requires forall i :: 0 <= i < |parts| ==> sep !in parts[i]
    ensures Split(Join(parts, [sep]), sep) == parts
    decreases |parts|
  {
    if |parts| > 1 {
      var rest := Join(parts[1..], [sep]);
      var s := parts[0] + [sep] + rest;
      IndexOfAfterFree(parts[0], rest, sep);
      assert s[..|parts[0]|] == parts[0];
      assert s[|parts[0]| + 1..] == rest;
      SplitJoin(parts[1..], sep);
    } else {
      var s := Join(parts, [sep]);
      assert s == parts[0];
      assert IndexOf(s, sep).None?;
    }
  }

  lemma IndexOfAfterFree(a: string, b: string, sep: char)
    requires sep !in a
    ensures IndexOf(a + [sep] + b, sep) == Some(|a|)
  {
    var s := a + [sep] + b;
    assert s[|a|] == sep;
    assert s[..|a|] == a;
    assert sep in s;
  }

  // ---------------------------------------------------------------- numbers

  function DigitValue(c: char): (d: nat)
    requires IsDigit(c)
    ensures d < 10
  {
    c as int - '0' as int
  }

  /** The value of a run of decimal digits, most significant first. */
  function DigitsValue(ds: string): nat
    requires forall i :: 0 <= i < |ds| ==> IsDigit(ds[i])
  {
    if ds == [] then 0 else DigitsValue(ds[..|ds| - 1]) * 10 + DigitValue(ds[|ds| - 1])
  }

  /** The longest prefix of `s` made of decimal digits. */
  function LeadingDigits(s: string): (r: string)
    ensures StartsWith(s, r)
    ensures forall i :: 0 <= i < |r| ==> IsDigit(r[i])
    ensures |r| == |s| || !IsDigit(s[|r|])
  {
    if s != [] && IsDigit(s[0]) then [s[0]] + LeadingDigits(s[1..]) else []
  }

  /**
   * `parseInt(s, 10)`: leading white space, an optional sign, then the
   * longest run of digits; `None` stands for `NaN` (no digit at all).
   */
  function ParseInt(s: string): (r: Option<int>)
    ensures r.None? <==> LeadingDigits(Unsigned(TrimStart(s))) == []
  {
    var t := TrimStart(s);
    var ds := LeadingDigits(Unsigned(t));
    if ds == [] then None
    else if t[0] == '-' then Some(-(DigitsValue(ds) as int))
    else Some(DigitsValue(ds))
  }

  /** `t` without one leading sign character. */
  function Unsigned(t: string): (r: string)
    ensures |r| <= |t|
  {
    if t != [] && (t[0] == '-' || t[0] == '+') then t[1..] else t
  }

  /** The decimal rendering of a natural number (`String(n)`). */
  function NatToString(n: nat): (r: string)
    ensures |r| >= 1
    ensures forall i :: 0 <= i < |r| ==> IsDigit(r[i])
    ensures DigitsValue(r) == n
  {
    if n < 10 then [DigitChar(n)]
    else
      var init := NatToString(n / 10);
      var r := init + [DigitChar(n % 10)];
      assert r[..|r| - 1] == init;
      r
  }

  function DigitChar(d: nat): (c: char)
    requires d < 10
    ensures IsDigit(c) && DigitValue(c) == d
  {
    ('0' as int + d) as char
  }

  /** The decimal rendering of an integer (`String(n)`). */
  function IntToString(n: int): (r: string)
    ensures n >= 0 ==> r == NatToString(n)
    ensures n < 0 ==> r == "-" + NatToString(-n)
  {
    if n < 0 then "-" + NatToString(-n) else NatToString(n)
  }

  /** `String(n)` reads back as `n` under `parseInt`. */
  lemma ParseIntOfString(n: int)
    ensures ParseInt(IntToString(n)) == Some(n)
  {
    var s := IntToString(n);
    var digits := if n < 0 then NatToString(-n) else NatToString(n);
    assert TrimStart(s) == s;
    assert Unsigned(s) == digits;
    LeadingDigitsAll(digits);
  }

  lemma {:induction false} LeadingDigitsAll(ds: string)
    requires forall i :: 0 <= i < |ds| ==> IsDigit(ds[i])
    ensures LeadingDigits(ds) == ds
    decreases |ds|
  {
    if ds != [] {
      LeadingDigitsAll(ds[1..]);
    }
  }
}

=== FILE: lib_break_timer.dfy ===
/**
 * The newer break timer: an event emitter that keeps when it ends, who
 * started it and in which channel, and holds one `setTimeout` handle that
 * emits 'expire' with the timer itself when it fires.
 */
module LibBreakTimer {
  import opened Js
  import opened Chat

  /** A `setTimeout` handle: its delay, and whether `clearTimeout` has been called on it. */
  datatype Handle = Handle(timeout: int, cleared: bool)

  /** `serialize()`: exactly the end, the author and the channel copy. */
  datatype Snapshot = Snapshot(end: int, author: User, channel: ChannelRef)

  /** The channel copy a timer keeps: the id and the name, nothing else. */
  function ChannelCopy(c: Channel): (r: ChannelRef)
    ensures r.id == c.id && r.name == c.name
  {
    ChannelRef(c.id, c.name)
  }

  /** `moment(end).diff()`: milliseconds from the clock reading `now` to `end`. */
  function TimeoutUntil(end: int, now: int): (t: int)
    ensures now + t == end
  {
    end - now
  }

  class BreakTimer {
    /** `null`, or the handle of the last `setTimeout`. */
    var timer: Option<Handle>
    var author: User
    var channel: ChannelRef
    var end: int

    /** `new BreakTimer(end, author, channel)`, then `reset(+end)`. */
    constructor(end: int, author: User, channel: Channel, now: int)
      ensures this.author == author && this.channel == ChannelCopy(channel)
      ensures this.end == end
      ensures timer == Some(Handle(TimeoutUntil(end, now), false))
    {
      timer := None;
      this.author := author;
      this.channel := ChannelCopy(channel);
      this.end := end;
      new;
      Reset(end, now);
    }

    /** `reset(end)`: record the end, clear any running handle, start a new one. */
    method Reset(end: int, now: int)
      modifies this
      ensures this.end == end
      ensures timer == Some(Handle(TimeoutUntil(end, now), false))
      ensures author == old(author) && channel == old(channel)
    {
      var timeout := TimeoutUntil(end, now);
      this.end := end;
      var self := Stop();
      self := Start(timeout);
    }

    /** `start(timeout)`: a new handle; returns the timer. */
    method Start(timeout: int) returns (self: BreakTimer)
      modifies this
      ensures timer == Some(Handle(timeout, false))
      ensures end == old(end) && author == old(author) && channel == old(channel)
      ensures self == this
    {
      timer := Some(Handle(timeout, false));
      self := this;
    }

    /**
     * `stop()`: clear the handle only when there is one; the field keeps
     * the (now cleared) handle. Returns the timer.
     */
    method Stop() returns (self: BreakTimer)
      modifies this
      ensures old(timer).None? ==> timer.None?
      ensures old(timer).Some? ==> timer == Some(old(timer).value.(cleared := true))
      ensures end == old(end) && author == old(author) && channel == old(channel)
      ensures self == this
    {
      if timer.Some? {
        timer := Some(timer.value.(cleared := true));
      }
      self := this;
    }

    /** `_emitExpiration()`: the 'expire' event, carrying the timer itself. */
    function Expiration(): (e: (string, BreakTimer))
      ensures e.0 == "expire" && e.1 == this
    {
      ("expire", this)
    }

    /** `serialize()` */
    function Serialize(): (s: Snapshot)
      reads this
      ensures s.end == end && s.author == author && s.channel == channel
    {
      Snapshot(end, author, channel)
    }
  }

  /** Two channels with the same id and name give the same copy, whatever else differs. */
  lemma ChannelCopyKeepsOnlyIdAndName(a: Channel, b: Channel)
    requires a.id == b.id && a.name == b.name
    ensures ChannelCopy(a) == ChannelCopy(b)
  {
  }
}

=== FILE: lib_raffle.dfy ===
/**
 * The newer raffle: a break timer that ends a day after it starts, with
 * a prize text, the rolls made so far and an `ending` flag.
 */
module LibRaffle {
  import opened Js
  import opened Chat
  import opened OrderedDict
  import opened RaffleRolls
  import LibBreakTimer

  const Minute := 60 * 1000
  const Day := 24 * 60 * Minute

  /** `serialize()`: the timer's fields plus the raffle's own. */
  datatype Snapshot = Snapshot(
    end: int,
    author: User,
    channel: ChannelRef,
    announceMessageId: Option<string>,
    ending: bool,
    rolls: Rolls,
    about: string)

  /** The data `restore` is given: each field present or not. */
  datatype Data = Data(
    end: Option<int>,
    author: Option<User>,
    channel: Option<ChannelRef>,
    announceMessageId: Option<Option<string>>,
    ending: Option<bool>,
    rolls: Option<Rolls>,
    about: Option<string>)

  function Pick<T>(given: Option<T>, current: T): T
  {
    if given.Some? then given.value else current
  }

  /** `Object.assign(raffle, data)` seen through `serialize()`: present fields win. */
  function Overlay(s: Snapshot, data: Data): (r: Snapshot)
    ensures data.end.None? ==> r.end == s.end
    ensures data.rolls.None? ==> r.rolls == s.rolls
    ensures data.ending.None? ==> r.ending == s.ending
  {
    Snapshot(
      Pick(data.end, s.end),
      Pick(data.author, s.author),
      Pick(data.channel, s.channel),
      Pick(data.announceMessageId, s.announceMessageId),
      Pick(data.ending, s.ending),
      Pick(data.rolls, s.rolls),
      Pick(data.about, s.about))
  }

  /** A snapshot as restore data: every field present. */
  function AsData(s: Snapshot): Data
  {
    Data(Some(s.end), Some(s.author), Some(s.channel), Some(s.announceMessageId),
         Some(s.ending), Some(s.rolls), Some(s.about))
  }

  /** Restoring a serialized raffle over any raffle gives back the serialized state. */
  lemma RestoreRoundTrip(current: Snapshot, saved: Snapshot)
    ensures Overlay(current, AsData(saved)) == saved
  {
  }

  /** Restoring nothing changes nothing. */
  lemma RestoreNothing(current: Snapshot)
    ensures Overlay(current, Data(None, None, None, None, None, None, None)) == current
  {
  }

  /** `gracePeriod` is truthy: present and not zero. */
  predicate Truthy(gracePeriod: Option<int>)
  {
    gracePeriod.Some? && gracePeriod.value != 0
  }

  /** The end `endRaffle(gracePeriod)` resets the timer to: `gracePeriod` minutes from now, or 0. */
  function GraceEnd(gracePeriod: Option<int>, now: int): (end: int)
    ensures Truthy(gracePeriod) ==> end == now + gracePeriod.value * Minute
    ensures !Truthy(gracePeriod) ==> end == 0
  {
    if Truthy(gracePeriod) then now + gracePeriod.value * Minute else 0
  }

  class Raffle {
    /** The break-timer part of the raffle. */
    const timer: LibBreakTimer.BreakTimer
    var ending: bool
    var announceMessageId: Option<string>
    var rolls: Rolls
    var about: string

    /** `new Raffle(about, author, channel)`: ends a day from `now`, nothing rolled yet. */
    constructor(about: string, author: User, channel: Channel, now: int)
      ensures fresh(timer)
      ensures timer.Serialize() == LibBreakTimer.Snapshot(now + Day, author, LibBreakTimer.ChannelCopy(channel))
      ensures timer.timer == Some(LibBreakTimer.Handle(Day, false))
      ensures !ending && announceMessageId.None? && rolls == Empty() && this.about == about
    {
      timer := new LibBreakTimer.BreakTimer(now + Day, author, channel, now);
      ending := false;
      announceMessageId := None;
      rolls := Empty();
      this.about := about;
    }

    /** `serialize()` */
    function Serialize(): (s: Snapshot)
      reads this, timer
      ensures s.end == timer.end && s.author == timer.author && s.channel == timer.channel
      ensures s.announceMessageId == announceMessageId && s.ending == ending
      ensures s.rolls == rolls && s.about == about
    {
      Snapshot(timer.end, timer.author, timer.channel, announceMessageId, ending, rolls, about)
    }

    /** `restore(data)`: overlay the data, then restart the timer towards the (possibly new) end. */
    method Restore(data: Data, now: int) returns (self: Raffle)
      modifies this, timer
      ensures Serialize() == Overlay(old(Serialize()), data)
      ensures timer.timer == Some(LibBreakTimer.Handle(LibBreakTimer.TimeoutUntil(timer.end, now), false))
      ensures self == this
    {
      timer.end := Pick(data.end, timer.end);
      timer.author := Pick(data.author, timer.author);
      timer.channel := Pick(data.channel, timer.channel);
      announceMessageId := Pick(data.announceMessageId, announceMessageId);
      ending := Pick(data.ending, ending);
      rolls := Pick(data.rolls, rolls);
      about := Pick(data.about, about);
      timer.Reset(timer.end, now);
      self := this;
    }

    /**
     * `endRaffle(gracePeriod)`: the first call marks the raffle as ending
     * and resets the timer; later calls change nothing.
     */
    method EndRaffle(gracePeriod: Option<int>, now: int)
      modifies this, timer
      ensures old(ending) ==> unchanged(this) && unchanged(timer)
      ensures !old(ending) ==> ending && timer.end == GraceEnd(gracePeriod, now)
      ensures !old(ending) ==>
                timer.timer == Some(LibBreakTimer.Handle(LibBreakTimer.TimeoutUntil(GraceEnd(gracePeriod, now), now), false))
      ensures rolls == old(rolls) && about == old(about) && announceMessageId == old(announceMessageId)
      ensures timer.author == old(timer.author) && timer.channel == old(timer.channel)
    {
      if ending {
        return;
      }
      ending := true;
      timer.Reset(GraceEnd(gracePeriod, now), now);
    }

    /** `addRoll(user, dice)` at clock reading `now`; returns the raffle, or throws on a second roll. */
    method AddRoll(user: User, dice: int, now: int) returns (r: Result<Raffle, Thrown>)
      modifies this
      ensures var added := RaffleRolls.AddRoll(old(rolls), user, dice, now);
              (added.Ok? ==> r == Ok(this) && rolls == added.value)
              && (added.Err? ==> r == Err(added.error) && rolls == old(rolls))
      ensures ending == old(ending) && about == old(about) && announceMessageId == old(announceMessageId)
    {
      var added := RaffleRolls.AddRoll(rolls, user, dice, now);
      if added.Err? {
        return Err(added.error);
      }
      rolls := added.value;
      r := Ok(this);
    }

    /** `getRoll(user)` */
    function GetRoll(user: Option<User>): (l: Lookup)
      reads this
    {
      RaffleRolls.GetRoll(rolls, user)
    }
  }
}

=== FILE: magic_eight_ball.dfy ===
/**
 * The progress spinner of the magic 8-ball command: four quadrant glyphs
 * shown in turn while the answer is being "decided".
 */
module MagicEightBall {

  /** U+2598, U+259D, U+2597, U+2596: the quadrant travels clockwise. */
  const Glyphs: seq<char> := ['\U{2598}', '\U{259D}', '\U{2597}', '\U{2596}']

  /** The index after `next`: one on, back to 0 after the last glyph. */
  function Advance(i: int): (r: int)
    ensures 0 <= i < |Glyphs| ==> 0 <= r < |Glyphs|
    ensures 0 <= i < |Glyphs| - 1 ==> r == i + 1
    ensures i == |Glyphs| - 1 ==> r == 0
  {
    if i + 1 == |Glyphs| then 0 else i + 1
  }

  /** `n` calls of `next` from index `i`. */
  function AdvanceBy(i: int, n: nat): int
  {
    if n == 0 then i else Advance(AdvanceBy(i, n - 1))
  }

  /** From any index on the wheel, `n` steps land on `(i + n) % 4`. */
  lemma {:induction false} AdvanceByWraps(i: int, n: nat)
    requires 0 <= i < |Glyphs|
    ensures AdvanceBy(i, n) == (i + n) % |Glyphs|
  {
    if n > 0 {
      AdvanceByWraps(i, n - 1);
      var q, m := (i + n - 1) / 4, (i + n - 1) % 4;
      assert i + n - 1 == 4 * q + m && 0 <= m < 4;
      if m == 3 {
        assert i + n == 4 * (q + 1) + 0;
      } else {
        assert i + n == 4 * q + (m + 1);
      }
    }
  }

  /** Four steps come back to the same glyph. */
  lemma FourStepsRoundTrip(i: int)
    requires 0 <= i < |Glyphs|
    ensures AdvanceBy(i, 4) == i
  {
    AdvanceByWraps(i, 4);
  }

  class ProgressSpinner {
    var index: int

    ghost predicate Valid()
      reads this
    {
      0 <= index < |Glyphs|
    }

    /** A new spinner starts on the first glyph. */
    constructor()
      ensures Valid() && index == 0
    {
      index := 0;
    }

    /** `get()`: the glyph at the current index. */
    function Get(): (c: char)
      reads this
      requires Valid()
      ensures c in Glyphs
      ensures c == Glyphs[index]
    {
      Glyphs[index]
    }

    /** `next()`: advance and wrap; returns the spinner itself. */
    method Next() returns (self: ProgressSpinner)
      requires Valid()
      modifies this
      ensures Valid()
      ensures index == Advance(old(index))
      ensures self == this
    {
      index := index + 1;
      if index == |Glyphs| {
        index := 0;
      }
      self := this;
    }
  }
}

=== FILE: manage.dfy ===
/**
 * The management module: chat commands that disable, enable and reload
 * modules, list modules and triggers, and show or edit configuration
 * variables.
 */
module Manage {
  import opened Js
  import opened OrderedDict
  import opened CommandModule
  import opened Bot

  const ManageTriggers := ["!dismod", "!enmod", "!mods", "!reload", "!restart", "!triggers", "!save", "!eval", "!cvar"]

  /** Whatever the configuration says, only members with this role may use the module. */
  const ManageRoles := ["Great Leader"]

  // ---------------------------------------------------------------- rejections

  /**
   * `Promise.reject(err.message)` as written: an Error yields its message,
   * a thrown string has no `message` and yields `undefined`, and reading
   * `message` of `undefined` itself throws a TypeError.
   */
  function RejectWithMessage(t: Thrown): (s: Settled)
    ensures s.Rejected?
    ensures t.ErrorObject? || t.TypeErr? ==> s.error == TextReply(t.message)
    ensures t.Text? ==> s.error == Falsy
  {
    match t
    case ErrorObject(m) => Rejected(TextReply(m))
    case TypeErr(m) => Rejected(TextReply(m))
    case Text(_) => Rejected(Falsy)
    case Undefined => Rejected(Obj(None))
  }

  /**
   * The enable command's refusals (`No such module`, `Module is already
   * enabled.`) are thrown as strings, so as written they reach the chat as
   * nothing at all.
   */
  lemma EnableRefusalIsSilent(s: string)
    ensures RejectWithMessage(Text(s)) == Rejected(Falsy)
    ensures Answer(RejectWithMessage(Text(s))) == Silent
  {
  }

  /** The rejection as intended: whatever was thrown, its text is what the caller is told. */
  function RejectWithReason(t: Thrown): (s: Settled)
    ensures s.Rejected?
    ensures t.ErrorObject? || t.TypeErr? ==> s.error == TextReply(t.message)
    ensures t.Text? ==> s.error == TextReply(t.text)
    ensures t != Undefined ==> s == Rejected(TextReply(ReasonText(t)))
  {
    match t
    case Text(m) => Rejected(TextReply(m))
    case _ => RejectWithMessage(t)
  }

  function ReasonText(t: Thrown): string
    requires t != Undefined
  {
    match t
    case ErrorObject(m) => m
    case TypeErr(m) => m
    case Text(m) => m
  }

  /** With the intended rejection every refusal with a text reaches the author as that text. */
  lemma RefusalIsReported(t: Thrown)
    requires t != Undefined && ReasonText(t) != ""
    ensures Answer(RejectWithReason(t)) == Sent(ReplyTo(ReasonText(t)))
  {
  }

  // ---------------------------------------------------------------- commands

  /** `_disableModule(params)` */
  method DisableCommand(bot: DiscordBot, params: seq<string>) returns (s: Settled)
    requires bot.Valid()
    modifies bot, bot.Objects()
    ensures bot.Valid()
    ensures bot.modules == old(bot.modules)
    ensures params == [] ==>
      s == Rejected(TextReply("Please supply the name of a module to disable.")) && bot.triggers == old(bot.triggers)
    ensures params != [] && params[0] == "Manage" ==>
      s == Rejected(TextReply("Cannot manage the Manage module.")) && bot.triggers == old(bot.triggers)
    ensures params != [] && params[0] != "Manage" && params[0] !in bot.modules.vals ==>
      s == Rejected(TextReply("No such module: " + params[0])) && bot.triggers == old(bot.triggers)
    ensures (params != [] && params[0] != "Manage" && params[0] in bot.modules.vals
      && !old(bot.modules.vals[params[0]].IsEnabled())) ==>
      s == Rejected(TextReply("Module is already disabled.")) && bot.triggers == old(bot.triggers)
    ensures (params != [] && params[0] != "Manage" && params[0] in bot.modules.vals
      && old(bot.modules.vals[params[0]].IsEnabled())) ==>
      var m := bot.modules.vals[params[0]];
      s == Resolved(TextReply(m.Name() + " has been disabled."))
      && !m.IsEnabled()
      && m.config == old(m.config)["enabled" := Bool(false)]
      && bot.triggers == Unbind(old(bot.triggers), m.triggers.keys, m.Name())
      && bot.configModules == old(bot.configModules) + bot.Configs()
    ensures forall k :: k in bot.modules.vals && (params == [] || k != params[0]) ==>
      bot.modules.vals[k].config == old(bot.modules.vals[k].config)
  {
    if params == [] {
      return Rejected(TextReply("Please supply the name of a module to disable."));
    }
    if params[0] == "Manage" {
      return Rejected(TextReply("Cannot manage the Manage module."));
    }
    var r := bot.DisableModule(params[0]);
    match r
    case Ok(m) => s := Resolved(TextReply(m.Name() + " has been disabled."));
    case Err(e) => s := RejectWithMessage(e);
  }

  /**
   * `_enableModule(params)` as written: the bot's refusals are thrown
   * strings, so `Promise.reject(err.message)` rejects with nothing and the
   * author is told nothing (see `EnableRefusalIsSilent`).
   */
  method EnableCommand(bot: DiscordBot, params: seq<string>) returns (s: Settled)
    requires bot.Valid()
    modifies bot, bot.Objects()
    ensures bot.Valid()
    ensures bot.modules == old(bot.modules)
    ensures params == [] ==>
      s == Rejected(TextReply("Please supply the name of a module to enable.")) && bot.triggers == old(bot.triggers)
    ensures params != [] && params[0] == "Manage" ==>
      s == Rejected(TextReply("Cannot manage the Manage module.")) && bot.triggers == old(bot.triggers)
    ensures params != [] && params[0] != "Manage" && params[0] !in bot.modules.vals ==>
      s == Rejected(Falsy) && bot.triggers == old(bot.triggers)
    ensures (params != [] && params[0] != "Manage" && params[0] in bot.modules.vals
      && old(bot.modules.vals[params[0]].IsEnabled())) ==>
      s == Rejected(Falsy) && bot.triggers == old(bot.triggers)
      && bot.modules.vals[params[0]].config == old(bot.modules.vals[params[0]].config)
    ensures (params != [] && params[0] != "Manage" && params[0] in bot.modules.vals
      && !old(bot.modules.vals[params[0]].IsEnabled())) ==>
      var m := bot.modules.vals[params[0]];
      s == Resolved(TextReply(m.Name() + " has been enabled."))
      && m.IsEnabled()
      && m.config == old(m.config)["enabled" := Bool(true)]
      && bot.triggers == Bind(old(bot.triggers), m.triggers.keys, m.Name())
      && bot.configModules == old(bot.configModules) + bot.Configs()
    ensures forall k :: k in bot.modules.vals && (params == [] || k != params[0]) ==>
      bot.modules.vals[k].config == old(bot.modules.vals[k].config)
  {
    if params == [] {
      return Rejected(TextReply("Please supply the name of a module to enable."));
    }
    if params[0] == "Manage" {
      return Rejected(TextReply("Cannot manage the Manage module."));
    }
    var r := bot.EnableModule(params[0]);
    match r
    case Ok(m) => s := Resolved(TextReply(m.Name() + " has been enabled."));
    case Err(e) => s := RejectWithMessage(e);
  }

  /** `_enableModule(params)` as intended: the refusal's text reaches the author (see `RejectWithReason`). */
  method EnableCommandReported(bot: DiscordBot, params: seq<string>) returns (s: Settled)
    requires bot.Valid()
    modifies bot, bot.Objects()
    ensures bot.Valid()
    ensures bot.modules == old(bot.modules)
    ensures params == [] ==>
      s == Rejected(TextReply("Please supply the name of a module to enable.")) && bot.triggers == old(bot.triggers)
    ensures params != [] && params[0] == "Manage" ==>
      s == Rejected(TextReply("Cannot manage the Manage module.")) && bot.triggers == old(bot.triggers)
    ensures params != [] && params[0] != "Manage" && params[0] !in bot.modules.vals ==>
      s == Rejected(TextReply("No such module: " + params[0])) && bot.triggers == old(bot.triggers)
    ensures (params != [] && params[0] != "Manage" && params[0] in bot.modules.vals
      && old(bot.modules.vals[params[0]].IsEnabled())) ==>
      s == Rejected(TextReply("Module is already enabled.")) && bot.triggers == old(bot.triggers)
      && bot.modules.vals[params[0]].config == old(bot.modules.vals[params[0]].config)
    ensures (params != [] && params[0] != "Manage" && params[0] in bot.modules.vals
      && !old(bot.modules.vals[params[0]].IsEnabled())) ==>
      var m := bot.modules.vals[params[0]];
      s == Resolved(TextReply(m.Name() + " has been enabled."))
      && m.IsEnabled()
      && m.config == old(m.config)["enabled" := Bool(true)]
      && bot.triggers == Bind(old(bot.triggers), m.triggers.keys, m.Name())
      && bot.configModules == old(bot.configModules) + bot.Configs()
    ensures forall k :: k in bot.modules.vals && (params == [] || k != params[0]) ==>
      bot.modules.vals[k].config == old(bot.modules.vals[k].config)
  {
    if params == [] {
      return Rejected(TextReply("Please supply the name of a module to enable."));
    }
    if params[0] == "Manage" {
      return Rejected(TextReply("Cannot manage the Manage module."));
    }
    var r := bot.EnableModule(params[0]);
    match r
    case Ok(m) => s := Resolved(TextReply(m.Name() + " has been enabled."));
    case Err(e) => s := RejectWithReason(e);
  }

  /**
   * `_reloadModule(params)`: disable, reload, enable, in that order, each
   * step only when the previous one succeeded.
   */
  method ReloadCommand(bot: DiscordBot, params: seq<string>, purge: Option<Thrown>) returns (s: Settled)
    requires bot.Valid()
    modifies bot, bot.Objects()
    ensures bot.Valid()
    ensures params == [] ==> s == Rejected(TextReply("Please supply the name of a module to disable."))
    ensures params != [] && params[0] == "Manage" ==> s == Rejected(TextReply("Cannot manage the Manage module."))
    ensures params != [] && params[0] != "Manage" && params[0] !in old(bot.modules.vals) ==>
      s == Rejected(TextReply("No such module: " + params[0]))
    ensures (params != [] && params[0] != "Manage" && params[0] in old(bot.modules.vals)
      && !old(bot.modules.vals[params[0]].IsEnabled())) ==>
      s == Rejected(TextReply("Module is already disabled."))
    ensures (params != [] && params[0] != "Manage" && params[0] in old(bot.modules.vals)
      && old(bot.modules.vals[params[0]].IsEnabled())) ==>
      var name := params[0];
      s == ReloadOutcome(bot.definitions, name, old(bot.modules.vals[name].config)["enabled" := Bool(false)], purge)
      && (ReloadRemoves(bot.definitions, name, old(bot.modules.vals[name].config)["enabled" := Bool(false)], purge)
          ==> name !in bot.modules.vals)
      && (ReloadBuilds(bot.definitions, name, old(bot.modules.vals[name].config)["enabled" := Bool(false)], purge)
          ==> name in bot.modules.vals && fresh(bot.modules.vals[name]) && bot.modules.vals[name].IsEnabled())
  {
    s := DisableCommand(bot, params);
    if s.Rejected? {
      return;
    }
    var name := params[0];
    assert name in bot.Configs();
    assert bot.ConfigFor(name)["enabled"] == Bool(false);
    s := ReloadDisabled(bot, name, purge);
  }

  /**
   * The reload of a module `_disableModule` has just switched off, whose
   * persisted settings are now `disabled`: an unknown file or a failed
   * purge rejects with the error; a blacklisted module is dropped and the
   * final enable's refusal (`No such module`) is silent; a throwing factory
   * drops the module and rejects with the error; a module its class
   * enables by itself is refused by the final enable, silently; any other
   * module comes back fresh and enabled.
   */
  function ReloadOutcome(defs: map<string, ModuleDef>, name: string, disabled: Config, purge: Option<Thrown>): (s: Settled)
  {
    if name !in defs then Rejected(ThrownReply(TypeErr("module path is not a string")))
    else if purge.Some? then Rejected(ThrownReply(purge.value))
    else if Blacklisted(disabled) then Rejected(Falsy)
    else if defs[name].failure(Granted(disabled)).Some? then Rejected(ThrownReply(defs[name].failure(Granted(disabled)).value))
    else if SelfEnabling(defs[name]) then Rejected(Falsy)
    else Resolved(TextReply(name + " has been reloaded."))
  }

  /** A class whose constructor writes a truthy `enabled` over its configuration. */
  predicate SelfEnabling(def: ModuleDef)
  {
    TruthyAt(def.overrides, "enabled")
  }

  /** The reload leaves the module unregistered: blacklisted, or its factory throws. */
  predicate ReloadRemoves(defs: map<string, ModuleDef>, name: string, disabled: Config, purge: Option<Thrown>)
  {
    name in defs && purge.None? && (Blacklisted(disabled) || defs[name].failure(Granted(disabled)).Some?)
  }

  /** The reload registers a fresh module. */
  predicate ReloadBuilds(defs: map<string, ModuleDef>, name: string, disabled: Config, purge: Option<Thrown>)
  {
    name in defs && purge.None? && !Blacklisted(disabled) && defs[name].failure(Granted(disabled)).None?
  }

  /** Only a module reloaded without error and not enabled by its own class answers that it was reloaded. */
  lemma ReloadSucceedsOnlyWhenBuilt(defs: map<string, ModuleDef>, name: string, disabled: Config, purge: Option<Thrown>)
    ensures ReloadOutcome(defs, name, disabled, purge).Resolved? <==>
      ReloadBuilds(defs, name, disabled, purge) && !SelfEnabling(defs[name])
    ensures ReloadOutcome(defs, name, disabled, purge).Resolved? ==>
      ReloadOutcome(defs, name, disabled, purge) == Resolved(TextReply(name + " has been reloaded."))
  {
  }

  /** The reload and final enable of a registered, disabled module whose settings are persisted. */
  method ReloadDisabled(bot: DiscordBot, name: string, purge: Option<Thrown>) returns (s: Settled)
    requires bot.Valid() && name != "Manage" && name in bot.modules.vals
    requires bot.ConfigFor(name) == bot.modules.vals[name].config
    requires "enabled" in bot.ConfigFor(name) && bot.ConfigFor(name)["enabled"] == Bool(false)
    modifies bot, bot.Objects()
    ensures bot.Valid()
    ensures s == ReloadOutcome(bot.definitions, name, old(bot.ConfigFor(name)), purge)
    ensures ReloadRemoves(bot.definitions, name, old(bot.ConfigFor(name)), purge) ==> name !in bot.modules.vals
    ensures ReloadBuilds(bot.definitions, name, old(bot.ConfigFor(name)), purge) ==>
      name in bot.modules.vals && fresh(bot.modules.vals[name]) && bot.modules.vals[name].IsEnabled()
  {
    var failed := ReloadStep(bot, name, purge);
    if failed.Some? {
      return Rejected(ThrownReply(failed.value));
    }
    s := EnableReloaded(bot, name);
  }

  /** A module built from settings with `enabled` off is enabled exactly when its class switches it on. */
  lemma ReloadedEnabled(disabled: Config, overrides: Config)
    requires "enabled" in disabled && disabled["enabled"] == Bool(false)
    ensures TruthyAt(Defaults() + Granted(disabled) + overrides, "enabled") <==> TruthyAt(overrides, "enabled")
  {
    assert Granted(disabled)["enabled"] == Bool(false);
  }

  /** `bot.reloadModule(name)` on the disabled module, told apart by what the rest of the reload needs. */
  method ReloadStep(bot: DiscordBot, name: string, purge: Option<Thrown>) returns (failed: Option<Thrown>)
    requires bot.Valid() && name in bot.modules.vals
    requires "enabled" in bot.ConfigFor(name) && bot.ConfigFor(name)["enabled"] == Bool(false)
    modifies bot
    ensures bot.Valid()
    ensures failed.Some? <==> name !in bot.definitions || purge.Some?
                              || (!Blacklisted(old(bot.ConfigFor(name)))
                                  && bot.definitions[name].failure(Granted(old(bot.ConfigFor(name)))).Some?)
    ensures failed.Some? ==> ReloadOutcome(bot.definitions, name, old(bot.ConfigFor(name)), purge) == Rejected(ThrownReply(failed.value))
    ensures ReloadRemoves(bot.definitions, name, old(bot.ConfigFor(name)), purge) ==> name !in bot.modules.vals
    ensures ReloadBuilds(bot.definitions, name, old(bot.ConfigFor(name)), purge) ==>
      name in bot.modules.vals && fresh(bot.modules.vals[name])
      && (bot.modules.vals[name].IsEnabled() <==> SelfEnabling(bot.definitions[name]))
    ensures forall k :: k in bot.modules.vals ==> bot.modules.vals[k] in old(bot.Objects()) || fresh(bot.modules.vals[k])
  {
    ghost var disabled := bot.ConfigFor(name);
    var r := bot.ReloadModule(name, purge);
    if r.Err? {
      return Some(r.error);
    }
    if r.value.Some? {
      ReloadedEnabled(disabled, bot.definitions[name].overrides);
    }
    failed := None;
  }

  /** The final `_enableModule` of a reload and the closing answer. */
  method EnableReloaded(bot: DiscordBot, name: string) returns (s: Settled)
    requires bot.Valid() && name != "Manage"
    modifies bot, bot.Objects()
    ensures bot.Valid()
    ensures name !in old(bot.modules.vals) ==> s == Rejected(Falsy) && name !in bot.modules.vals
    ensures name in old(bot.modules.vals) ==>
      name in bot.modules.vals && bot.modules.vals[name] == old(bot.modules.vals[name])
      && bot.modules.vals[name].IsEnabled()
      && s == (if old(bot.modules.vals[name].IsEnabled()) then Rejected(Falsy)
               else Resolved(TextReply(name + " has been reloaded.")))
  {
    s := EnableCommand(bot, [name]);
    if s.Rejected? {
      return;
    }
    s := Resolved(TextReply(name + " has been reloaded."));
  }

  // ---------------------------------------------------------------- listings

  /** One line of the module listing. */
  function ModuleLine(name: string, enabled: bool): (line: string)
    ensures enabled ==> StartsWith(line, "🗹 **")
    ensures !enabled ==> StartsWith(line, "☐ ")
  {
    if enabled then "🗹 **" + name + "**" else "☐ " + name
  }

  /** The listing lines for the modules registered under `keys`. */
  function ModuleLines(mods: Dict<CommandModule>, keys: seq<string>): (lines: seq<string>)
    requires forall i :: 0 <= i < |keys| ==> keys[i] in mods.vals
    reads set k | k in mods.vals :: mods.vals[k]
    ensures |lines| == |keys|
    ensures forall i :: 0 <= i < |keys| ==> lines[i] == ModuleLine(keys[i], mods.vals[keys[i]].IsEnabled())
    decreases |keys|
  {
    if keys == [] then []
    else ModuleLines(mods, keys[..|keys| - 1]) + [ModuleLine(keys[|keys| - 1], mods.vals[keys[|keys| - 1]].IsEnabled())]
  }

  /** `_displayModules()`: one line per registered module, in registration order, marking the enabled ones. */
  method DisplayModules(bot: DiscordBot) returns (text: string)
    requires bot.Valid()
    ensures text == "alright, here's the available modules:\n"
      + Join(ModuleLines(bot.modules, bot.modules.keys), "\n") + "\n"
  {
    var keys := bot.modules.keys;
    var lines: seq<string> := [];
    var i := 0;
    while i < |keys|
      invariant 0 <= i <= |keys|
      invariant lines == ModuleLines(bot.modules, keys[..i])
    {
      var loaded := bot.modules.vals[keys[i]];
      assert keys[..i + 1][..i] == keys[..i];
      lines := lines + [ModuleLine(keys[i], loaded.IsEnabled())];
      i := i + 1;
    }
    assert keys[..i] == keys;
    text := "alright, here's the available modules:\n" + Join(lines, "\n") + "\n";
  }

  function TriggerLine(word: string, owner: string): string
  {
    "`" + word + "` is handled by `" + owner + "`"
  }

  /** The listing lines for the trigger words `keys`. */
  function TriggerLines(table: Dict<string>, keys: seq<string>): (lines: seq<string>)
    requires forall i :: 0 <= i < |keys| ==> keys[i] in table.vals
    ensures |lines| == |keys|
    ensures forall i :: 0 <= i < |keys| ==> lines[i] == TriggerLine(keys[i], table.vals[keys[i]])
    decreases |keys|
  {
    if keys == [] then []
    else TriggerLines(table, keys[..|keys| - 1]) + [TriggerLine(keys[|keys| - 1], table.vals[keys[|keys| - 1]])]
  }

  /** `_displayTriggers()`: one line per bound trigger word naming its module. */
  method DisplayTriggers(bot: DiscordBot) returns (text: string)
    requires bot.Valid()
    ensures text == "\n" + Join(TriggerLines(bot.triggers, bot.triggers.keys), "\n") + "\n"
  {
    var keys := bot.triggers.keys;
    var lines: seq<string> := [];
    var i := 0;
    while i < |keys|
      invariant 0 <= i <= |keys|
      invariant lines == TriggerLines(bot.triggers, keys[..i])
    {
      assert keys[..i + 1][..i] == keys[..i];
      lines := lines + [TriggerLine(keys[i], bot.triggers.vals[keys[i]])];
      i := i + 1;
    }
    assert keys[..i] == keys;
    text := "\n" + Join(lines, "\n") + "\n";
  }

  // ---------------------------------------------------------------- configuration variables

  /** What `!cvar` does: answer, or edit the configuration at a dotted path (`None` deletes). */
  datatype CvarResult = Answered(settled: Settled) | EditConfig(path: string, value: Option<string>)

  /** What is shown instead of a password. */
  const HiddenValue := "<Password Hidden>"

  /** `key.toLowerCase().indexOf('pass') !== -1` */
  predicate IsPasswordKey(key: string)
  {
    Contains(ToLower(key), "pass")
  }

  /** The value shown for a flattened configuration key. */
  function ShownValue(key: string, value: string): (v: string)
    ensures IsPasswordKey(key) ==> v == HiddenValue
    ensures !IsPasswordKey(key) ==> v == value
  {
    if IsPasswordKey(key) then HiddenValue else value
  }

  /** The line listing a key whose value is hidden. */
  function HiddenLine(key: string): string
  {
    "`" + key + "` = `" + HiddenValue + "`\n"
  }

  /** One line of the configuration listing. */
  function CvarLine(key: string, value: string): string
  {
    "`" + key + "` = `" + ShownValue(key, value) + "`\n"
  }

  /** The lines listing the flattened settings `dots`, in order. */
  function CvarLines(dots: seq<(string, string)>): (lines: seq<string>)
    ensures |lines| == |dots|
    ensures forall i :: 0 <= i < |dots| ==> lines[i] == CvarLine(dots[i].0, dots[i].1)
  {
    seq(|dots|, i requires 0 <= i < |dots| => CvarLine(dots[i].0, dots[i].1))
  }

  /** No line of the listing shows the value of a key that mentions a password. */
  lemma CvarLinesHidePasswords(dots: seq<(string, string)>, i: nat)
    requires i < |dots| && IsPasswordKey(dots[i].0)
    ensures Concat(CvarLines(dots))
      == Concat(CvarLines(dots)[..i]) + HiddenLine(dots[i].0) + Concat(CvarLines(dots)[i + 1..])
  {
    var lines := CvarLines(dots);
    ConcatSplit(lines, i);
    assert lines[i] == HiddenLine(dots[i].0);
  }

  /** The listing of the flattened settings `dots`, in order. */
  method ListSettings(dots: seq<(string, string)>) returns (str: string)
    ensures str == Concat(CvarLines(dots))
  {
    ghost var lines := CvarLines(dots);
    str := "";
    var i := 0;
    while i < |dots|
      invariant 0 <= i <= |dots|
      invariant str == Concat(lines[..i])
    {
      ConcatPrefix(lines, i);
      str := str + CvarLine(dots[i].0, dots[i].1);
      i := i + 1;
    }
    assert lines[..i] == lines;
  }

  /** The answer listing the settings `dots` of the part of the configuration named by `subsection`. */
  function ListingText(subsection: string, dots: seq<(string, string)>): string
  {
    "here's the current configuration " + subsection + "in dot-notation:\n" + Concat(CvarLines(dots))
  }

  /**
   * `_modifyConfiguration(params)`: `set` needs a path and a value, `del`
   * a path; anything else lists the flattened configuration (`dots`:
   * key and value pairs of the whole configuration, or of the subsection
   * named by the first parameter), hiding passwords.
   */
  method CvarCommand(params: seq<string>, dots: seq<(string, string)>) returns (r: CvarResult)
    ensures params != [] && params[0] == "set" && |params| < 3 ==>
      r == Answered(Rejected(TextReply("Insufficient arguments given.")))
    ensures params != [] && params[0] == "set" && |params| >= 3 ==>
      r == EditConfig(params[1], Some(Join(params[2..], " ")))
    ensures params != [] && params[0] == "del" && |params| < 2 ==>
      r == Answered(Rejected(TextReply("Insufficient arguments given.")))
    ensures params != [] && params[0] == "del" && |params| >= 2 ==> r == EditConfig(params[1], None)
    ensures (params == [] || params[0] == "") ==> r == Answered(Resolved(TextReply(ListingText("", dots))))
    ensures params != [] && params[0] !in {"", "set", "del"} ==>
      r == Answered(Resolved(TextReply(ListingText("for subsection `" + params[0] + "` ", dots))))
  {
    var mode := if params == [] then "" else params[0];
    if mode == "set" {
      if |params| < 3 {
        return Answered(Rejected(TextReply("Insufficient arguments given.")));
      }
      return EditConfig(params[1], Some(Join(params[2..], " ")));
    }
    if mode == "del" {
      if |params| < 2 {
        return Answered(Rejected(TextReply("Insufficient arguments given.")));
      }
      return EditConfig(params[1], None);
    }
    var subsection := if mode == "" then "" else "for subsection `" + mode + "` ";
    var str := ListSettings(dots);
    r := Answered(Resolved(TextReply("here's the current configuration " + subsection + "in dot-notation:\n" + str)));
  }

  // ---------------------------------------------------------------- routing

  /** The commands `Message` switches on, by trigger word without `!`. */
  datatype Command = Dismod | Enmod | Reload | Mods | Triggers | Save | Eval | Cvar | Restart | NoCommand

  function Route(content: string): (c: Command)
    ensures GetTrigger(content) == Some("dismod") <==> c == Dismod
    ensures GetTrigger(content) == Some("enmod") <==> c == Enmod
    ensures GetTrigger(content) == Some("reload") <==> c == Reload
    ensures GetTrigger(content) == Some("mods") <==> c == Mods
    ensures GetTrigger(content) == Some("triggers") <==> c == Triggers
    ensures GetTrigger(content) == Some("save") <==> c == Save
    ensures GetTrigger(content) == Some("eval") <==> c == Eval
    ensures GetTrigger(content) == Some("cvar") <==> c == Cvar
    ensures GetTrigger(content) == Some("restart") <==> c == Restart
    ensures c == NoCommand <==> (GetTrigger(content).None?
      || GetTrigger(content).value !in {"dismod", "enmod", "reload", "mods", "triggers", "save", "eval", "cvar", "restart"})
  {
    match GetTrigger(content)
    case None => NoCommand
    case Some(t) =>
      if t == "dismod" then Dismod
      else if t == "enmod" then Enmod
      else if t == "reload" then Reload
      else if t == "mods" then Mods
      else if t == "triggers" then Triggers
      else if t == "save" then Save
      else if t == "eval" then Eval
      else if t == "cvar" then Cvar
      else if t == "restart" then Restart
      else NoCommand
  }

  /** The registered trigger words without their `!`. */
  function ManageWord(i: nat): (w: string)
    requires i < |ManageTriggers|
    ensures ManageTriggers[i] == "!" + w
  {
    ManageTriggers[i][1..]
  }

  /** `Message` switches on exactly the registered words. */
  lemma RoutesOnlyRegistered(content: string)
    ensures Route(content) != NoCommand <==> exists i :: 0 <= i < |ManageTriggers| && GetTrigger(content) == Some(ManageWord(i))
  {
    var words := ["dismod", "enmod", "mods", "reload", "restart", "triggers", "save", "eval", "cvar"];
    forall i | 0 <= i < |ManageTriggers| ensures ManageWord(i) == words[i] {
      assert ("!" + ManageWord(i))[1..] == ManageWord(i);
    }
    var c := Route(content);
    if c != NoCommand {
      var i := match c
        case Dismod => 0 case Enmod => 1 case Mods => 2 case Reload => 3 case Restart => 4
        case Triggers => 5 case Save => 6 case Eval => 7 case Cvar => 8 case NoCommand => 0;
      assert GetTrigger(content) == Some(ManageWord(i));
    }
  }

  /** A message opening with a registered word, and a space or other non-word character after it, reaches a command. */
  lemma RegisteredWordRouted(i: nat, rest: string)
    requires i < |ManageTriggers| && rest != [] && !IsWordChar(rest[0])
    ensures Route(ManageTriggers[i] + rest) != NoCommand
  {
    StripKnownTrigger(ManageWord(i), rest);
  }
}

=== FILE: message_embed.dfy ===
/**
 * The plain embed object the raffle listing is built with: a fixed
 * colour, an optional title and description, a list of fields appended
 * one at a time, and a footer that is replaced whole.
 */
module MessageEmbed {
  import opened Js

  /** Discord's blue, `0x3498DB`. */
  const DefaultColor := 3447003

  datatype Field = Field(name: string, value: string, inline: bool)
  datatype Footer = Footer(title: string, value: string)

  /** A title or description argument: missing, or given (possibly empty). */
  predicate TruthyText(s: Option<string>)
  {
    s.Some? && s.value != ""
  }

  class Embed {
    const color: int
    const title: Option<string>
    const description: Option<string>
    var fields: seq<Field>
    var footer: Option<Footer>

    /** `new MessageEmbed(title, description)`: each text is kept only when truthy. */
    constructor(title: Option<string>, description: Option<string>)
      ensures color == DefaultColor && fields == [] && footer == None
      ensures TruthyText(title) <==> this.title.Some?
      ensures TruthyText(title) ==> this.title == title
      ensures TruthyText(description) <==> this.description.Some?
      ensures TruthyText(description) ==> this.description == description
    {
      color := DefaultColor;
      fields := [];
      footer := None;
      this.title := if TruthyText(title) then title else None;
      this.description := if TruthyText(description) then description else None;
    }

    /** `addField(name, value, inline)`: one field at the end; a missing `inline` is false. */
    method AddField(name: string, value: string, inline: Option<bool>)
      modifies this
      ensures fields == old(fields) + [Field(name, value, inline.Some? && inline.value)]
      ensures footer == old(footer)
    {
      fields := fields + [Field(name, value, inline.Some? && inline.value)];
    }

    /** `setFooter(title, value)`: the footer is replaced; the fields stay as they are. */
    method SetFooter(title: string, value: string)
      modifies this
      ensures footer == Some(Footer(title, value))
      ensures fields == old(fields)
    {
      footer := Some(Footer(title, value));
    }
  }
}

=== FILE: mythic_affix.dfy ===
/**
 * The `!affix` command: which pair of Mythic+ affixes is active this week,
 * found by stepping a week at a time from a known starting week.
 */
module MythicAffix {
  import opened Js

  /** One week in milliseconds: `date.add(7, 'days')`. */
  const Week := 7 * 24 * 60 * 60 * 1000

  /**
   * The affix data: the start date (milliseconds) and the pair active
   * in the week before it, the affix pairs in rotation order, and a
   * description per affix.
   */
  datatype AffixData = AffixData(startDate: int, startPair: int, pairs: seq<seq<string>>, desc: map<string, string>)

  /** One step of the rotation: `++index`, back to 0 when it reaches `count`. */
  function Advance(index: int, count: int): (r: int)
    ensures 0 <= index < count ==> 0 <= r < count && r == (index + 1) % count
  {
    if index + 1 == count then 0 else index + 1
  }

  /** `n` steps of the rotation. */
  function AdvanceBy(index: int, count: int, n: nat): int
  {
    if n == 0 then index else Advance(AdvanceBy(index, count, n - 1), count)
  }

  /** From a valid index, every number of steps stays on the rotation. */
  lemma {:induction false} AdvanceByInRange(index: int, count: int, n: nat)
    requires 0 <= index < count
    ensures 0 <= AdvanceBy(index, count, n) < count
  {
    if n > 0 {
      AdvanceByInRange(index, count, n - 1);
    }
  }

  /** Before the end of the list is reached, `n` steps move `n` places on. */
  lemma {:induction false} AdvanceByStraight(index: int, count: int, n: nat)
    requires 0 <= index && index + n < count
    ensures AdvanceBy(index, count, n) == index + n
  {
    if n > 0 {
      AdvanceByStraight(index, count, n - 1);
    }
  }

  /** Steps compose: `a + b` steps are `a` steps followed by `b` more. */
  lemma {:induction false} AdvanceByAdd(index: int, count: int, a: nat, b: nat)
    ensures AdvanceBy(index, count, a + b) == AdvanceBy(AdvanceBy(index, count, a), count, b)
  {
    if b > 0 {
      AdvanceByAdd(index, count, a, b - 1);
    }
  }

  /** After as many steps as there are pairs, the rotation is back where it started. */
  lemma FullCircle(index: int, count: int)
    requires 0 <= index < count
    ensures AdvanceBy(index, count, count) == index
  {
    var toLast := count - 1 - index;
    AdvanceByStraight(index, count, toLast);
    AdvanceByAdd(index, count, toLast, 1);
    assert AdvanceBy(index, count, toLast + 1) == 0;
    AdvanceByAdd(index, count, toLast + 1, index);
    AdvanceByStraight(0, count, index);
  }

  /**
   * How often the do-while body runs: once, and then once more for each
   * further week whose end is still before `now`. It is the least `k >= 1`
   * with `start + k * Week >= now`.
   */
  function Steps(start: int, now: int): (k: nat)
    ensures k >= 1 && start + k * Week >= now
    ensures k == 1 || start + (k - 1) * Week < now
  {
    if now - start <= Week then 1 else (now - start + Week - 1) / Week
  }

  /**
   * `_findCurentAffixIndex()`, with the clock reading `now` as a parameter:
   * step the index at least once, then again while a further week has
   * passed.
   */
  method FindCurrentAffixIndex(data: AffixData, now: int) returns (index: int)
    ensures index == AdvanceBy(data.startPair, |data.pairs|, Steps(data.startDate, now))
  {
    var date := data.startDate;
    index := data.startPair;
    ghost var k: nat := 0;
    index := Advance(index, |data.pairs|);
    date := date + Week;
    k := k + 1;
    while date < now
      invariant k >= 1 && date == data.startDate + k * Week
      invariant index == AdvanceBy(data.startPair, |data.pairs|, k)
      invariant k == 1 || data.startDate + (k - 1) * Week < now
      decreases now - date
    {
      index := Advance(index, |data.pairs|);
      date := date + Week;
      k := k + 1;
    }
    StepsUnique(data.startDate, now, k);
  }

  /** The step count is the only `k` with the two properties of `Steps`. */
  lemma StepsUnique(start: int, now: int, k: nat)
    requires k >= 1 && start + k * Week >= now
    requires k == 1 || start + (k - 1) * Week < now
    ensures k == Steps(start, now)
  {
  }

  /** With a start pair on the rotation, the current index is always a valid pair. */
  lemma CurrentIndexInRange(data: AffixData, now: int)
    requires 0 <= data.startPair < |data.pairs|
    ensures 0 <= AdvanceBy(data.startPair, |data.pairs|, Steps(data.startDate, now)) < |data.pairs|
  {
    AdvanceByInRange(data.startPair, |data.pairs|, Steps(data.startDate, now));
  }

  /** A week later, the rotation is one pair further on. */
  lemma NextWeekAdvances(data: AffixData, now: int)
    requires now > data.startDate
    ensures Steps(data.startDate, now + Week) == Steps(data.startDate, now) + 1
  {
    var k := Steps(data.startDate, now);
    StepsUnique(data.startDate, now + Week, k + 1);
  }

  /** `_getAffix(index)`: the pair at `index`, or `undefined` outside the list. */
  function GetAffix(data: AffixData, index: int): (pair: Option<seq<string>>)
    ensures pair.Some? <==> 0 <= index < |data.pairs|
    ensures pair.Some? ==> pair.value == data.pairs[index]
  {
    if 0 <= index < |data.pairs| then Some(data.pairs[index]) else None
  }

  /** `_findNextAffix()`: the pair after the current one, wrapping to the first. */
  method FindNextAffix(data: AffixData, now: int) returns (pair: Option<seq<string>>)
    ensures pair == GetAffix(data, AdvanceBy(data.startPair, |data.pairs|, Steps(data.startDate, now) + 1))
  {
    var index := FindCurrentAffixIndex(data, now);
    index := index + 1;
    if index == |data.pairs| {
      index := 0;
    }
    pair := GetAffix(data, index);
  }

  // ---------------------------------------------------------------- rendering

  /** `Affixes.desc[affix]` in a template string: `undefined` when missing. */
  function Describe(desc: map<string, string>, affix: string): string
  {
    if affix in desc then desc[affix] else "undefined"
  }

  /** The block for one affix: its name in bold, then its description in italics. */
  function Block(desc: map<string, string>, affix: string): (b: string)
    ensures StartsWith(b, "**" + affix + "**\n    _")
    ensures EndsWith(b, Describe(desc, affix) + "_\n")
  {
    "**" + affix + "**\n    _" + Describe(desc, affix) + "_\n"
  }

  function Blocks(desc: map<string, string>, affixes: seq<string>): (bs: seq<string>)
    ensures |bs| == |affixes|
    ensures forall i :: 0 <= i < |affixes| ==> bs[i] == Block(desc, affixes[i])
  {
    seq(|affixes|, i requires 0 <= i < |affixes| => Block(desc, affixes[i]))
  }

  /** `_renderAffix(affixPairs)`: the blocks appended in input order. */
  method RenderAffix(desc: map<string, string>, affixes: seq<string>) returns (ret: string)
    ensures ret == Concat(Blocks(desc, affixes))
  {
    ret := "";
    var i := 0;
    while i < |affixes|
      invariant 0 <= i <= |affixes|
      invariant ret == Concat(Blocks(desc, affixes)[..i])
    {
      ConcatPrefix(Blocks(desc, affixes), i);
      ret := ret + Block(desc, affixes[i]);
      i := i + 1;
    }
    assert Blocks(desc, affixes)[..i] == Blocks(desc, affixes);
  }

  /**
   * Rendering splits along the input: the text for a list is the text for
   * its front followed by the block of the last affix.
   */
  lemma RenderInOrder(desc: map<string, string>, affixes: seq<string>)
    requires affixes != []
    ensures Concat(Blocks(desc, affixes))
            == Concat(Blocks(desc, affixes[..|affixes| - 1])) + Block(desc, affixes[|affixes| - 1])
  {
    assert Blocks(desc, affixes)[..|affixes| - 1] == Blocks(desc, affixes[..|affixes| - 1]);
  }
}

=== FILE: ordered_dict.dfy ===
/**
 * A plain JavaScript object used as a dictionary with string keys.
 * Own property keys are enumerated in insertion order, assigning to an
 * existing key keeps its position, and `delete` drops the key.
 */
module OrderedDict {

  datatype Dict<V> = Dict(keys: seq<string>, vals: map<string, V>)
  {
    /** Keys are distinct and are exactly the keys that carry a value. */
    ghost predicate Valid()
    {
      (forall i, j :: 0 <= i < j < |keys| ==> keys[i] != keys[j])
      && (forall k :: k in keys ==> k in vals)
      && (forall k :: k in vals ==> k in keys)
    }

    predicate Has(k: string) { k in vals }

    /** `obj[k] = v` */
    function Put(k: string, v: V): (d: Dict<V>)
      ensures d.vals == vals[k := v]
      ensures k in vals ==> d.keys == keys
      ensures k !in vals ==> d.keys == keys + [k]
    {
      Dict(if k in vals then keys else keys + [k], vals[k := v])
    }

    /** `delete obj[k]` */
    function Remove(k: string): (d: Dict<V>)
      ensures d.vals == vals - {k}
      ensures d.keys == Without(keys, k)
    {
      Dict(Without(keys, k), vals - {k})
    }

    /** `Object.keys(obj).length` */
    function Size(): nat { |keys| }
  }

  /** `{}` */
  function Empty<V>(): (d: Dict<V>)
    ensures d.Valid() && d.keys == [] && d.vals == map[]
  {
    Dict([], map[])
  }

  /** The keys of `s` other than `k`, in order. */
  function Without(s: seq<string>, k: string): (r: seq<string>)
    ensures k !in r
    ensures forall x :: x in r <==> x in s && x != k
    ensures |r| <= |s|
  {
    if s == [] then []
    else if s[0] == k then Without(s[1..], k)
    else [s[0]] + Without(s[1..], k)
  }

  ghost predicate Distinct(s: seq<string>)
  {
    forall i, j :: 0 <= i < j < |s| ==> s[i] != s[j]
  }

  lemma {:induction false} WithoutDistinct(s: seq<string>, k: string)
    requires Distinct(s)
    ensures Distinct(Without(s, k))
    decreases |s|
  {
    if s != [] {
      WithoutDistinct(s[1..], k);
      forall j | 0 <= j < |s| - 1 ensures s[1..][j] != s[0] {
        assert s[1..][j] == s[j + 1];
      }
      assert s[0] !in s[1..];
    }
  }

  /** Assigning a key twice leaves only the second value, at the first assignment's position. */
  lemma PutTwice<V>(d: Dict<V>, k: string, v1: V, v2: V)
    ensures d.Put(k, v1).Put(k, v2) == d.Put(k, v2)
  {
    assert d.vals[k := v1][k := v2] == d.vals[k := v2];
  }

  lemma PutValid<V>(d: Dict<V>, k: string, v: V)
    requires d.Valid()
    ensures d.Put(k, v).Valid()
  {
  }

  lemma RemoveValid<V>(d: Dict<V>, k: string)
    requires d.Valid()
    ensures d.Remove(k).Valid()
  {
    WithoutDistinct(d.keys, k);
  }

  /** Removing a key that is absent changes nothing. */
  lemma RemoveAbsent<V>(d: Dict<V>, k: string)
    requires d.Valid() && !d.Has(k)
    ensures d.Remove(k) == d
  {
    WithoutAbsent(d.keys, k);
  }

  lemma {:induction false} WithoutAbsent(s: seq<string>, k: string)
    requires k !in s
    ensures Without(s, k) == s
    decreases |s|
  {
    if s != [] {
      WithoutAbsent(s[1..], k);
    }
  }
}

=== FILE: player_attendance.dfy ===
/**
 * The per-player record of the attendance report: a record with fixed
 * defaults that the caller's fields override one by one.
 */
module PlayerRecords {
  import opened Js

  datatype RaidTally = RaidTally(ids: seq<string>, missed: seq<string>, possible: int, num: int, pct: int)
  datatype FightTally = FightTally(num: int, pct: int)

  datatype Player = Player(
    name: string,
    firstAttendance: int,
    lastAttendance: int,
    firstReport: Option<string>,
    raids: RaidTally,
    fights: FightTally)

  /** The fields a caller may hand to the constructor; a missing one keeps its default. */
  datatype PlayerData = PlayerData(
    name: Option<string>,
    firstAttendance: Option<int>,
    lastAttendance: Option<int>,
    firstReport: Option<string>,
    raids: Option<RaidTally>,
    fights: Option<FightTally>)

  const NoData := PlayerData(None, None, None, None, None, None)

  function Pick<T>(given: Option<T>, default: T): T
  {
    if given.Some? then given.value else default
  }

  /**
   * `new PlayerAttendance(data)`: an empty name, zero dates, empty raid and
   * fight tallies, then every supplied field replacing the default whole.
   */
  function NewPlayer(data: PlayerData): (p: Player)
    ensures data.name.None? ==> p.name == ""
    ensures data.name.Some? ==> p.name == data.name.value
    ensures data.firstAttendance.None? ==> p.firstAttendance == 0
    ensures data.firstAttendance.Some? ==> p.firstAttendance == data.firstAttendance.value
    ensures data.lastAttendance.None? ==> p.lastAttendance == 0
    ensures data.lastAttendance.Some? ==> p.lastAttendance == data.lastAttendance.value
    ensures p.firstReport == data.firstReport
    ensures data.raids.None? ==> p.raids == RaidTally([], [], 0, 0, 0)
    ensures data.raids.Some? ==> p.raids == data.raids.value
    ensures data.fights.None? ==> p.fights == FightTally(0, 0)
    ensures data.fights.Some? ==> p.fights == data.fights.value
  {
    Player(
      Pick(data.name, ""),
      Pick(data.firstAttendance, 0),
      Pick(data.lastAttendance, 0),
      data.firstReport,
      Pick(data.raids, RaidTally([], [], 0, 0, 0)),
      Pick(data.fights, FightTally(0, 0)))
  }

  /** With no data at all every field has its default. */
  lemma EmptyPlayer()
    ensures NewPlayer(NoData) == Player("", 0, 0, None, RaidTally([], [], 0, 0, 0), FightTally(0, 0))
  {
  }

  /**
   * Overriding is shallow: supplying only a name, dates and a report leaves
   * both tallies at their defaults.
   */
  lemma OverrideIsShallow(name: string, start: int, report: string)
    ensures var p := NewPlayer(PlayerData(Some(name), Some(start), None, Some(report), None, None));
            p.name == name && p.firstAttendance == start && p.lastAttendance == 0
            && p.raids == RaidTally([], [], 0, 0, 0) && p.fights == FightTally(0, 0)
  {
  }
}

=== FILE: raffle_rolls.dfy ===
/**
 * The rolls of a raffle, shared by both raffle classes: one roll per user
 * id, kept in an object in the order the users rolled.
 */
module RaffleRolls {
  import opened Js
  import opened OrderedDict
  import opened Chat

  datatype Roll = Roll(user: User, time: int, dice: int)

  /** `rolls`: user id to that user's roll. */
  type Rolls = Dict<Roll>

  const AlreadyRolled := ErrorObject("User already rolled; this shouldn't happen.")

  /** What `getRoll(user)` returns: `false`, the user's roll, or (without a user) all rolls. */
  datatype Lookup = NotRolled | Found(roll: Roll) | All(rolls: Rolls)

  /** `getRoll(user)`; `None` is a missing (falsy) user. */
  function GetRoll(rolls: Rolls, user: Option<User>): (r: Lookup)
    ensures user.None? <==> r.All?
    ensures r.All? ==> r.rolls == rolls
    ensures user.Some? ==> (r.Found? <==> user.value.id in rolls.vals)
    ensures r.Found? ==> r.roll == rolls.vals[user.value.id]
  {
    match user
    case None => All(rolls)
    case Some(u) => if u.id in rolls.vals then Found(rolls.vals[u.id]) else NotRolled
  }

  /** `addRoll(user, dice)` at clock reading `now`: a second roll by the same id throws. */
  function AddRoll(rolls: Rolls, user: User, dice: int, now: int): (r: Result<Rolls, Thrown>)
    ensures r.Err? <==> user.id in rolls.vals
    ensures r.Err? ==> r.error == AlreadyRolled
  {
    if GetRoll(rolls, Some(user)).Found? then Err(AlreadyRolled)
    else Ok(rolls.Put(user.id, Roll(user, now, dice)))
  }

  /**
   * A roll that is accepted adds exactly one entry, at the end, for that
   * user: afterwards the user's roll is found with that dice, and every
   * other user's lookup is as before.
   */
  lemma AddRollAddsOne(rolls: Rolls, user: User, dice: int, now: int, other: User)
    requires rolls.Valid()
    requires AddRoll(rolls, user, dice, now).Ok?
    ensures var after := AddRoll(rolls, user, dice, now).value;
            after.Valid()
            && after.keys == rolls.keys + [user.id]
            && GetRoll(after, Some(user)) == Found(Roll(user, now, dice))
            && (other.id != user.id ==> GetRoll(after, Some(other)) == GetRoll(rolls, Some(other)))
  {
    PutValid(rolls, user.id, Roll(user, now, dice));
  }

  /** After a user has rolled, any further roll under the same id is refused. */
  lemma SecondRollRefused(rolls: Rolls, user: User, dice: int, now: int, again: User, dice2: int, later: int)
    requires AddRoll(rolls, user, dice, now).Ok?
    requires again.id == user.id
    ensures AddRoll(AddRoll(rolls, user, dice, now).value, again, dice2, later) == Err(AlreadyRolled)
  {
  }
}

=== FILE: raid_stats.dfy ===
/**
 * Kill and wipe bookkeeping over Warcraft Logs combat reports: per boss
 * name and difficulty, a tally of kills, wipes before the first kill and
 * the time of the first kill, and a run-length timeline of kills and wipes.
 */
module RaidStats {
  import opened Js
  import opened OrderedDict
  import opened BossNames

  /** One fight of a combat report. */
  datatype Fight = Fight(
    id: int,
    boss: int,
    name: string,
    difficulty: int,
    kill: bool,
    bossPercentage: int,
    startTime: int,
    endTime: int)

  /** A player or other actor present in a report, with the fights it took part in. */
  datatype Friendly = Friendly(name: string, kind: string, fightIds: seq<int>)

  datatype Report = Report(id: string, start: int, title: string, fights: seq<Fight>, friendlies: seq<Friendly>)

  /**
   * The difficulty's key: 3, 4 and 5 are named, any other code looks up
   * nothing and the property key becomes "undefined".
   */
  function DifficultyName(code: int): (s: string)
    ensures code == 3 <==> s == "Normal"
    ensures code == 4 <==> s == "Heroic"
    ensures code == 5 <==> s == "Mythic"
    ensures code !in {3, 4, 5} <==> s == "undefined"
  {
    if code == 3 then "Normal"
    else if code == 4 then "Heroic"
    else if code == 5 then "Mythic"
    else "undefined"
  }

  const NoMatch := Text("no bosses found matching that text.")

  /** A fight that is looked at: a real boss whose name matches. */
  predicate Counted(names: seq<string>, f: Fight)
  {
    f.boss != 0 && Matches(names, f.name)
  }

  /** A counted fight of the boss `name` on difficulty `diff`. */
  predicate Relevant(names: seq<string>, f: Fight, name: string, diff: string)
  {
    Counted(names, f) && f.name == name && DifficultyName(f.difficulty) == diff
  }

  /** The counted fights of one boss and difficulty, in order. */
  function RelevantFights(names: seq<string>, fs: seq<Fight>, name: string, diff: string): (r: seq<Fight>)
    ensures |r| <= |fs|
  {
    if fs == [] then []
    else if Relevant(names, fs[0], name, diff) then [fs[0]] + RelevantFights(names, fs[1..], name, diff)
    else RelevantFights(names, fs[1..], name, diff)
  }

  // ---------------------------------------------------------------- kill counts

  datatype KillStats = KillStats(firstKill: int, kills: nat, wipes: nat)

  const ZeroStats := KillStats(0, 0, 0)

  /** Boss name, then difficulty, then the tally. */
  type Tally = Dict<Dict<KillStats>>

  function StatsOf(t: Tally, name: string, diff: string): KillStats
  {
    if name in t.vals && diff in t.vals[name].vals then t.vals[name].vals[diff] else ZeroStats
  }

  /**
   * One fight's effect on its tally: a kill counts, and the first one
   * stamps the report start plus the fight's start; a fight with the boss
   * not at zero health counts as a wipe only while there is no kill yet.
   */
  function Update(s: KillStats, start: int, f: Fight): (r: KillStats)
    ensures r.kills == s.kills + (if f.kill then 1 else 0)
  {
    if f.kill then
      KillStats(if s.kills == 0 then start + f.startTime else s.firstKill, s.kills + 1, s.wipes)
    else if f.bossPercentage > 0 && s.kills == 0 then
      s.(wipes := s.wipes + 1)
    else s
  }

  /** One pass of the loop of `_getKillCountEx`. */
  function KillStep(t: Tally, names: seq<string>, start: int, f: Fight): Tally
  {
    if !Counted(names, f) then t
    else
      var diff := DifficultyName(f.difficulty);
      var inner := if f.name in t.vals then t.vals[f.name] else Empty();
      t.Put(f.name, inner.Put(diff, Update(StatsOf(t, f.name, diff), start, f)))
  }

  function KillFold(t: Tally, names: seq<string>, start: int, fs: seq<Fight>): Tally
    decreases |fs|
  {
    if fs == [] then t else KillFold(KillStep(t, names, start, fs[0]), names, start, fs[1..])
  }

  /** The updates one boss and difficulty sees, one fight after the other. */
  function UpdateAll(s: KillStats, start: int, fs: seq<Fight>): KillStats
    decreases |fs|
  {
    if fs == [] then s else UpdateAll(Update(s, start, fs[0]), start, fs[1..])
  }

  /** A step only changes the tally of its own fight's boss and difficulty. */
  lemma StepStats(t: Tally, names: seq<string>, start: int, f: Fight, name: string, diff: string)
    ensures StatsOf(KillStep(t, names, start, f), name, diff)
            == if Relevant(names, f, name, diff) then Update(StatsOf(t, name, diff), start, f) else StatsOf(t, name, diff)
  {
  }

  /** Over a report, each tally sees exactly the counted fights of its boss and difficulty. */
  lemma {:induction false} FoldStats(t: Tally, names: seq<string>, start: int, fs: seq<Fight>, name: string, diff: string)
    ensures StatsOf(KillFold(t, names, start, fs), name, diff)
            == UpdateAll(StatsOf(t, name, diff), start, RelevantFights(names, fs, name, diff))
    decreases |fs|
  {
    if fs != [] {
      StepStats(t, names, start, fs[0], name, diff);
      FoldStats(KillStep(t, names, start, fs[0]), names, start, fs[1..], name, diff);
    }
  }

  function KillsIn(fs: seq<Fight>): nat
  {
    if fs == [] then 0 else (if fs[0].kill then 1 else 0) + KillsIn(fs[1..])
  }

  /** The fights before the first kill. */
  function BeforeFirstKill(fs: seq<Fight>): seq<Fight>
  {
    if fs == [] || fs[0].kill then [] else [fs[0]] + BeforeFirstKill(fs[1..])
  }

  /** The fights that end with the boss above zero health and are not kills. */
  function WipesIn(fs: seq<Fight>): nat
  {
    if fs == [] then 0 else (if !fs[0].kill && fs[0].bossPercentage > 0 then 1 else 0) + WipesIn(fs[1..])
  }

  function FirstKill(fs: seq<Fight>): (f: Option<Fight>)
    ensures f.Some? ==> f.value in fs && f.value.kill
    ensures f.None? <==> KillsIn(fs) == 0
  {
    if fs == [] then None else if fs[0].kill then Some(fs[0]) else FirstKill(fs[1..])
  }

  /** Every kill is counted. */
  lemma {:induction false} KillsCounted(s: KillStats, start: int, fs: seq<Fight>)
    ensures UpdateAll(s, start, fs).kills == s.kills + KillsIn(fs)
    decreases |fs|
  {
    if fs != [] {
      KillsCounted(Update(s, start, fs[0]), start, fs[1..]);
    }
  }

  /** Once there is a kill, neither the wipes nor the first-kill time move again. */
  lemma {:induction false} KilledStaysPut(s: KillStats, start: int, fs: seq<Fight>)
    requires s.kills > 0
    ensures UpdateAll(s, start, fs).wipes == s.wipes
    ensures UpdateAll(s, start, fs).firstKill == s.firstKill
    decreases |fs|
  {
    if fs != [] {
      KilledStaysPut(Update(s, start, fs[0]), start, fs[1..]);
    }
  }

  /**
   * From a tally with no kill: the wipes added are the wipes before the
   * first kill, and the first-kill time is that of the first killing fight.
   */
  lemma {:induction false} FirstKillStamped(s: KillStats, start: int, fs: seq<Fight>)
    requires s.kills == 0
    ensures UpdateAll(s, start, fs).wipes == s.wipes + WipesIn(BeforeFirstKill(fs))
    ensures FirstKill(fs).Some? ==> UpdateAll(s, start, fs).firstKill == start + FirstKill(fs).value.startTime
    ensures FirstKill(fs).None? ==> UpdateAll(s, start, fs).firstKill == s.firstKill
    decreases |fs|
  {
    if fs != [] {
      var s' := Update(s, start, fs[0]);
      if fs[0].kill {
        KilledStaysPut(s', start, fs[1..]);
      } else {
        FirstKillStamped(s', start, fs[1..]);
      }
    }
  }

  /** `_getKillCountEx(bossNames, current, report)`. */
  method GetKillCountEx(bossNames: seq<string>, current: Tally, report: Report) returns (r: Result<Tally, Thrown>)
    ensures r.Err? <==> forall i :: 0 <= i < |report.fights| ==> !Counted(Lowered(bossNames), report.fights[i])
    ensures r.Err? ==> r.error == NoMatch
    ensures r.Ok? ==> r.value == KillFold(current, Lowered(bossNames), report.start, report.fights)
  {
    var matcher := new BossNameMatcher(bossNames);
    var fights := report.fights;
    var bosses := current;
    var had := false;
    var i := 0;
    while i < |fights|
      invariant 0 <= i <= |fights|
      invariant matcher.Valid() && matcher.names == Lowered(bossNames)
      invariant KillFold(bosses, matcher.names, report.start, fights[i..])
                == KillFold(current, matcher.names, report.start, fights)
      invariant had <==> exists j :: 0 <= j < i && Counted(matcher.names, fights[j])
    {
      var f := fights[i];
      ghost var before := bosses;
      var counted := false;
      if f.boss != 0 {
        counted := matcher.Match(f.name);
      }
      assert counted == Counted(matcher.names, f);
      if counted {
        had := true;
        var diff := DifficultyName(f.difficulty);
        var inner := if f.name in bosses.vals then bosses.vals[f.name] else Empty();
        bosses := bosses.Put(f.name, inner.Put(diff, Update(StatsOf(bosses, f.name, diff), report.start, f)));
      }
      assert bosses == KillStep(before, matcher.names, report.start, f);
      assert KillFold(before, matcher.names, report.start, fights[i..])
             == KillFold(bosses, matcher.names, report.start, fights[i + 1..]) by {
        assert fights[i..][1..] == fights[i + 1..];
      }
      i := i + 1;
    }
    if !had {
      r := Err(NoMatch);
    } else {
      r := Ok(bosses);
    }
  }

  // ---------------------------------------------------------------- kill and wipe timeline

  datatype Event = Kill | Wipe

  /** One run of the timeline: `value` events of one type in a row. */
  datatype Entry = Entry(kind: Event, value: nat)

  type Timelines = Dict<Dict<seq<Entry>>>

  /** A kill, or a wipe that left the boss above zero and lasted more than ten time units. */
  function EventOf(f: Fight): Option<Event>
  {
    if f.kill then Some(Kill)
    else if f.bossPercentage > 0 && f.endTime - f.startTime > 10 then Some(Wipe)
    else None
  }

  /** Record one event: bump the last run if it has the same type, else start a run. */
  function Append(t: seq<Entry>, e: Event): (r: seq<Entry>)
    ensures |r| == |t| || |r| == |t| + 1
    ensures r != [] && r[|r| - 1].kind == e
  {
    if t != [] && t[|t| - 1].kind == e then t[..|t| - 1] + [Entry(e, t[|t| - 1].value + 1)]
    else t + [Entry(e, 1)]
  }

  /** A timeline in run-length form: non-empty runs, no two neighbours of one type. */
  ghost predicate RunLength(t: seq<Entry>)
  {
    && (forall i :: 0 <= i < |t| ==> t[i].value >= 1)
    && (forall i :: 0 <= i < |t| - 1 ==> t[i].kind != t[i + 1].kind)
  }

  function Repeat(e: Event, n: nat): (r: seq<Event>)
    ensures |r| == n
    ensures forall i :: 0 <= i < n ==> r[i] == e
  {
    if n == 0 then [] else Repeat(e, n - 1) + [e]
  }

  /** The events a timeline stands for, in order. */
  function Expand(t: seq<Entry>): seq<Event>
  {
    if t == [] then [] else Expand(t[..|t| - 1]) + Repeat(t[|t| - 1].kind, t[|t| - 1].value)
  }

  lemma AppendRunLength(t: seq<Entry>, e: Event)
    requires RunLength(t)
    ensures RunLength(Append(t, e))
  {
  }

  /** Appending an event to a timeline appends it to the events it stands for. */
  lemma AppendExpand(t: seq<Entry>, e: Event)
    ensures Expand(Append(t, e)) == Expand(t) + [e]
  {
    var r := Append(t, e);
    if t != [] && t[|t| - 1].kind == e {
      var last := t[|t| - 1];
      assert r[..|r| - 1] == t[..|t| - 1];
      assert Repeat(e, last.value + 1) == Repeat(e, last.value) + [e];
    } else {
      assert r[..|r| - 1] == t;
    }
  }

  function TimelineOf(w: Timelines, name: string, diff: string): seq<Entry>
  {
    if name in w.vals && diff in w.vals[name].vals then w.vals[name].vals[diff] else []
  }

  /** One pass of the loop of `_getWipeCount`: the entry exists even when the fight is no event. */
  function WipeStep(w: Timelines, names: seq<string>, f: Fight): Timelines
  {
    if !Counted(names, f) then w
    else
      var diff := DifficultyName(f.difficulty);
      var inner := if f.name in w.vals then w.vals[f.name] else Empty();
      var t := TimelineOf(w, f.name, diff);
      var t' := match EventOf(f) case None => t case Some(e) => Append(t, e);
      w.Put(f.name, inner.Put(diff, t'))
  }

  function WipeFold(w: Timelines, names: seq<string>, fs: seq<Fight>): Timelines
    decreases |fs|
  {
    if fs == [] then w else WipeFold(WipeStep(w, names, fs[0]), names, fs[1..])
  }

  /** The events of a run of fights, in order, fights that are neither dropped. */
  function Events(fs: seq<Fight>): seq<Event>
  {
    if fs == [] then []
    else match EventOf(fs[0])
      case None => Events(fs[1..])
      case Some(e) => [e] + Events(fs[1..])
  }

  function AppendAll(t: seq<Entry>, fs: seq<Fight>): seq<Entry>
    decreases |fs|
  {
    if fs == [] then t
    else AppendAll(match EventOf(fs[0]) case None => t case Some(e) => Append(t, e), fs[1..])
  }

  lemma {:induction false} FoldTimeline(w: Timelines, names: seq<string>, fs: seq<Fight>, name: string, diff: string)
    ensures TimelineOf(WipeFold(w, names, fs), name, diff)
            == AppendAll(TimelineOf(w, name, diff), RelevantFights(names, fs, name, diff))
    decreases |fs|
  {
    if fs != [] {
      FoldTimeline(WipeStep(w, names, fs[0]), names, fs[1..], name, diff);
    }
  }

  /** Appending a run of fights keeps the run-length form. */
  lemma {:induction false} AppendAllRunLength(t: seq<Entry>, fs: seq<Fight>)
    requires RunLength(t)
    ensures RunLength(AppendAll(t, fs))
    decreases |fs|
  {
    if fs != [] {
      match EventOf(fs[0])
      case None =>
        AppendAllRunLength(t, fs[1..]);
      case Some(e) =>
        AppendRunLength(t, e);
        AppendAllRunLength(Append(t, e), fs[1..]);
    }
  }

  /** Appending a run of fights adds exactly their events, in order. */
  lemma {:induction false} AppendAllExpand(t: seq<Entry>, fs: seq<Fight>)
    ensures Expand(AppendAll(t, fs)) == Expand(t) + Events(fs)
    decreases |fs|
  {
    if fs != [] {
      match EventOf(fs[0])
      case None =>
        AppendAllExpand(t, fs[1..]);
      case Some(e) =>
        AppendExpand(t, e);
        AppendAllExpand(Append(t, e), fs[1..]);
        assert Events(fs) == [e] + Events(fs[1..]);
        assert (Expand(t) + [e]) + Events(fs[1..]) == Expand(t) + ([e] + Events(fs[1..]));
    }
  }

  /**
   * Over a report, each timeline stays in run-length form and grows by the
   * events of exactly the counted fights of its boss and difficulty.
   */
  lemma TimelineGrows(w: Timelines, names: seq<string>, fs: seq<Fight>, name: string, diff: string)
    requires RunLength(TimelineOf(w, name, diff))
    ensures RunLength(TimelineOf(WipeFold(w, names, fs), name, diff))
    ensures Expand(TimelineOf(WipeFold(w, names, fs), name, diff))
            == Expand(TimelineOf(w, name, diff)) + Events(RelevantFights(names, fs, name, diff))
  {
    FoldTimeline(w, names, fs, name, diff);
    AppendAllRunLength(TimelineOf(w, name, diff), RelevantFights(names, fs, name, diff));
    AppendAllExpand(TimelineOf(w, name, diff), RelevantFights(names, fs, name, diff));
  }

  /** `_getWipeCount(bossNames, current, report)`. */
  method GetWipeCount(bossNames: seq<string>, current: Timelines, report: Report) returns (r: Result<Timelines, Thrown>)
    ensures r.Err? <==> forall i :: 0 <= i < |report.fights| ==> !Counted(Lowered(bossNames), report.fights[i])
    ensures r.Err? ==> r.error == NoMatch
    ensures r.Ok? ==> r.value == WipeFold(current, Lowered(bossNames), report.fights)
  {
    var matcher := new BossNameMatcher(bossNames);
    var fights := report.fights;
    var bosses := current;
    var had := false;
    var i := 0;
    while i < |fights|
      invariant 0 <= i <= |fights|
      invariant matcher.Valid() && matcher.names == Lowered(bossNames)
      invariant WipeFold(bosses, matcher.names, fights[i..]) == WipeFold(current, matcher.names, fights)
      invariant had <==> exists j :: 0 <= j < i && Counted(matcher.names, fights[j])
    {
      var f := fights[i];
      ghost var before := bosses;
      var counted := false;
      if f.boss != 0 {
        counted := matcher.Match(f.name);
      }
      assert counted == Counted(matcher.names, f);
      if counted {
        had := true;
        var diff := DifficultyName(f.difficulty);
        var inner := if f.name in bosses.vals then bosses.vals[f.name] else Empty();
        var t := TimelineOf(bosses, f.name, diff);
        match EventOf(f)
        case None =>
          bosses := bosses.Put(f.name, inner.Put(diff, t));
        case Some(e) =>
          bosses := bosses.Put(f.name, inner.Put(diff, Append(t, e)));
      }
      assert bosses == WipeStep(before, matcher.names, f);
      assert WipeFold(before, matcher.names, fights[i..]) == WipeFold(bosses, matcher.names, fights[i + 1..]) by {
        assert fights[i..][1..] == fights[i + 1..];
      }
      i := i + 1;
    }
    if !had {
      r := Err(NoMatch);
    } else {
      r := Ok(bosses);
    }
  }

  // ---------------------------------------------------------------- the command

  /** What a `!kills` or `!knw` message goes on to fetch and assemble. */
  datatype Query = KillCounts(bosses: seq<string>) | KillTimeline(bosses: seq<string>) | NoQuery

  /**
   * The guard of `Message`: no boss text is refused before anything is
   * fetched; `kills` and `knw` pick the report, other triggers answer nothing.
   */
  function MessageQuery(params: seq<string>, trigger: string): (r: Result<Query, Thrown>)
    ensures params == [] <==> r == Err(Text("which boss?"))
    ensures params != [] && trigger == "kills" ==> r == Ok(KillCounts(params))
    ensures params != [] && trigger == "knw" ==> r == Ok(KillTimeline(params))
    ensures params != [] && trigger != "kills" && trigger != "knw" ==> r == Ok(NoQuery)
  {
    if params == [] then Err(Text("which boss?"))
    else if trigger == "kills" then Ok(KillCounts(params))
    else if trigger == "knw" then Ok(KillTimeline(params))
    else Ok(NoQuery)
  }
}

=== FILE: rekt.dfy ===
/**
 * The `!rekt` command: a check-box list headed by an unticked "Not REKT"
 * and followed by a ticked line for each of a few entries of a fixed list,
 * taken from the front of a shuffled copy.
 */
module Rekt {
  import opened Js

  /** The fixed list of 88 entries. */
  const Rekts: seq<string> := [
    "REKT",
    "Really Rekt",
    "REKTangle",
    "SHREKT",
    "REKT-it Ralph",
    "Total REKTall",
    "The Lord of the REKT",
    "The Usual SusREKTs",
    "North by NorthREKT",
    "REKT to the Future",
    "Once Upon a Time in the REKT",
    "Full mast erektion",
    "Rektum",
    "Resurrekt",
    "CorRekt",
    "Indirekt",
    "Tyrannosaurus Rekt",
    "Cash4Rekt.com",
    "Grapes of Rekt",
    "Ship Rekt",
    "Rekt markes the spot",
    "Caught rekt handed",
    "The Rekt Side Story",
    "Singin' In The Rekt",
    "Painting The Roses Rekt",
    "Rekt Van Winkle",
    "Parks and Rekt",
    "Lord of the Rekts: The Reking of the King",
    "Star Trekt",
    "The Rekt Prince of Bel-Air",
    "A Game of Rekt",
    "Rektflix",
    "Rekt it like it's hot",
    "RektBox 360",
    "The Rekt-men",
    "School Of Rekt",
    "I am Fire, I am Rekt",
    "Rekt and Roll",
    "Professor Rekt",
    "Catcher in the Rekt",
    "Rekt-22",
    "Harry Potter: The Half-Rekt Prince",
    "Great Rektspectations",
    "Paper Scissors Rekt",
    "RektCraft",
    "Grand Rekt Auto V",
    "Call of Rekt: Modern Reking 2",
    "Legend Of Zelda: Ocarina of Rekt",
    "Rekt It Ralph",
    "Left 4 Rekt",
    "2 Girls 1 Rekt",
    "Pokemon: Fire Rekt",
    "The Shawshank Rektemption",
    "The Rektfather",
    "The Rekt Knight",
    "Fiddler on the Rekt",
    "The Rekt Files",
    "The Good, the Bad, and The Rekt",
    "Forrekt Gump",
    "The Silence of the Rekts",
    "The Green Rekt",
    "Gladirekt",
    "Spirekted Away",
    "Terminator 2: Rektment Day",
    "The Rekt Knight Rises",
    "The Rekt King",
    "REKT-E",
    "Citizen Rekt",
    "Requiem for a Rekt",
    "REKT TO REKT ass to ass",
    "Star Wars: Episode VI - Return of the Rekt",
    "Braverekt",
    "Batrekt Begins",
    "2001: A Rekt Odyssey",
    "The Wolf of Rekt Street",
    "Rekt's Labyrinth",
    "12 Years a Rekt",
    "Gravirekt",
    "Finding Rekt",
    "The Arekters",
    "There Will Be Rekt",
    "Christopher Rektellston",
    "Hachi: A Rekt Tale",
    "The Rekt Ultimatum",
    "Shrekt",
    "Rektal Exam",
    "Rektium for a Dream",
    "Erektile Dysfunction"
  ]

  const Header := "\n\n\U{2610} Not REKT\n"
  const Tick := "\U{2612} "

  function Min(a: int, b: int): int { if a < b then a else b }

  /**
   * `howManyRekts` as written: 3 by default, otherwise the parsed first
   * parameter less one, capped at 10; `None` is `NaN`.
   */
  function RequestedCount(params: seq<string>): (r: Option<int>)
    ensures params == [] ==> r == Some(3)
    ensures params != [] ==> (r.None? <==> ParseInt(params[0]).None?)
    ensures r.Some? ==> r.value <= 10
    ensures params != [] && ParseInt(params[0]).Some? && ParseInt(params[0]).value <= 11 ==>
              r == Some(ParseInt(params[0]).value - 1)
    ensures params != [] && ParseInt(params[0]).Some? && ParseInt(params[0]).value > 11 ==> r == Some(10)
  {
    if params == [] then Some(3)
    else match ParseInt(params[0])
      case None => None
      case Some(n) => Some(Min(n - 1, 10))
  }

  /**
   * The end index `array.slice(0, end)` uses on an array of length `len`:
   * `NaN` counts as 0, a negative end counts from the back, a large one
   * stops at the length.
   */
  function SliceEnd(len: nat, end: Option<int>): (k: nat)
    ensures k <= len
    ensures end.None? ==> k == 0
    ensures end.Some? && 0 <= end.value <= len ==> k == end.value
    ensures end.Some? && end.value > len ==> k == len
    ensures end.Some? && end.value < 0 ==> k + Min(-end.value, len) == len
  {
    match end
    case None => 0
    case Some(e) =>
      if e > len then len
      else if e >= 0 then e
      else if len + e > 0 then len + e
      else 0
  }

  /** `.map(v => '\U{2612} ' + v)` */
  function Ticked(vs: seq<string>): (r: seq<string>)
    ensures |r| == |vs|
    ensures forall i :: 0 <= i < |vs| ==> r[i] == Tick + vs[i]
  {
    seq(|vs|, i requires 0 <= i < |vs| => Tick + vs[i])
  }

  // ---------------------------------------------------------------- as written

  /** `_pickRekts(params)` as written, `shuffled` standing for `shuffle(this.rekts)`. */
  function PickRektsAsWritten(params: seq<string>, shuffled: seq<string>): (s: string)
    ensures StartsWith(s, Header)
  {
    Header + Join(Ticked(shuffled[..SliceEnd(|shuffled|, RequestedCount(params))]), "\n")
  }

  /**
   * Asking for zero entries asks `slice` for the end index -1, which is
   * every entry but the last: `!rekt 0` lists 87 entries instead of none.
   */
  lemma ZeroListsAllButOne(shuffled: seq<string>)
    requires |shuffled| == |Rekts|
    ensures PickRektsAsWritten(["0"], shuffled) == Header + Join(Ticked(shuffled[..87]), "\n")
  {
    ParseIntOfString(0);
    assert IntToString(0) == "0";
    assert RequestedCount(["0"]) == Some(-1);
    assert SliceEnd(|shuffled|, Some(-1)) == 87;
  }

  // ---------------------------------------------------------------- corrected

  /** How many entries are listed: the requested count, with nothing below zero. */
  function ListedCount(params: seq<string>): (k: nat)
    ensures k <= 10
    ensures params == [] ==> k == 3
    ensures params != [] && ParseInt(params[0]).None? ==> k == 0
    ensures params != [] && ParseInt(params[0]).Some? ==>
              var n := ParseInt(params[0]).value;
              (n < 1 ==> k == 0) && (1 <= n <= 11 ==> k == n - 1) && (n > 11 ==> k == 10)
  {
    match RequestedCount(params)
    case None => 0
    case Some(n) => if n < 0 then 0 else n
  }

  /** The entries listed: the front of the shuffled copy. */
  function Listed(params: seq<string>, shuffled: seq<string>): (r: seq<string>)
    ensures |r| == Min(ListedCount(params), |shuffled|)
    ensures r == shuffled[..|r|]
  {
    shuffled[..SliceEnd(|shuffled|, Some(ListedCount(params)))]
  }

  /** `_pickRekts(params)` with the count kept from going negative. */
  function PickRekts(params: seq<string>, shuffled: seq<string>): (s: string)
    ensures StartsWith(s, Header)
  {
    Header + Join(Ticked(Listed(params, shuffled)), "\n")
  }

  /** The fixed list is longer than any count, so exactly the counted entries are listed. */
  lemma ListsCount(params: seq<string>, shuffled: seq<string>)
    requires |shuffled| == |Rekts|
    ensures |Listed(params, shuffled)| == ListedCount(params)
  {
  }

  /** Within the range the list supports, the corrected count and the written one agree. */
  lemma CorrectedAgreesInRange(params: seq<string>, shuffled: seq<string>)
    requires |shuffled| >= 10
    requires params == [] || (ParseInt(params[0]).Some? && ParseInt(params[0]).value >= 1)
    ensures PickRekts(params, shuffled) == PickRektsAsWritten(params, shuffled)
  {
  }

  /** Splitting the list part at the newlines gives back one ticked line per listed entry. */
  lemma LinesOfPick(params: seq<string>, shuffled: seq<string>)
    requires ListedCount(params) > 0 && shuffled != []
    requires forall i :: 0 <= i < |shuffled| ==> '\n' !in shuffled[i]
    ensures Split(PickRekts(params, shuffled)[|Header|..], '\n') == Ticked(Listed(params, shuffled))
  {
    var lines := Ticked(Listed(params, shuffled));
    forall i | 0 <= i < |lines| ensures '\n' !in lines[i] {
      assert lines[i] == Tick + shuffled[i];
    }
    assert "\n" == ['\n'];
    SplitJoin(lines, '\n');
    assert PickRekts(params, shuffled)[|Header|..] == Join(lines, "\n");
  }

  /** A prefix holds no element more often than the whole sequence. */
  lemma PrefixWithin<T>(s: seq<T>, k: nat)
    requires k <= |s|
    ensures multiset(s[..k]) <= multiset(s)
  {
    assert s == s[..k] + s[k..];
  }

  /** Permutations have the same length. */
  lemma PermutationLength<T>(a: seq<T>, b: seq<T>)
    requires multiset(a) == multiset(b)
    ensures |a| == |b|
  {
    assert |a| == |multiset(a)| == |multiset(b)| == |b|;
  }

  /**
   * Every listed entry comes from the fixed list, and none is listed more
   * often than it occurs there.
   */
  lemma ListedFromFixedList(rekts: seq<string>, params: seq<string>, shuffled: seq<string>)
    requires multiset(shuffled) == multiset(rekts)
    ensures |shuffled| == |rekts|
    ensures multiset(Listed(params, shuffled)) <= multiset(rekts)
    ensures forall v :: v in Listed(params, shuffled) ==> v in rekts
  {
    PermutationLength(shuffled, rekts);
    var listed := Listed(params, shuffled);
    PrefixWithin(shuffled, |listed|);
    forall v | v in listed ensures v in rekts {
      assert v in multiset(listed);
    }
  }
}

=== FILE: roll.dfy ===
/**
 * The dice command: `!roll` within a range, and raffles per channel in
 * which everyone rolls once and the highest roll wins.
 */
module Roll {
  import opened Js
  import opened Chat
  import opened OrderedDict
  import opened Bot
  import opened RaffleRolls
  import UtilRaffle
  import UtilBreakTimer

  const MaxHigh := 1000
  const PleaseNumber := "Please enter a number"

  // ---------------------------------------------------------------- the range

  datatype Range = Range(low: int, high: int)

  function Min(a: int, b: int): int { if a < b then a else b }
  function Max(a: int, b: int): int { if a < b then b else a }

  /** `Math.min(bound, x)` and `Math.max(bound, x)`, where `NaN` (`None`) wins. */
  function MinNaN(bound: int, x: Option<int>): Option<int> { if x.Some? then Some(Min(bound, x.value)) else None }
  function MaxNaN(bound: int, x: Option<int>): Option<int> { if x.Some? then Some(Max(bound, x.value)) else None }

  /** The two ends before ordering: `[0, 100]`, `[0, min(1000, a)]` or `[max(0, a), min(1000, b)]`. */
  function Ends(params: seq<string>): (Option<int>, Option<int>)
  {
    if |params| == 1 then (Some(0), MinNaN(MaxHigh, ParseInt(params[0])))
    else if |params| > 1 then (MaxNaN(0, ParseInt(params[0])), MinNaN(MaxHigh, ParseInt(params[1])))
    else (Some(0), Some(100))
  }

  /**
   * The range `_rollDice` uses outside a raffle, as written: the ends are
   * clamped first and put in order afterwards; a non-number is refused.
   */
  function FreeRange(params: seq<string>): (r: Result<Range, Thrown>)
    ensures r.Err? <==> Ends(params).0.None? || Ends(params).1.None?
    ensures r.Err? ==> r.error == Text(PleaseNumber)
    ensures r.Ok? ==> r.value.low <= r.value.high
    ensures r.Ok? ==> r.value.low == Min(Ends(params).0.value, Ends(params).1.value)
                      && r.value.high == Max(Ends(params).0.value, Ends(params).1.value)
  {
    var (low, high) := Ends(params);
    if low.None? || high.None? then Err(Text(PleaseNumber))
    else Ok(Range(Min(low.value, high.value), Max(low.value, high.value)))
  }

  /** The steps of `_rollDice` on `result.low` and `result.high`, swap included. */
  method RollRange(params: seq<string>) returns (r: Result<Range, Thrown>)
    ensures r == FreeRange(params)
  {
    var low := Some(0);
    var high := Some(100);
    if |params| == 1 {
      high := MinNaN(MaxHigh, ParseInt(params[0]));
    } else if |params| > 1 {
      low := MaxNaN(0, ParseInt(params[0]));
      high := MinNaN(MaxHigh, ParseInt(params[1]));
    }
    if low.None? || high.None? {
      return Err(Text(PleaseNumber));
    }
    if low.value > high.value {
      var tmp := high;
      high := low;
      low := tmp;
    }
    r := Ok(Range(low.value, high.value));
  }

  /** Without parameters the range is 0 to 100. */
  lemma DefaultRange()
    ensures FreeRange([]) == Ok(Range(0, 100))
  {
  }

  /** One parameter `n` from 0 up sets the top to `min(1000, n)`. */
  lemma OneParamRange(p: string)
    requires ParseInt(p).Some? && ParseInt(p).value >= 0
    ensures FreeRange([p]) == Ok(Range(0, Min(MaxHigh, ParseInt(p).value)))
  {
  }

  /** Two parameters clamp the low end to 0 and the high end to 1000, then order them. */
  lemma TwoParamRange(a: string, b: string, rest: seq<string>)
    requires ParseInt(a).Some? && ParseInt(b).Some?
    ensures var low := Max(0, ParseInt(a).value);
            var high := Min(MaxHigh, ParseInt(b).value);
            FreeRange([a, b] + rest) == Ok(Range(Min(low, high), Max(low, high)))
  {
    assert ([a, b] + rest)[0] == a && ([a, b] + rest)[1] == b;
  }

  /** A parameter that is not a number is refused. */
  lemma NotANumberRefused(params: seq<string>)
    requires 1 <= |params| && ParseInt(params[0]).None?
    ensures FreeRange(params) == Err(Text(PleaseNumber))
  {
  }

  /**
   * Ordering after clamping lets reversed parameters escape the bounds:
   * a first number above 1000 with a second one in range becomes the top
   * of the range unclamped, as with `!roll 5000 10` (10 to 5000).
   */
  lemma ReversedParamsEscapeCap(a: string, b: string)
    requires ParseInt(a).Some? && ParseInt(b).Some?
    requires 0 <= ParseInt(b).value <= MaxHigh < ParseInt(a).value
    ensures FreeRange([a, b]) == Ok(Range(ParseInt(b).value, ParseInt(a).value))
    ensures FreeRange([a, b]).value.high > MaxHigh
  {
    TwoParamRange(a, b, []);
    assert [a, b] + [] == [a, b];
  }

  /**
   * Likewise a negative second number with a first one in range becomes the
   * bottom of the range unclamped, as with `!roll 400 -200` (-200 to 400).
   */
  lemma ReversedParamsEscapeFloor(a: string, b: string)
    requires ParseInt(a).Some? && ParseInt(b).Some?
    requires ParseInt(b).value < 0 <= ParseInt(a).value <= MaxHigh
    ensures FreeRange([a, b]) == Ok(Range(ParseInt(b).value, ParseInt(a).value))
    ensures FreeRange([a, b]).value.low < 0
  {
    TwoParamRange(a, b, []);
    assert [a, b] + [] == [a, b];
  }

  /** `!roll 5000 10` rolls from 10 to 5000. */
  lemma CapExample(a: string, b: string)
    requires a == "5000" && b == "10"
    ensures FreeRange([a, b]) == Ok(Range(10, 5000))
  {
    assert DigitsValue(a) == 5000 by {
      DigitsOf("500", '0', 500) by { DigitsOf("50", '0', 50) by { DigitsOf("5", '0', 5) by { DigitsOf("", '5', 0); } } }
      assert a == "500" + ['0'];
    }
    assert DigitsValue(b) == 10 by {
      DigitsOf("1", '0', 1) by { DigitsOf("", '1', 0); }
      assert b == "1" + ['0'];
    }
    ParsesDigits(a);
    ParsesDigits(b);
    ReversedParamsEscapeCap(a, b);
  }

  /** `!roll 400 -200` rolls from -200 to 400. */
  lemma FloorExample(a: string, b: string)
    requires a == "400" && b == "-200"
    ensures FreeRange([a, b]) == Ok(Range(-200, 400))
  {
    HundredsValue(a, '4', 400);
    HundredsValue(b[1..], '2', 200);
    ParsesDigits(a);
    ParsesNegative(b);
    ReversedParamsEscapeFloor(a, b);
  }

  /** A digit followed by two zeros. */
  lemma HundredsValue(ds: string, d: char, v: nat)
    requires ds == [d, '0', '0'] && IsDigit(d) && v == DigitValue(d) * 100
    ensures DigitsValue(ds) == v
  {
    DigitsOf([d, '0'], '0', DigitValue(d) * 10) by { DigitsOf([d], '0', DigitValue(d)) by { DigitsOf([], d, 0); } }
    assert ds == [d, '0'] + ['0'];
  }

  /** The value of digits with one more digit appended. */
  lemma DigitsOf(ds: string, c: char, v: nat)
    requires forall i :: 0 <= i < |ds| ==> IsDigit(ds[i])
    requires IsDigit(c) && DigitsValue(ds) == v
    ensures DigitsValue(ds + [c]) == v * 10 + DigitValue(c)
  {
    assert (ds + [c])[..|ds|] == ds;
  }

  /** A run of digits parses as its value. */
  lemma ParsesDigits(ds: string)
    requires ds != [] && forall i :: 0 <= i < |ds| ==> IsDigit(ds[i])
    ensures ParseInt(ds) == Some(DigitsValue(ds))
  {
    assert !IsSpace(ds[0]) && ds[0] != '-' && ds[0] != '+';
    assert TrimStart(ds) == ds;
    assert Unsigned(ds) == ds;
    LeadingDigitsAll(ds);
  }

  /** A minus sign and a run of digits parse as the negated value. */
  lemma ParsesNegative(s: string)
    requires |s| >= 2 && s[0] == '-' && forall i :: 1 <= i < |s| ==> IsDigit(s[i])
    ensures ParseInt(s) == Some(-(DigitsValue(s[1..]) as int))
  {
    assert !IsSpace(s[0]);
    assert TrimStart(s) == s;
    assert Unsigned(s) == s[1..];
    LeadingDigitsAll(s[1..]);
  }

  function Clamp(x: int): (r: int)
    ensures 0 <= r <= MaxHigh
    ensures 0 <= x <= MaxHigh ==> r == x
  {
    if x < 0 then 0 else if x > MaxHigh then MaxHigh else x
  }

  /** The range with the ends put in order first and clamped into 0 to 1000 afterwards. */
  function ClampedRange(params: seq<string>): (r: Result<Range, Thrown>)
    ensures r.Err? <==> FreeRange(params).Err?
    ensures r.Err? ==> r.error == Text(PleaseNumber)
    ensures r.Ok? ==> 0 <= r.value.low <= r.value.high <= MaxHigh
  {
    match FreeRange(params)
    case Err(e) => Err(e)
    case Ok(range) => Ok(Range(Clamp(range.low), Clamp(range.high)))
  }

  /** Where the written range already lies within 0 to 1000, the clamped one is the same. */
  lemma ClampedAgreesInBounds(params: seq<string>)
    requires FreeRange(params).Ok?
    requires 0 <= FreeRange(params).value.low && FreeRange(params).value.high <= MaxHigh
    ensures ClampedRange(params) == FreeRange(params)
  {
  }

  // ---------------------------------------------------------------- the dice

  /**
   * `Math.floor(Math.random() * (high - low + 1) + low)`, the random draw
   * standing as `pick`: one of the `high - low + 1` values from `low`.
   */
  function Dice(range: Range, pick: nat): (d: int)
    requires range.low <= range.high
    ensures range.low <= d <= range.high
  {
    range.low + pick % (range.high - range.low + 1)
  }

  /** Every value of the range can come up. */
  lemma EveryValueReachable(range: Range, d: int)
    requires range.low <= d <= range.high
    ensures Dice(range, d - range.low) == d
  {
  }

  datatype Rolled = Rolled(range: Range, dice: int)

  const RaffleRange := Range(0, 100)

  /** `_rollDice` up to the roll: in a raffle the range is fixed and the parameters are ignored. */
  function RollDice(params: seq<string>, inRaffle: bool, pick: nat): (r: Result<Rolled, Thrown>)
    ensures inRaffle ==> r.Ok? && r.value.range == RaffleRange
    ensures !inRaffle ==> (r.Err? <==> FreeRange(params).Err?)
    ensures !inRaffle && r.Ok? ==> r.value.range == FreeRange(params).value
    ensures r.Err? ==> r.error == Text(PleaseNumber)
    ensures r.Ok? ==> r.value.range.low <= r.value.dice <= r.value.range.high
  {
    if inRaffle then Ok(Rolled(RaffleRange, Dice(RaffleRange, pick)))
    else match FreeRange(params)
      case Err(e) => Err(e)
      case Ok(range) => Ok(Rolled(range, Dice(range, pick)))
  }

  /** As written, `!roll 5000 10` outside a raffle can roll 5000, above the cap of 1000. */
  lemma FreeRollEscapesCap(a: string, b: string)
    requires a == "5000" && b == "10"
    ensures RollDice([a, b], false, 4990) == Ok(Rolled(Range(10, 5000), 5000))
    ensures RollDice([a, b], false, 4990).value.dice > MaxHigh
  {
    CapExample(a, b);
    assert 4990 % 4991 == 4990;
  }

  /** With the corrected range, the same draw stays within 0 to 1000. */
  lemma ClampedRollInBounds(params: seq<string>, pick: nat)
    requires ClampedRange(params).Ok?
    ensures 0 <= Dice(ClampedRange(params).value, pick) <= MaxHigh
  {
  }

  // ---------------------------------------------------------------- the reply

  /** `numeral(n).format('0,0')` for a whole number, in groups of three. */
  function Pad3(n: nat): (s: string)
    requires n < 1000
  {
    [DigitChar(n / 100), DigitChar(n / 10 % 10), DigitChar(n % 10)]
  }

  function Grouped(n: nat): (s: string)
  {
    if n < 1000 then NatToString(n) else Grouped(n / 1000) + "," + Pad3(n % 1000)
  }

  function Thousands(n: int): string
  {
    if n < 0 then "-" + Grouped(-n) else Grouped(n)
  }

  /** The flourish after the range: a fire for the top roll of a real range, a facepalm for the bottom. */
  function Flourish(d: Rolled): (f: string)
    ensures d.dice == d.range.high && d.range.high != d.range.low ==> f == " :fire: :first_place:"
    ensures d.dice == d.range.low ==> f == " :facepalm:"
    ensures d.range.low < d.dice < d.range.high ==> f == ""
  {
    if d.dice == d.range.high && d.range.high != d.range.low then " :fire: :first_place:"
    else if d.dice == d.range.low then " :facepalm:"
    else ""
  }

  /** The text `!roll` resolves to; `about` is the prize of the channel's raffle, if any. */
  function RollText(d: Rolled, about: Option<string>): string
  {
    "you rolled _" + Thousands(d.dice) + "_ (" + Thousands(d.range.low) + " to " + Thousands(d.range.high) + ")"
    + Flourish(d) + (if about.Some? then " in the raffle for **" + about.value + "**" else "")
  }

  /** A roll shows how the raffle stands in the reply to a second `!roll`. */
  function AlreadyRolledText(dice: int): string
  {
    "you already rolled a _" + IntToString(dice) + "_ in this raffle."
  }

  // ---------------------------------------------------------------- the rollers

  /** The rolls in the order their users first rolled (`Common.objectIterator`). */
  function Collect(rolls: Rolls, keys: seq<string>): (r: seq<Roll>)
    requires forall k :: k in keys ==> k in rolls.vals
    ensures |r| == |keys|
    ensures forall i :: 0 <= i < |keys| ==> r[i] == rolls.vals[keys[i]]
  {
    if keys == [] then [] else Collect(rolls, keys[..|keys| - 1]) + [rolls.vals[keys[|keys| - 1]]]
  }

  function Rollers(rolls: Rolls): seq<Roll>
    requires rolls.Valid()
  {
    Collect(rolls, rolls.keys)
  }

  predicate SortedByDice(s: seq<Roll>)
  {
    forall i, j :: 0 <= i < j < |s| ==> s[i].dice <= s[j].dice
  }

  /** `x` placed after every roll whose dice is not above its own, from the back. */
  function Insert(s: seq<Roll>, x: Roll): (r: seq<Roll>)
    ensures |r| == |s| + 1
    ensures multiset(r) == multiset(s) + multiset{x}
  {
    if s == [] || s[|s| - 1].dice <= x.dice then s + [x]
    else
      assert s == s[..|s| - 1] + [s[|s| - 1]];
      Insert(s[..|s| - 1], x) + [s[|s| - 1]]
  }

  /** Inserting into sorted rolls keeps them sorted. */
  lemma {:induction false} InsertSorted(s: seq<Roll>, x: Roll)
    requires SortedByDice(s)
    ensures SortedByDice(Insert(s, x))
    decreases |s|
  {
    if !(s == [] || s[|s| - 1].dice <= x.dice) {
      var init := s[..|s| - 1];
      var last := s[|s| - 1];
      var mid := Insert(init, x);
      InsertSorted(init, x);
      forall y | y in mid ensures y.dice <= last.dice {
        assert y in multiset(init) + multiset{x};
        if y != x {
          var i :| 0 <= i < |init| && init[i] == y;
          assert s[i] == y;
        }
      }
      var r := mid + [last];
      forall i, j | 0 <= i < j < |r| ensures r[i].dice <= r[j].dice {
        if j == |r| - 1 {
          assert r[i] in mid;
        }
      }
    }
  }

  /** `rollers.sort(sortBy('dice'))`: ascending by dice, ties in the order given. */
  function SortByDice(s: seq<Roll>): (r: seq<Roll>)
    ensures |r| == |s|
    ensures multiset(r) == multiset(s)
    ensures SortedByDice(r)
  {
    if s == [] then []
    else
      assert s == s[..|s| - 1] + [s[|s| - 1]];
      InsertSorted(SortByDice(s[..|s| - 1]), s[|s| - 1]);
      Insert(SortByDice(s[..|s| - 1]), s[|s| - 1])
  }

  /** `_getSortedRaffleRollers(raffle)`: collect the rolls in order, then sort them. */
  method GetSortedRaffleRollers(rolls: Rolls) returns (rollers: seq<Roll>)
    requires rolls.Valid()
    ensures rollers == SortByDice(Rollers(rolls))
  {
    rollers := [];
    var i := 0;
    while i < |rolls.keys|
      invariant 0 <= i <= |rolls.keys|
      invariant rollers == Collect(rolls, rolls.keys[..i])
    {
      assert rolls.keys[..i + 1][..i] == rolls.keys[..i];
      rollers := rollers + [rolls.vals[rolls.keys[i]]];
      i := i + 1;
    }
    assert rolls.keys[..i] == rolls.keys;
    rollers := SortByDice(rollers);
  }

  /** The last of the sorted rollers is one of the rolls, and no roll is above it. */
  lemma WinnerRollsHighest(rollers: seq<Roll>)
    requires rollers != []
    ensures var s := SortByDice(rollers);
            s[|s| - 1] in rollers && forall y :: y in rollers ==> y.dice <= s[|s| - 1].dice
  {
    var s := SortByDice(rollers);
    assert s[|s| - 1] in multiset(s);
    forall y | y in rollers ensures y.dice <= s[|s| - 1].dice {
      assert y in multiset(s);
      var i :| 0 <= i < |s| && s[i] == y;
    }
  }

  /** The rows of the "High Rollers" field as written: the first five sorted rolls. */
  function ListedAsWritten(rollers: seq<Roll>): (r: seq<Roll>)
  {
    var s := SortByDice(rollers);
    s[..if |s| < 5 then |s| else 5]
  }

  /** As written the field lists the lowest rolls: a roll left out is never below one listed. */
  lemma ListsLowest(rollers: seq<Roll>, i: nat, j: nat)
    requires i < |ListedAsWritten(rollers)| <= j < |SortByDice(rollers)|
    ensures ListedAsWritten(rollers)[i].dice <= SortByDice(rollers)[j].dice
  {
  }

  /**
   * So with more than five rolls, a winner who rolled strictly above the
   * fifth lowest is missing from the "High Rollers": rolls of 1 to 6 list
   * 1 to 5 and leave out the winning 6.
   */
  lemma WinnerNotListed(rollers: seq<Roll>)
    requires |SortByDice(rollers)| > 5
    requires SortByDice(rollers)[4].dice < SortByDice(rollers)[|SortByDice(rollers)| - 1].dice
    ensures SortByDice(rollers)[|SortByDice(rollers)| - 1] !in ListedAsWritten(rollers)
  {
    var s := SortByDice(rollers);
    assert forall i :: 0 <= i < 5 ==> s[i].dice <= s[4].dice;
  }

  function Reversed(s: seq<Roll>): (r: seq<Roll>)
    ensures |r| == |s|
    ensures forall i :: 0 <= i < |s| ==> r[i] == s[|s| - 1 - i]
  {
    if s == [] then [] else [s[|s| - 1]] + Reversed(s[..|s| - 1])
  }

  /** The "High Rollers" field as meant: the five highest rolls, highest first. */
  function HighRollers(rollers: seq<Roll>): (r: seq<Roll>)
  {
    var s := SortByDice(rollers);
    Reversed(s[|s| - (if |s| < 5 then |s| else 5)..])
  }

  /** The corrected field holds the top five, or every roll when there are fewer, the winner first. */
  lemma HighRollersCount(rollers: seq<Roll>)
    ensures |HighRollers(rollers)| == if |rollers| < 5 then |rollers| else 5
    ensures rollers != [] ==> HighRollers(rollers)[0] == SortByDice(rollers)[|rollers| - 1]
  {
  }

  /** Each listed roll is the `i`-th highest: highest first, never below a roll left out. */
  lemma HighRollersAreHighest(rollers: seq<Roll>, i: nat, j: nat)
    requires i < |HighRollers(rollers)|
    requires j < |rollers| - |HighRollers(rollers)|
    ensures HighRollers(rollers)[i] == SortByDice(rollers)[|rollers| - 1 - i]
    ensures SortByDice(rollers)[j].dice <= HighRollers(rollers)[i].dice
    ensures i + 1 < |HighRollers(rollers)| ==> HighRollers(rollers)[i + 1].dice <= HighRollers(rollers)[i].dice
  {
    var s := SortByDice(rollers);
    var n := |HighRollers(rollers)|;
    assert s[|s| - n..][n - 1 - i] == s[|s| - 1 - i];
    assert i + 1 < n ==> s[|s| - n..][n - 1 - (i + 1)] == s[|s| - 1 - (i + 1)];
  }

  // ---------------------------------------------------------------- the end of a raffle

  const NoId := TypeErr("Cannot read property 'id' of undefined")
  const NoUsername := TypeErr("Cannot read property 'username' of undefined")

  /** A user in a template string: discord.js renders a user as its mention. */
  function Mention(u: User): string
  {
    "<@" + u.id + ">"
  }

  /** The roll `_raffleExpired` pops off the sorted rollers. */
  function Winner(rollers: seq<Roll>): (w: Roll)
    requires rollers != []
    ensures w in rollers
    ensures forall y :: y in rollers ==> y.dice <= w.dice
  {
    WinnerRollsHighest(rollers);
    var s := SortByDice(rollers);
    s[|s| - 1]
  }

  function NoParticipantsText(about: string, author: User): string
  {
    "The raffle for **" + about + "** by " + author.username + " is over! Sadly, there were no participants. Such is life."
  }

  function WinnerText(about: string, w: Roll, author: User): string
  {
    ":first_place: The raffle for **" + about + "** is over! " + Mention(w.user) + " is the"
    + " lucky winner with a roll of **" + IntToString(w.dice) + "**! Collect your prize from <@" + author.id + "> =D"
  }

  /**
   * `_raffleExpired(raffle)`: the channel id and the text it sends there,
   * or what it throws reading the channel or author the raffle lacks.
   */
  function RaffleExpired(f: UtilRaffle.Fields): (r: Result<(string, string), Thrown>)
    requires f.rolls.Valid()
    ensures f.channel.None? ==> r == Err(NoId)
    ensures f.channel.Some? && f.rolls.keys == [] ==>
              (f.author.None? ==> r == Err(NoUsername))
              && (f.author.Some? ==> r == Ok((f.channel.value.id, NoParticipantsText(f.about, f.author.value))))
    ensures f.channel.Some? && f.rolls.keys != [] ==>
              (f.author.None? ==> r == Err(NoId))
              && (f.author.Some? ==> r == Ok((f.channel.value.id, WinnerText(f.about, Winner(Rollers(f.rolls)), f.author.value))))
  {
    if f.channel.None? then Err(NoId)
    else if Rollers(f.rolls) == [] then
      if f.author.None? then Err(NoUsername)
      else Ok((f.channel.value.id, NoParticipantsText(f.about, f.author.value)))
    else if f.author.None? then Err(NoId)
    else Ok((f.channel.value.id, WinnerText(f.about, Winner(Rollers(f.rolls)), f.author.value)))
  }

  // ---------------------------------------------------------------- replies to a message

  const NoRaffle := "winner of what? There's no raffle going on."
  const NeedAbout := "we need something to raffle about!"
  const NoSetAuthor := TypeErr("raffle.setAuthor is not a function")

  function NotYoursText(owner: User): string
  {
    "the current raffle was started by " + owner.username + " - please wait until it's over to create yours."
  }

  function EndingText(about: string): string
  {
    "@everyone the raffle for **" + about + "** will end in 2 minutes! Make sure to `!roll` for it, if you haven't already!"
  }

  /** The status a non-owner gets for `!raffle`; `expires` is the expiry date as a string. */
  function StatusText(owner: User, about: string, expires: string, roll: Lookup): string
  {
    "The current raffle by " + owner.username + " for **" + about + "** will expire on " + expires + "."
    + (if roll.Found? then " You rolled _" + IntToString(roll.roll.dice) + "_." else " You have not yet participated!")
  }

  /** A channel's raffle as the module sees it: its own fields and its timer. */
  datatype Seen = Seen(fields: UtilRaffle.Fields, cb: UtilBreakTimer.Callback, start: int, expires: int)

  /**
   * How `Message` settles for `trigger` and `params` from `author`, given
   * the channel's raffle if it has one; `pick` is the random draw and
   * `dateText` renders the expiry date. A synchronous throw reaches the
   * bot's `await` as a rejection with the thrown value.
   */
  function Respond(trigger: string, params: seq<string>, raffle: Option<Seen>, author: User, pick: nat,
                  dateText: int -> string): (s: Settled)
    ensures trigger != "roll" && trigger != "winner" && trigger != "raffle" ==> s == Resolved(Falsy)
    ensures trigger == "roll" && raffle.Some? && author.id in raffle.value.fields.rolls.vals ==>
              s == Rejected(TextReply(AlreadyRolledText(raffle.value.fields.rolls.vals[author.id].dice)))
    ensures trigger == "roll" && raffle.None? ==>
              (s.Rejected? <==> FreeRange(params).Err?)
              && (s.Rejected? ==> s == Rejected(TextReply(PleaseNumber)))
    ensures trigger == "roll" && s.Resolved? ==>
              var d := RollDice(params, raffle.Some?, pick).value;
              s.reply == TextReply(RollText(d, if raffle.Some? then Some(raffle.value.fields.about) else None))
    ensures trigger == "winner" ==>
              (s.Resolved? <==> raffle.Some? && raffle.value.fields.author.Some? && raffle.value.fields.author.value.id == author.id)
    ensures trigger == "winner" && s.Resolved? ==> s.reply == Obj(Some(EndingText(raffle.value.fields.about)))
    ensures trigger == "winner" && raffle.None? ==> s == Rejected(TextReply(NoRaffle))
    ensures trigger == "raffle" && raffle.None? ==>
              (params == [] ==> s == Rejected(TextReply(NeedAbout)))
              && (params != [] ==> s == Rejected(ThrownReply(NoSetAuthor)))
    ensures trigger == "raffle" && raffle.Some? ==>
              (s.Resolved? <==> raffle.value.fields.author.Some? && raffle.value.fields.author.value.id == author.id)
  {
    if trigger == "roll" then
      if raffle.Some? && author.id in raffle.value.fields.rolls.vals then
        Rejected(TextReply(AlreadyRolledText(raffle.value.fields.rolls.vals[author.id].dice)))
      else
        match RollDice(params, raffle.Some?, pick)
        case Err(e) => Rejected(ThrownReply(e))
        case Ok(d) => Resolved(TextReply(RollText(d, if raffle.Some? then Some(raffle.value.fields.about) else None)))
    else if trigger == "winner" then
      if raffle.None? then Rejected(TextReply(NoRaffle))
      else
        var owner := raffle.value.fields.author;
        if owner.None? then Rejected(ThrownReply(NoId))
        else if owner.value.id != author.id then Rejected(TextReply(NotYoursText(owner.value)))
        else Resolved(Obj(Some(EndingText(raffle.value.fields.about))))
    else if trigger == "raffle" then
      if raffle.None? then
        if params == [] then Rejected(TextReply(NeedAbout)) else Rejected(ThrownReply(NoSetAuthor))
      else
        var owner := raffle.value.fields.author;
        var f := raffle.value.fields;
        if owner.None? then Rejected(ThrownReply(NoId))
        else if owner.value.id == author.id then Resolved(Obj(None))
        else Rejected(Obj(Some(StatusText(owner.value, f.about, dateText(raffle.value.expires), RaffleRolls.GetRoll(f.rolls, Some(author))))))
    else Resolved(Falsy)
  }

  /** What `Message` leaves of the channel's raffle: a roll recorded, or the timer reset by its owner. */
  function After(trigger: string, raffle: Seen, author: User, pick: nat, now: int): (r: Seen)
    ensures r.fields == raffle.fields.(rolls := r.fields.rolls)
    ensures trigger == "roll" && author.id !in raffle.fields.rolls.vals ==>
              r.fields.rolls == raffle.fields.rolls.Put(author.id, Roll(author, now, Dice(RaffleRange, pick)))
    ensures !(trigger == "roll" && author.id !in raffle.fields.rolls.vals) ==> r.fields.rolls == raffle.fields.rolls
    ensures trigger == "winner" && raffle.fields.author.Some? && raffle.fields.author.value.id == author.id ==>
              r.cb == UtilBreakTimer.NotCallable && r.start == r.expires == UtilBreakTimer.ExpiryAt(now, 0)
  {
    if trigger == "roll" && author.id !in raffle.fields.rolls.vals then
      raffle.(fields := raffle.fields.(rolls := RaffleRolls.AddRoll(raffle.fields.rolls, author, Dice(RaffleRange, pick), now).value))
    else if trigger == "winner" && raffle.fields.author.Some? && raffle.fields.author.value.id == author.id then
      raffle.(cb := UtilBreakTimer.NotCallable, start := UtilBreakTimer.ExpiryAt(now, 0), expires := UtilBreakTimer.ExpiryAt(now, 0))
    else raffle
  }

  /**
   * One roll per user per raffle: once a roll in a raffle has been
   * answered, the same user's next `!roll` there is refused with the dice
   * the first one announced.
   */
  lemma SecondRaffleRollRefused(params: seq<string>, raffle: Seen, author: User, pick: nat, now: int,
                                params2: seq<string>, pick2: nat, dateText: int -> string)
    requires Respond("roll", params, Some(raffle), author, pick, dateText).Resolved?
    ensures var later := After("roll", raffle, author, pick, now);
            Respond("roll", params2, Some(later), author, pick2, dateText)
              == Rejected(TextReply(AlreadyRolledText(RollDice(params, true, pick).value.dice)))
  {
  }

  /** A raffle roll ignores the parameters and lands between 0 and 100. */
  lemma RaffleRollInRange(params: seq<string>, raffle: Seen, author: User, pick: nat, dateText: int -> string)
    requires author.id !in raffle.fields.rolls.vals
    ensures Respond("roll", params, Some(raffle), author, pick, dateText) == Resolved(TextReply(RollText(RollDice([], true, pick).value, Some(raffle.fields.about))))
    ensures 0 <= RollDice(params, true, pick).value.dice <= 100
  {
  }

  /** No message ever starts a raffle: `!raffle` without one always rejects. */
  lemma StartNeverSucceeds(params: seq<string>, author: User, pick: nat, dateText: int -> string)
    ensures Respond("raffle", params, None, author, pick, dateText).Rejected?
  {
  }

  // ---------------------------------------------------------------- the module

  /** Whether asking a raffle's timer `expired()` at `now` answers, and with what. */
  function Outcome(r: UtilRaffle.Raffle, now: int): Result<bool, Thrown>
    reads r.timer
  {
    UtilBreakTimer.CheckExpiry(r.timer.cb, r.timer.expires, now).result
  }

  /**
   * The loop of `_checkExpiredRaffles` over `keys`: an expired raffle is
   * deleted, and the first `expired()` that throws ends the sweep with the
   * deletions made so far.
   */
  function Sweep(d: Dict<UtilRaffle.Raffle>, keys: seq<string>, now: int): (r: (Dict<UtilRaffle.Raffle>, Option<Thrown>))
    reads set k | k in d.vals :: d.vals[k].timer
    ensures forall k :: k in r.0.vals ==> k in d.vals && r.0.vals[k] == d.vals[k]
    decreases |keys|
  {
    if keys == [] then (d, None)
    else
      var k := keys[0];
      if k !in d.vals then Sweep(d, keys[1..], now)
      else match Outcome(d.vals[k], now)
        case Err(e) => (d, Some(e))
        case Ok(expired) => if expired then Sweep(d.Remove(k), keys[1..], now) else Sweep(d, keys[1..], now)
  }

  /**
   * A sweep keeps every raffle whose key it does not visit; when nothing
   * throws, it deletes exactly the visited raffles that had expired, and a
   * throw comes from one of the visited raffles.
   */
  lemma {:induction false} SweepDeletesExpired(d: Dict<UtilRaffle.Raffle>, keys: seq<string>, now: int)
    ensures var r := Sweep(d, keys, now);
            (forall k :: k in d.vals && k !in keys ==> k in r.0.vals)
            && (r.1.None? ==> forall k :: k in keys && k in d.vals ==> (k in r.0.vals <==> Outcome(d.vals[k], now) == Ok(false)))
            && (r.1.Some? ==> exists k :: k in keys && k in d.vals && Outcome(d.vals[k], now) == Err(r.1.value))
    decreases |keys|
  {
    if keys != [] {
      var k := keys[0];
      assert forall x :: x in keys <==> x == k || x in keys[1..];
      if k !in d.vals {
        SweepDeletesExpired(d, keys[1..], now);
      } else if Outcome(d.vals[k], now) == Ok(true) {
        SweepDeletesExpired(d.Remove(k), keys[1..], now);
      } else if Outcome(d.vals[k], now) == Ok(false) {
        SweepDeletesExpired(d, keys[1..], now);
      }
    }
  }

  /** The loop of `_checkExpiredRaffles`, over the keys as they were when it started. */
  method SweepRaffles(d: Dict<UtilRaffle.Raffle>, now: int) returns (r: Dict<UtilRaffle.Raffle>, error: Option<Thrown>)
    ensures (r, error) == Sweep(d, d.keys, now)
  {
    var keys := d.keys;
    r := d;
    var i := 0;
    error := None;
    while i < |keys|
      invariant 0 <= i <= |keys|
      invariant forall k :: k in r.vals ==> k in d.vals && r.vals[k] == d.vals[k]
      invariant Sweep(d, keys, now) == Sweep(r, keys[i..], now)
    {
      var k := keys[i];
      assert keys[i..][1..] == keys[i + 1..];
      if k in r.vals {
        var result, ran := r.vals[k].timer.Expired(now);
        if result.Err? {
          error := Some(result.error);
          return;
        }
        if result.value {
          r := r.Remove(k);
        }
      }
      i := i + 1;
    }
  }

  class RollModule {
    /** `this.raffles`: channel id to that channel's raffle. */
    var raffles: Dict<UtilRaffle.Raffle>

    /** The objects a message in `channelId` may change: that channel's raffle and its timer. */
    function Frame(channelId: string): set<object>
      reads this
    {
      if channelId in raffles.vals then {raffles.vals[channelId], raffles.vals[channelId].timer} else {}
    }

    function SeenIn(channelId: string): (r: Option<Seen>)
      reads this, Frame(channelId)
      ensures r.Some? <==> channelId in raffles.vals
    {
      if channelId in raffles.vals then
        var raffle := raffles.vals[channelId];
        Some(Seen(raffle.Own(), raffle.timer.cb, raffle.timer.start, raffle.timer.expires))
      else None
    }

    /** `new RollModule(...)`: no raffles, then a first sweep, which finds nothing to check. */
    constructor(now: int)
      ensures raffles == Empty()
    {
      raffles := Empty();
      new;
      var error := CheckExpiredRaffles(now);
    }

    /** `_checkExpiredRaffles()` at clock reading `now`, without the rescheduling. */
    method CheckExpiredRaffles(now: int) returns (error: Option<Thrown>)
      modifies this
      ensures (raffles, error) == Sweep(old(raffles), old(raffles).keys, now)
    {
      raffles, error := SweepRaffles(raffles, now);
    }

    /**
     * `Message(message)` for `trigger` and `params` from `author` in
     * `channelId`, with the random draw `pick`, the clock reading `now` and
     * the rendering `dateText` of dates. The raffles themselves are never
     * added or removed here.
     */
    method Message(trigger: string, params: seq<string>, channelId: string, author: User, pick: nat, now: int,
                   dateText: int -> string) returns (s: Settled)
      modifies Frame(channelId)
      ensures s == Respond(trigger, params, old(SeenIn(channelId)), author, pick, dateText)
      ensures channelId in raffles.vals ==> SeenIn(channelId).value == After(trigger, old(SeenIn(channelId)).value, author, pick, now)
    {
      if channelId !in raffles.vals {
        if trigger == "roll" {
          var rolled := RollDice(params, false, pick);
          if rolled.Err? {
            return Rejected(ThrownReply(rolled.error));
          }
          return Resolved(TextReply(RollText(rolled.value, None)));
        } else if trigger == "winner" {
          return Rejected(TextReply(NoRaffle));
        } else if trigger == "raffle" {
          if params == [] {
            return Rejected(TextReply(NeedAbout));
          }
          return Rejected(ThrownReply(NoSetAuthor));
        }
        return Resolved(Falsy);
      }
      var raffle := raffles.vals[channelId];
      var roll := raffle.GetRoll(Some(author));
      if trigger == "roll" {
        if roll.Found? {
          return Rejected(TextReply(AlreadyRolledText(roll.roll.dice)));
        }
        var rolled := RollDice(params, true, pick);
        var added := raffle.AddRoll(author, rolled.value.dice, now);
        s := Resolved(TextReply(RollText(rolled.value, Some(raffle.about))));
      } else if trigger == "winner" {
        if raffle.author.None? {
          return Rejected(ThrownReply(NoId));
        }
        if raffle.author.value.id != author.id {
          return Rejected(TextReply(NotYoursText(raffle.author.value)));
        }
        raffle.timer.Reset(0, UtilBreakTimer.NotCallable, now);
        s := Resolved(Obj(Some(EndingText(raffle.about))));
      } else if trigger == "raffle" {
        if raffle.author.None? {
          return Rejected(ThrownReply(NoId));
        }
        if raffle.author.value.id == author.id {
          return Resolved(Obj(None));
        }
        var status := StatusText(raffle.author.value, raffle.about, dateText(raffle.timer.expires), roll);
        return Rejected(Obj(Some(status)));
      } else {
        s := Resolved(Falsy);
      }
    }
  }
}

=== FILE: test_module.dfy ===
/**
 * The `!test` command: a 35-character progress bar that fills up by a
 * random step every second until it reaches 99%.
 */
module TestModule {
  import opened Js
  import opened Bot

  const TotalLength := 35
  const Filled := '\U{2593}'
  const Blank := '\U{2591}'

  /** `c.repeat(n)` behind a `n > 0` guard: nothing for zero or less. */
  function Repeat(c: char, n: int): (s: string)
    ensures n <= 0 ==> s == []
    ensures n > 0 ==> |s| == n
    ensures forall i :: 0 <= i < |s| ==> s[i] == c
  {
    if n > 0 then seq(n, _ => c) else []
  }

  /** `Math.ceil(a / b)` for a positive `b` (Dafny's `/` floors here). */
  function CeilDiv(a: int, b: int): (q: int)
    requires b > 0
    ensures q * b >= a && (q - 1) * b < a
  {
    (a + b - 1) / b
  }

  /** The filled length for a percentage: `Math.ceil(35 * p / 100)`. */
  function FillLength(p: int): (f: int)
    ensures f * 100 >= TotalLength * p && (f - 1) * 100 < TotalLength * p
  {
    CeilDiv(TotalLength * p, 100)
  }

  /** A percentage in range fills between nothing and the whole bar, growing with `p`. */
  lemma FillInRange(p: int, q: int)
    requires 0 <= p <= q <= 100
    ensures 0 <= FillLength(p) <= FillLength(q) <= TotalLength
    ensures FillLength(0) == 0 && FillLength(100) == TotalLength
    ensures p > 0 ==> FillLength(p) > 0
  {
  }

  /** `String(percentage)`: a number, or `NaN` (`None`). */
  function PercentText(p: Option<int>): string
  {
    if p.Some? then IntToString(p.value) else "NaN"
  }

  /**
   * `_getProgressBar(percentage)`. A `NaN` percentage has a `NaN` fill,
   * which counts as 0 for the blank part and is never above 0.
   */
  function ProgressBar(p: Option<int>): (bar: string)
    ensures EndsWith(bar, " " + PercentText(p) + "%")
  {
    var fill := if p.Some? then FillLength(p.value) else 0;
    var blank := TotalLength - fill;
    Repeat(Filled, fill) + Repeat(Blank, blank) + " " + PercentText(p) + "%"
  }

  /**
   * For a percentage from 0 to 100 the bar is exactly 35 glyphs, filled
   * ones first (`ceil(35p/100)` of them), then blank ones, then the label.
   */
  lemma BarShape(p: int)
    requires 0 <= p <= 100
    ensures var bar := ProgressBar(Some(p));
            |bar| == TotalLength + |IntToString(p)| + 2
            && (forall i :: 0 <= i < FillLength(p) ==> bar[i] == Filled)
            && (forall i :: FillLength(p) <= i < TotalLength ==> bar[i] == Blank)
            && bar[TotalLength..] == " " + IntToString(p) + "%"
  {
    FillInRange(p, 100);
    var f := FillLength(p);
    var bar := ProgressBar(Some(p));
    var glyphs := Repeat(Filled, f) + Repeat(Blank, TotalLength - f);
    assert |glyphs| == TotalLength;
    assert bar == glyphs + (" " + IntToString(p) + "%");
    forall i | 0 <= i < TotalLength ensures bar[i] == glyphs[i] {
    }
  }

  /** A `NaN` percentage draws an all-blank bar labelled `NaN%`. */
  lemma NaNBar()
    ensures ProgressBar(None) == Repeat(Blank, TotalLength) + " NaN%"
  {
  }

  // ---------------------------------------------------------------- updates

  /** One `_updateMessage` step: add the increment and cap at 99. */
  function Bump(p: Option<int>, inc: int): (r: Option<int>)
    ensures p.None? <==> r.None?
    ensures r.Some? ==> r.value <= 99
    ensures r.Some? && p.value + inc <= 99 ==> r.value == p.value + inc
  {
    if p.None? then None
    else if p.value + inc > 99 then Some(99) else Some(p.value + inc)
  }

  /** Whether a step schedules another one: only below 99 (never for `NaN`). */
  predicate Again(p: Option<int>)
  {
    p.Some? && p.value < 99
  }

  /**
   * The percentages shown, one per step, when the random increments come
   * out as `incs`; a run ends at the first step that does not reschedule
   * (or when `incs` runs out).
   */
  function Shown(p: Option<int>, incs: seq<int>): (r: seq<Option<int>>)
    ensures |r| <= |incs|
    decreases |incs|
  {
    if incs == [] then []
    else
      var q := Bump(p, incs[0]);
      [q] + (if Again(q) then Shown(q, incs[1..]) else [])
  }

  /** The bars a run edits into the message. */
  function Bars(p: Option<int>, incs: seq<int>): (bars: seq<string>)
    ensures |bars| == |Shown(p, incs)|
  {
    var shown := Shown(p, incs);
    seq(|shown|, i requires 0 <= i < |shown| => ProgressBar(shown[i]))
  }

  /** No percentage shown is above 99, and every one but the last reschedules. */
  lemma {:induction false} ShownCapped(p: Option<int>, incs: seq<int>)
    requires p.Some?
    ensures forall i :: 0 <= i < |Shown(p, incs)| ==> Shown(p, incs)[i].Some? && Shown(p, incs)[i].value <= 99
    ensures forall i :: 0 <= i < |Shown(p, incs)| - 1 ==> Again(Shown(p, incs)[i])
    decreases |incs|
  {
    if incs != [] {
      var q := Bump(p, incs[0]);
      if Again(q) {
        ShownCapped(q, incs[1..]);
      }
    }
  }

  /**
   * With increments of at least 4 (`getRandomInt(4, 24)`), a run started
   * from a percentage below 99 edits the message at most `(102 - p) / 4`
   * times: at most 25 bars from 0%.
   */
  lemma {:induction false} ShownBounded(p: int, incs: seq<int>)
    requires 0 <= p < 99
    requires forall i :: 0 <= i < |incs| ==> incs[i] >= 4
    ensures |Shown(Some(p), incs)| <= (102 - p) / 4
    decreases |incs|
  {
    if incs != [] {
      var q := Bump(Some(p), incs[0]);
      if Again(q) {
        assert q.value >= p + 4;
        ShownBounded(q.value, incs[1..]);
      }
    }
  }

  /** A `NaN` start shows one `NaN` bar and stops. */
  lemma NaNRunStops(incs: seq<int>)
    requires incs != []
    ensures Shown(None, incs) == [None]
  {
  }

  // ---------------------------------------------------------------- the command

  /** The percentage `Message` starts from: `max(1, parseInt(p, 10))`, or 0 without a parameter. */
  function InitialPercentage(params: seq<string>): (p: Option<int>)
    ensures params == [] ==> p == Some(0)
    ensures params != [] ==> (p.None? <==> ParseInt(params[0]).None?)
    ensures p.Some? && params != [] ==> p.value >= 1 && p.value >= ParseInt(params[0]).value
    ensures p.Some? && params != [] && ParseInt(params[0]).value >= 1 ==> p.value == ParseInt(params[0]).value
  {
    if params == [] then Some(0)
    else match ParseInt(params[0])
      case None => None
      case Some(n) => Some(if n > 1 then n else 1)
  }

  /** What `!test` does: post the loading text, then the bars; the command's own reply is `false`. */
  datatype TestRun = TestRun(reply: Settled, messages: seq<string>)

  const Loading := "Loading, please wait..."

  function TestMessage(params: seq<string>, incs: seq<int>): (r: TestRun)
    ensures r.reply == Resolved(Falsy)
    ensures |r.messages| >= 1 && r.messages[0] == Loading
    ensures r.messages[1..] == Bars(InitialPercentage(params), incs)
  {
    TestRun(Resolved(Falsy), [Loading] + Bars(InitialPercentage(params), incs))
  }
}

=== FILE: util_break_timer.dfy ===
/**
 * The older break timer: it remembers a callback and an expiry time and
 * only notices expiry when asked, running the callback then.
 */
module UtilBreakTimer {
  import opened Js

  /** What `this.cb` holds: a function (which may throw when called) or anything else. */
  datatype Callback = Callable(name: string, failure: Option<Thrown>) | NotCallable

  const NotAFunction := TypeErr("this.cb is not a function")

  /** `moment().add(timeout, 'second')` with the clock reading `now` in milliseconds. */
  function ExpiryAt(now: int, timeout: int): int
  {
    now + timeout * 1000
  }

  /** What one `expired()` call returns or throws, and which callback it ran. */
  datatype Check = Check(result: Result<bool, Thrown>, ran: Option<string>)

  /**
   * `expired()` at clock reading `now`: expired exactly when `now` is after
   * `expires`; only then is the callback called, and calling something that
   * is not a function, or a callback that throws, throws out of `expired()`.
   */
  function CheckExpiry(cb: Callback, expires: int, now: int): (c: Check)
    ensures c.ran.Some? ==> now > expires && cb.Callable? && c.ran.value == cb.name
    ensures now > expires && cb.Callable? ==> c.ran.Some?
    ensures c.result.Ok? ==> c.result.value == (now > expires)
    ensures now <= expires ==> c.result == Ok(false)
    ensures c.result.Err? <==> now > expires && (cb.NotCallable? || cb.failure.Some?)
    ensures now > expires && cb.NotCallable? ==> c.result == Err(NotAFunction)
  {
    if now <= expires then Check(Ok(false), None)
    else match cb
      case NotCallable => Check(Err(NotAFunction), None)
      case Callable(name, failure) =>
        Check(if failure.Some? then Err(failure.value) else Ok(true), Some(name))
  }

  class BreakTimer {
    var cb: Callback
    /** `this.start`, which `add` moves forward to the expiry itself. */
    var start: int
    var expires: int

    /** `new BreakTimer(timeout, cb)`: a reset at construction. */
    constructor(timeout: int, cb: Callback, now: int)
      ensures this.cb == cb
      ensures expires == ExpiryAt(now, timeout) && start == expires
    {
      this.cb := cb;
      start := ExpiryAt(now, timeout);
      expires := ExpiryAt(now, timeout);
    }

    /** `reset(timeout, cb)`: a new callback and a new expiry, whatever was there before. */
    method Reset(timeout: int, cb: Callback, now: int)
      modifies this
      ensures this.cb == cb
      ensures expires == ExpiryAt(now, timeout) && start == expires
    {
      this.cb := cb;
      start := now;
      start := start + timeout * 1000;
      expires := start;
    }

    /** `expired()`, asked at clock reading `now`; it changes nothing. */
    method Expired(now: int) returns (result: Result<bool, Thrown>, ran: Option<string>)
      ensures Check(result, ran) == CheckExpiry(cb, expires, now)
    {
      var isExpired := now > expires;
      ran := None;
      result := Ok(isExpired);
      if isExpired {
        match cb
        case NotCallable =>
          result := Err(NotAFunction);
        case Callable(name, failure) =>
          ran := Some(name);
          if failure.Some? {
            result := Err(failure.value);
          }
      }
    }
  }

  /** A timer reset with a timeout in the future is not expired now, and its callback does not run. */
  lemma FreshResetNotExpired(cb: Callback, now: int, timeout: int)
    requires timeout >= 0
    ensures CheckExpiry(cb, ExpiryAt(now, timeout), now) == Check(Ok(false), None)
  {
  }

  /** Once the expiry has passed, asking again keeps answering expired while the callback allows. */
  lemma ExpiryIsFinal(cb: Callback, expires: int, now: int, later: int)
    requires now <= later
    ensures CheckExpiry(cb, expires, now).result == Ok(true) ==> CheckExpiry(cb, expires, later).result == Ok(true)
  {
  }
}

=== FILE: util_raffle.dfy ===
/**
 * The older raffle, the one the roll command uses. It is built on the
 * older break timer, whose constructor takes `(timeout, cb)`: the
 * raffle's end date lands in the timeout and its author in the callback,
 * and its channel is dropped. It keeps no author or channel of its own
 * unless restored data brings them.
 */
module UtilRaffle {
  import opened Js
  import opened Chat
  import opened OrderedDict
  import opened RaffleRolls
  import UtilBreakTimer

  /** The data `restore` is given: each field present or not. */
  datatype Data = Data(
    author: Option<User>,
    channel: Option<ChannelRef>,
    announceMessageId: Option<Option<string>>,
    ending: Option<bool>,
    rolls: Option<Rolls>,
    about: Option<string>)

  function Pick<T>(given: Option<T>, current: T): T
  {
    if given.Some? then given.value else current
  }

  /** The raffle's own fields, as `restore` sees them. */
  datatype Fields = Fields(
    author: Option<User>,
    channel: Option<ChannelRef>,
    announceMessageId: Option<string>,
    ending: bool,
    rolls: Rolls,
    about: string)

  /** `Object.assign(raffle, data)`: present fields win. */
  function Overlay(f: Fields, data: Data): (r: Fields)
    ensures data.author.Some? ==> r.author == data.author
    ensures data.author.None? ==> r.author == f.author
    ensures data.rolls.None? ==> r.rolls == f.rolls
    ensures data.ending.None? ==> r.ending == f.ending
  {
    Fields(
      if data.author.Some? then data.author else f.author,
      if data.channel.Some? then data.channel else f.channel,
      Pick(data.announceMessageId, f.announceMessageId),
      Pick(data.ending, f.ending),
      Pick(data.rolls, f.rolls),
      Pick(data.about, f.about))
  }

  /** Restoring the same data twice is restoring it once. */
  lemma OverlayIdempotent(f: Fields, data: Data)
    ensures Overlay(Overlay(f, data), data) == Overlay(f, data)
  {
  }

  /** `super.serialize()` does not exist on the older timer: calling it throws. */
  const NoSerialize := TypeErr("(intermediate value).serialize is not a function")

  class Raffle {
    /** The break-timer part of the raffle. */
    const timer: UtilBreakTimer.BreakTimer
    var author: Option<User>
    var channel: Option<ChannelRef>
    var ending: bool
    var announceMessageId: Option<string>
    var rolls: Rolls
    var about: string

    /**
     * `new Raffle(about, author, channel)`: the timer gets `lifetime` (what
     * the older timer makes of the end date handed over as a number of
     * seconds) and `author` as its callback.
     */
    constructor(about: string, author: UtilBreakTimer.Callback, lifetime: int, now: int)
      ensures fresh(timer)
      ensures timer.cb == author && timer.expires == UtilBreakTimer.ExpiryAt(now, lifetime)
      ensures this.author.None? && channel.None?
      ensures !ending && announceMessageId.None? && rolls == Empty() && this.about == about
    {
      timer := new UtilBreakTimer.BreakTimer(lifetime, author, now);
      this.author := None;
      channel := None;
      ending := false;
      announceMessageId := None;
      rolls := Empty();
      this.about := about;
    }

    function Own(): Fields
      reads this
    {
      Fields(author, channel, announceMessageId, ending, rolls, about)
    }

    /** `restore(data)`: overlay the data; the timer is left as it was. */
    method Restore(data: Data) returns (self: Raffle)
      modifies this
      ensures Own() == Overlay(old(Own()), data)
      ensures self == this
    {
      if data.author.Some? {
        author := data.author;
      }
      if data.channel.Some? {
        channel := data.channel;
      }
      announceMessageId := Pick(data.announceMessageId, announceMessageId);
      ending := Pick(data.ending, ending);
      rolls := Pick(data.rolls, rolls);
      about := Pick(data.about, about);
      self := this;
    }

    /**
     * `endRaffle()`: the first call marks the raffle as ending and resets
     * the timer with the two-minute date as its timeout (`timeout` seconds)
     * and no callback; later calls change nothing.
     */
    method EndRaffle(timeout: int, now: int)
      modifies this, timer
      ensures old(ending) ==> unchanged(this) && unchanged(timer)
      ensures !old(ending) ==> ending && timer.cb == UtilBreakTimer.NotCallable
      ensures !old(ending) ==> timer.expires == UtilBreakTimer.ExpiryAt(now, timeout)
      ensures rolls == old(rolls) && about == old(about) && author == old(author)
    {
      if ending {
        return;
      }
      ending := true;
      timer.Reset(timeout, UtilBreakTimer.NotCallable, now);
    }

    /** `addRoll(user, dice)` at clock reading `now`; returns the raffle, or throws on a second roll. */
    method AddRoll(user: User, dice: int, now: int) returns (r: Result<Raffle, Thrown>)
      modifies this
      ensures var added := RaffleRolls.AddRoll(old(rolls), user, dice, now);
              (added.Ok? ==> r == Ok(this) && rolls == added.value)
              && (added.Err? ==> r == Err(added.error) && rolls == old(rolls))
      ensures Own() == old(Own()).(rolls := rolls)
    {
      var added := RaffleRolls.AddRoll(rolls, user, dice, now);
      if added.Err? {
        return Err(added.error);
      }
      rolls := added.value;
      r := Ok(this);
    }

    /** `getRoll(user)` */
    function GetRoll(user: Option<User>): Lookup
      reads this
    {
      RaffleRolls.GetRoll(rolls, user)
    }

    /** `serialize()`: always throws, as the older timer has no `serialize` to extend. */
    function Serialize(): (r: Result<Fields, Thrown>)
      ensures r.Err? && r.error.TypeErr?
    {
      Err(NoSerialize)
    }
  }

  /** An ended raffle whose timer has run out throws when asked whether it expired. */
  lemma EndedRaffleExpiryThrows(expires: int, now: int)
    requires now > expires
    ensures UtilBreakTimer.CheckExpiry(UtilBreakTimer.NotCallable, expires, now).result
            == Err(UtilBreakTimer.NotAFunction)
  {
  }
}
